=== FILE: README.md ===
# shill-gpt-bot in Dafny

A model of the core of shill-gpt-bot, a Telegram bot that turns a tweet
into a link to a generated reply. A chat member sends a tweet link and the
tweet's text. The bot stores a record and answers with a link into the API
service. The service asks a language model for a reply in a persona's
voice, at most three times, and redirects to Twitter's composer.

The model covers:

- **Validators** of the configuration conversation (`validators.dfy`): the
  token name, hashtag and cashtag grammars, and the 500-byte community
  description.
- **Tweet links** (`tweet_links.dfy`): the host allow-lists, the
  `/<user>/status/<digits>` path, query stripping and ID extraction, over an
  abstract URL decomposition.
- **Escaping** (`escape.dfy`): the helper package's seven-character Markdown
  escape and the legacy dispatcher's two-character one.
- **Prompt ledger** (`ledger.dfy`): the list of prompts a flow has sent, and
  the "delete last" and "delete all" helpers. Each deletion's success comes
  from an oracle.
- **Reply-link conversation** (`shillx.dfy`): the per-chat state table, the
  link, text and generation steps, `Cancel` and `Done`.
- **Troll conversation** (`trollx.dfy`): the same conversation on the same
  table, with the reply type forced to troll.
- **Configuration conversation** (`config_flow.dfy`): the menu, the four
  field prompts, the replies with validation, clear, back, cancel, done, and
  the lazily created configuration record.
- **Legacy dispatcher** (`legacy.dfy`): command routing, `/shillx`,
  `/cancel`, the cancel button, and the default handler's link, text and
  link-generation steps.
- **Reply generation** (`reply.dfy`):
  - persona and template selection;
  - the three-attempt loop, which keeps a reply of at most 280 bytes once
    surrounding quotes are removed;
  - `createTwitterReply`: lookup, not-found, generation and redirect.
- **Command-handler interface** (`command_handler.dfy`):
  - the default `Command`, whose every method does nothing, `Done` is
    true and `Cancelled` is false;
  - the three handlers that embed it, each keeping to its own tables.

Shared pieces:

- `wrappers.dfy`: `Option`, `Result` and a map lookup with a default, like
  Go's zero value.
- `text.dfy`: Go's `strings.TrimSpace`, `strings.Trim(s, "\"")`,
  `strings.Split`, `strings.ToUpper` and `len` in UTF-8 bytes.

Every handler call is one pure transition. It takes the state tables and an
`Io` record of what the outside world answered during that call. The answers
cover:

- whether a message was sent, and its id;
- whether a deletion, a lookup, an insert or an update succeeded;
- the id the store gave a new record;
- the URL parser's result.

It returns the new tables and the list of effects: messages sent, messages
deleted, records inserted, dialogs shown. Unicode letter, digit and
upper-case tables are a `Classes` parameter. `Sound` states the facts the
proofs rely on: ASCII letters and digits are letters and digits, and `_`,
`#`, `$` and the space are neither.

`ShillX.Good`, `ConfigFlow.Good` and `Legacy.Good` say what reachable tables
look like, and a lemma per transition shows it is kept. The panics of the
source are handled in two ways:

- A continuation of the reply-link flow deletes its last prompt. `ShillX.Good`
  shows that a reachable entry in progress always has one, so the model states
  this as a precondition.
- `onClear` deletes the last prompt of a ledger that can be empty. The main
  menu stores an empty ledger. With two menus open in one chat, Back on a
  prompt from one menu empties the ledger while a prompt from the other, with
  its Clear button, stays on screen. `ConfigFlow.OnClear` returns `None` for
  that call, and a session that reaches it ends in `None` (see "## Findings").

## Model

| member | source | states |
|---|---|---|
| Validators.HashtagsSpec | pkg/commandhandler/config/command.go:500-504 | The hashtag pattern accepts a string exactly when every single-space-separated piece is `#` followed by one or more letters, digits or `_`. |
| Validators.CashtagsSpec | pkg/commandhandler/config/command.go:553-556 | The cashtag pattern accepts a string exactly when every single-space-separated piece is `$` followed by one or more ASCII letters or digits. |
| Validators.MatchesIsSplit | pkg/commandhandler/config/command.go:500-504 | The left-to-right reading of the `^(P[B]+)( P[B]+)*$` pattern agrees with splitting on single spaces, in both directions. |
| Validators.MatchesShape | pkg/commandhandler/config/command.go:500-504 | An accepted tag list starts with the prefix, has at least two characters, does not end in a space, and every space is followed by the prefix. |
| Validators.HashtagExamples | pkg/commandhandler/config/command.go:500-504 | `#A #B` and `#my_token #TOKEN2` are accepted. |
| Validators.HashtagRejections | pkg/commandhandler/config/command.go:500-504 | A comma, a double space, the empty string and a missing `#` are refused. |
| Validators.CashtagExamples | pkg/commandhandler/config/command.go:553-556 | `$TROLL` and `$A $B2` pass; `$A_B`, `#A` and a bare `$` do not. |
| Validators.TokenNameExamples | pkg/commandhandler/config/command.go:448-451 | Token names are non-empty runs of letters and digits, so a space or `_` is refused. |
| Validators.CommunityBound | pkg/commandhandler/config/command.go:605-607 | For ASCII text the 500-byte bound is a 500-character bound: 500 pass, 501 do not. |
| TweetLinks.StripQueryRemovesQuery | pkg/commandhandler/shillx/command.go:200-210 | The stored link is the URL as Go renders it, minus the query text. The `?` goes too, unless the query was forced by a bare `?`. Scheme, userinfo, host, port, escaped path and escaped fragment are kept. |
| TweetLinks.ExtractTweetIdSpec | pkg/commandhandler/shillx/command.go:313-316 | The extracted ID contains no `/`, is a suffix of the link, and is the whole link when the link has no `/`. |
| TweetLinks.TweetPathShape | pkg/commandhandler/shillx/command.go:296-310 | A recognised path splits into an empty piece, a `/`-free user, `status` and a non-empty run of digits. |
| TweetLinks.TweetPathOf | pkg/commandhandler/shillx/command.go:296-310 | Conversely, every `/<user>/status/<digits>` is a recognised path. |
| TweetLinks.JoinSplit | pkg/commandhandler/shillx/command.go:313-316 | Joining the pieces of a split with the separator gives the original string. |
| TweetLinks.ExtractIdOfTweetLink | pkg/commandhandler/shillx/command.go:313-316 | For a recognised link without a fragment, the ID is the last piece of the escaped path, then a `?` if the query was forced. When the path is rendered as decoded, that piece is the status number. |
| TweetLinks.ExtractIdExample | pkg/commandhandler/shillx/command.go:313-316 | The ID of `https://x.com/u/status/999` is `999`. |
| TweetLinks.StripQueryExample | pkg/commandhandler/shillx/command.go:200-210 | For `https://x.com/u/status/999?x=1`, the stored link is the rendered URL without its trailing `?x=1`, and its ID is `999`. |
| TweetLinks.FragmentReachesTweetId | pkg/commandhandler/shillx/command.go:200-210 | A fragment survives stripping. Its escaped form ends up in the extracted ID, after the last piece of the escaped path, any forced `?` and a `#`. |
| TweetLinks.EmptyPortKept | pkg/commandhandler/shillx/command.go:200-210 | `https://x.com:/u/status/1` (a colon with an empty port) is a recognised link, stored with its colon, and its ID is `1`. |
| TweetLinks.ForcedQueryId | pkg/commandhandler/shillx/command.go:207-208 | `https://x.com/u/status/1?` is a recognised link, stored with its bare `?`, so its ID is `1?`. |
| TweetLinks.CanonicalLinkId | pkg/commandhandler/shillx/command.go:207-208 | Once the forced `?` is dropped as well, the ID of a status link with no fragment is its status number, a non-empty run of digits. |
| TweetLinks.HostExamples | pkg/shillgptbot/shillgptbot.go:353-367 | x.com is accepted by the reply-link flow and refused by the legacy dispatcher; every legacy-accepted link is accepted by the reply-link flow. |
| Escape.EscapeCharsIsEscapeSet | pkg/tghelper/tghelper.go:146-156 | The chain of seven `ReplaceAll` calls equals one pass that puts a backslash before each of `.`, `!`, `_`, `<`, `>`, `=`, `-`. |
| Escape.LegacyEscapeIsEscapeSet | pkg/shillgptbot/shillgptbot.go:376-381 | The legacy chain equals one pass that escapes only `.` and `!`. |
| Escape.UnescapeEscape | pkg/tghelper/tghelper.go:146-156 | Dropping the backslash before each reserved character gives the input back. |
| Escape.EscapeSetLength | pkg/tghelper/tghelper.go:146-156 | The escaped text is longer by exactly the number of reserved characters. |
| Escape.EscapeCharsSpec | pkg/tghelper/tghelper.go:146-156 | The helper's escape is undone by unescaping, adds one character per reserved character, and changes no text without reserved characters. |
| Escape.LegacyEscapeSpec | pkg/shillgptbot/shillgptbot.go:376-381 | The legacy escape has the same inverse and length law for its two characters. |
| Escape.EscapeExamples | pkg/shillgptbot/shillgptbot.go:376-381 | `_` and `-` pass through the legacy escape; the helper's escape prefixes them. |
| Ledger.DeleteLast | pkg/tghelper/tghelper.go:83-96 | One attempt, on the newest prompt. On success the ledger loses exactly that prompt; on failure it is unchanged and reported as failed. |
| Ledger.DeleteAllOrder | pkg/tghelper/tghelper.go:99-116 | The attempts run over the prompts from the newest to the oldest. |
| Ledger.DeleteAllOutcome | pkg/tghelper/tghelper.go:99-116 | Every attempt before the last succeeded, and the last failed exactly when the purge is reported as failed. |
| Ledger.DeleteAllFails | pkg/tghelper/tghelper.go:99-116 | The purge is reported as failed exactly when some deletion fails. |
| Ledger.DeleteAllSpec | pkg/tghelper/tghelper.go:99-116 | On success the ledger is empty and every prompt was tried, newest first. On failure the ledger keeps the oldest prompts up to and including the one whose deletion failed. |
| Ledger.DeleteAllMessages | pkg/tghelper/tghelper.go:99-116 | The index loop from the end down to 0 computes the same ledger and error flag as the recursive definition. |
| Ledger.DeleteAllExample | pkg/tghelper/tghelper.go:99-116 | A failure in the middle keeps the older prompts; all successes empty the ledger; no answers stop at the first attempt. |
| ShillX.HandleKeepsGood | pkg/commandhandler/shillx/command.go:71-131 | Every transition keeps the table reachable: an entry in progress is under its own chat id and has a prompt to delete. |
| ShillX.HandleStarts | pkg/commandhandler/shillx/command.go:164-182 | A chat not in progress starts: in progress, not done, the sender recorded, the link prompt sent; a failed send finishes the flow instead. |
| ShillX.InvalidLinkFinishes | pkg/commandhandler/shillx/command.go:192-198 | A refused link ends the flow (not in progress, done) with a notice and no new prompt. |
| ShillX.ValidLinkStored | pkg/commandhandler/shillx/command.go:200-216 | An accepted link is stored as Go renders the parsed URL with an empty query. The user's message and the link prompt are deleted, and the text prompt is sent. |
| ShillX.SuccessResets | pkg/commandhandler/shillx/command.go:236-288 | A successful generation stores the record (ID from the link, reply type from the state) and shows `apiUrl/shill/<id>`. The message shows the link escaped, and unescaping gives the stored link back. The chat's entry becomes the zero state, chat id 0 included. |
| ShillX.GenerateFailureFinishes | pkg/commandhandler/shillx/command.go:236-285 | A failed insert or dialog finishes the flow and keeps the tweet text. |
| ShillX.StuckAfterSuccess | pkg/commandhandler/shillx/command.go:164-182 | After a success the chat's entry has chat id 0, so a later `Handle` call in that chat sends its prompt to chat 0 and writes under key 0, and the chat's own entry stays zero. |
| ShillX.GenerateShillKeyed | pkg/commandhandler/shillx/command.go:236-288 | The corrected generation: same effects, and the same outcome except on success, where the chat's entry becomes its fresh entry; it keeps tables reachable. |
| ShillX.RestartAfterSuccess | pkg/commandhandler/shillx/command.go:71-106 | After a success with the corrected reset, the chat's next `Handle` call sends the link prompt to the chat itself and writes under its key; no other entry changes. |
| ShillX.AnySenderContinues | pkg/commandhandler/shillx/command.go:108-119 | A continuation's result does not depend on who sent the message. |
| ShillX.CancelThenDone | pkg/commandhandler/shillx/command.go:142-161 | `Cancel` on an entry under its own id makes `Done` true; on an unknown chat it changes nothing and `Done` is false. |
| ShillX.CancelAfterSuccess | pkg/commandhandler/shillx/command.go:142-151 | Cancelling the zero entry left by a success writes key 0, and the chat is still not done. |
| ShillX.StaleLinkAfterCancel | pkg/commandhandler/shillx/command.go:164-182 | A flow cancelled after its link step keeps the link. A restart leaves it in place, so the next message goes to the generation step as the tweet text. |
| ShillX.RequestLinkFresh | pkg/commandhandler/shillx/command.go:164-182 | Starting with the link and text cleared: the new entry is in progress under its own id, without link or text, and the table stays reachable. |
| ShillX.RestartTakesLink | pkg/commandhandler/shillx/command.go:121-131 | After a fresh start the next message is taken as the link, so a text that is not a tweet link ends the flow with the invalid-link notice. |
| TrollX.Prepare | pkg/commandhandler/trollx/command.go:42-53 | The chat's entry gets the troll reply type; a new entry carries only the chat id; other entries are unchanged. |
| TrollX.HandleKeepsGood | pkg/commandhandler/trollx/command.go:42-54 | The troll flow keeps the shared table reachable. |
| TrollX.FreshChatTrolls | pkg/commandhandler/trollx/command.go:46-53 | A new chat starts under its own id, as a troll, with the link prompt sent. |
| TrollX.TrollRecord | pkg/commandhandler/trollx/command.go:42-54 | The stored record of a troll flow has the troll reply type, whatever the entry held before, and the dialog is labelled for trolling. |
| TrollX.SharedCancel | pkg/commandhandler/trollx/command.go:57-69 | `Cancel`, `Done` and `Cancelled` are the shill handler's behaviour on the same table; `Cancelled` is false. |
| ConfigFlow.Display | pkg/commandhandler/config/command.go:146-152 | The empty value is shown as `<i>Not set</i>`; any other value is shown as it is. |
| ConfigFlow.ConfigByChatId | pkg/commandhandler/config/command.go:610-638 | The stored record, or a new record with only the chat id inserted; fails exactly when the lookup fails, or when the record is missing and the insert fails. |
| ConfigFlow.Menu | pkg/commandhandler/config/command.go:97-143 | The chat's entry becomes the menu state (no command, empty ledger, not done); no other entry changes. |
| ConfigFlow.OnConfigSet | pkg/commandhandler/config/command.go:271-400 | Asking for a field makes it the active command, not done. Its prompt becomes the last element of the ledger, after the old ledger. No other entry changes, the store is untouched and the table stays reachable. Without an entry nothing changes. |
| ConfigFlow.SetThenHandleReceives | pkg/commandhandler/config/command.go:67-94 | After a field is asked for, the chat's next message goes to that field's reply handler. |
| ConfigFlow.HandleKeepsGood | pkg/commandhandler/config/command.go:67-94 | Every reply keeps the table reachable: nothing is done, and a command waiting for a reply has a prompt. |
| ConfigFlow.ApplyKeepsGood | pkg/commandhandler/config/command.go:185-268 | Every button and call keeps the table reachable. The only panic is Clear reaching the deletion with an empty ledger, after the record was found and any blanked field stored. |
| ConfigFlow.OnClear | pkg/commandhandler/config/command.go:214-268 | `onClear` panics exactly when the entry exists, the record is found or created, the blanked field (if any) is stored, and the ledger is empty. |
| ConfigFlow.BackThenClearPanics | pkg/commandhandler/config/command.go:214-268 | Asking for a field, then Back, then Clear panics, from any reachable table holding the chat. |
| ConfigFlow.TwoMenusClearPanics | pkg/commandhandler/config/command.go:214-268 | From no entry: two menus, Hashtags, Cashtags, Back, then Clear panics. |
| ConfigFlow.OnClearGuarded | pkg/commandhandler/config/command.go:214-268 | `onClear` that skips the deletion on an empty ledger agrees with `onClear` wherever that does not panic, and shows the menu where it would. |
| ConfigFlow.OnClearGuardedKeepsGood | pkg/commandhandler/config/command.go:214-268 | The guarded `onClear` keeps every reachable table reachable. |
| ConfigFlow.NeverDone | pkg/commandhandler/config/command.go:158-177 | After any session from an empty table, `Done` is false for every chat. |
| ConfigFlow.NoEntryShowsMenu | pkg/commandhandler/config/command.go:67-94 | With no entry `Done` is false and `Handle` shows the menu, or a try-again message when the store fails. |
| ConfigFlow.CancelSpec | pkg/commandhandler/config/command.go:158-167 | `Cancel` clears the command and keeps the ledger, and the chat is not done; without an entry it changes nothing. |
| ConfigFlow.InvalidKeepsConfig | pkg/commandhandler/config/command.go:454-602 | An invalid hashtag, cashtag or community reply keeps the store and the active command. The last prompt is removed only when the ledger holds more than one prompt and the deletion succeeds. |
| ConfigFlow.InvalidTokenKeepsLedger | pkg/commandhandler/config/command.go:403-420 | An invalid token name asks for the last prompt to be deleted, yet keeps it in the ledger. |
| ConfigFlow.ValidWritesOneField | pkg/commandhandler/config/command.go:403-602 | A valid reply writes exactly its own field (the token name upper-cased), keeps the other fields and records, and returns to the menu state. |
| ConfigFlow.AcceptWrites | pkg/commandhandler/config/command.go:422-445 | The accepted store is the old one with one field of the chat's record replaced; the chat's entry is the menu state. |
| ConfigFlow.ValidStoreFailure | pkg/commandhandler/config/command.go:422-439 | A store failure on a valid reply changes no entry and asks to try again. |
| ConfigFlow.ClearBlanksActiveField | pkg/commandhandler/config/command.go:214-268 | `onClear` blanks only the active field, and only for hashtags, cashtags or community; the chat returns to the menu state. |
| ConfigFlow.MenuPromptNotKept | pkg/commandhandler/config/command.go:97-143 | The menu is sent, yet the stored ledger is empty, so that prompt is never deleted by the flow. |
| ConfigFlow.MenuShowsStored | pkg/commandhandler/config/command.go:97-143 | The menu shows the four stored values, with the marker for the unset ones. |
| ConfigFlow.LazyCreate | pkg/commandhandler/config/command.go:610-638 | A chat without a record gets one with only its chat id; a chat with one keeps it. |
| ConfigFlow.SetThenReply | pkg/commandhandler/config/command.go:271-602 | After asking for a field, a valid reply is written to that field. |
| Legacy.RouteOf | pkg/shillgptbot/shillgptbot.go:111-119 | A text goes to `/shillx` or `/cancel` exactly when it equals the command or starts with the command followed by `@`. |
| Legacy.DispatchKeepsGood | pkg/shillgptbot/shillgptbot.go:202-273 | Every handler keeps the tables reachable: an idle chat holds the zero state, and a chat in progress has no text yet. |
| Legacy.CancelButtonKeepsGood | pkg/shillgptbot/shillgptbot.go:192-199 | The cancel button keeps the tables reachable. |
| Legacy.ShillHandlerSpec | pkg/shillgptbot/shillgptbot.go:122-148 | `/shillx` on a chat in progress changes nothing; on an idle chat it starts for the sender with no link and no text. |
| Legacy.CancelHandlerSpec | pkg/shillgptbot/shillgptbot.go:151-177 | `/cancel` on an idle chat does nothing; otherwise the chat returns to the zero state with a notice. |
| Legacy.DefaultIgnores | pkg/shillgptbot/shillgptbot.go:202-223 | Empty text, an idle chat or a sender other than the one who started leaves the shilling state unchanged. |
| Legacy.DefaultLink | pkg/shillgptbot/shillgptbot.go:226-238 | A refused link resets the chat; an accepted one is stored as sent, untrimmed and with its query. |
| Legacy.XLinkRejected | pkg/shillgptbot/shillgptbot.go:353-367 | An x.com status link, accepted by the reply-link flow, ends the legacy flow. |
| Legacy.DefaultCompletes | pkg/shillgptbot/shillgptbot.go:240-271 | The text reply stores the record and shows the link, escaped by the legacy escape and unescaping to the stored link. The chat returns to the zero state. |
| Legacy.RouteExamples | pkg/shillgptbot/shillgptbot.go:111-119 | `/shillx@MyBot` and `/cancel@MyBot` are routed; `/start@MyBot` and `/shillxx` go to the default handler. |
| Reply.InstructionFor | pkg/api/shill_service.go:88-95 | The instruction carries the 260-character budget and the tweet text; its template is a troll template exactly when the reply type is troll. |
| Reply.PersonaSelection | pkg/api/shill_service.go:140-238 | Trollcoin for chat 6722465333, Fish for chat -1002106403888, Trollana otherwise. Reply type troll picks the troll template. Only the Fish shill template depends on the random choice. |
| Reply.FishChoicesDistinct | pkg/api/shill_service.go:198-215 | The three values of the random choice give three different Fish points of view. |
| Reply.Attempts | pkg/api/shill_service.go:99-136 | At most three calls. A length error comes only after the third; any other result is the decision of the last call. |
| Reply.AttemptsRetried | pkg/api/shill_service.go:129-132 | Every call before the last one was retried. |
| Reply.AttemptsLengthError | pkg/api/shill_service.go:105-107 | The length error comes exactly when every remaining attempt was retried. |
| Reply.GenerateReplyLoop | pkg/api/shill_service.go:99-136 | The Go loop, counting attempts from 1, returns the same result after the same number of calls as the recursive definition. |
| Reply.GenerateReplyCalls | pkg/api/shill_service.go:99-124 | One to three backend calls; a first answer that is an error is returned after that one call. |
| Reply.GenerateReplyLengthError | pkg/api/shill_service.go:87-132 | `ErrOpenAiReplyLength` exactly when all three quote-trimmed replies exceed 280 bytes. |
| Reply.GenerateReplyLastCall | pkg/api/shill_service.go:122-136 | Any other result comes from the last call, and every earlier reply was too long. A success is the first reply that fits, with quotes trimmed; a backend error is passed on unchanged. |
| Reply.NoOuterQuotes | pkg/api/shill_service.go:126 | A returned non-empty reply neither starts nor ends with `"`. |
| Reply.AllQuotesTrimmed | pkg/api/shill_service.go:126 | Every layer of surrounding quotes is removed: `""hi""` becomes `hi`. |
| Reply.NotFoundNoGeneration | pkg/api/shill_service.go:44-60 | A failed lookup or an unknown link id is answered with an error, and the backend is never called; unknown ids get `ErrShillNotFound`. |
| Reply.FoundRedirects | pkg/api/shill_service.go:62-81 | For a found record the answer is a redirect to a reply to the record's tweet exactly when a reply was generated; otherwise the generation error is passed on. |
| CommandHandler.Handle | pkg/commandhandler/commandhandler.go:20 | The default `Handle` changes nothing and has no effect. Each other handler keeps to its own tables and keeps them reachable. |
| CommandHandler.Cancel | pkg/commandhandler/commandhandler.go:24 | `Cancel` never touches the store, and each handler changes only its own table. |
| CommandHandler.DefaultInert | pkg/commandhandler/commandhandler.go:18-28 | Any sequence of calls on the default command leaves the world unchanged with no effect; it reports done and never cancelled. |
| CommandHandler.NeverCancelled | pkg/commandhandler/commandhandler.go:21-23 | No handler reports a cancellation. |
| CommandHandler.ResetInert | pkg/commandhandler/commandhandler.go:25 | `Reset` changes nothing, for every handler. |
| CommandHandler.CancelThenDone | pkg/commandhandler/commandhandler.go:26-28 | After `Cancel`: the default reports done; shill and troll report done for an entry under its own id, and not for an unknown chat; configuration never does. |
| CommandHandler.ShillTrollShareState | pkg/commandhandler/trollx/command.go:57-69 | The shill and troll handlers agree on `Cancel`, `Done` and `Cancelled` in every world. |
| CommandHandler.ConfigNeverDone | pkg/commandhandler/config/command.go:170-177 | A configuration session never reports done. |

## Left out

- Concurrency: the state mutexes and the unlocked reads. Every handler call is
  one atomic transition.
- Telegram transport, inline keyboards and dialog rendering. Send, delete and
  show outcomes are oracle inputs (`Io`), and their effects are listed in a
  trace. A `log.Fatal` after a failed dialog (pkg/commandhandler/shillx/command.go:283,
  pkg/shillgptbot/shillgptbot.go:266) exits the process in Go, which drops
  every chat's in-memory state. Process exit is not modelled: the model ends
  only that call and keeps the finished entry.
- Inline keyboard lifetime: any button event can happen at any time, whether
  or not its keyboard is still on screen. The keyboard library deletes a
  clicked message by default; the events carry no message, so this is not
  modelled. `ConfigFlow.TwoMenusClearPanics` uses only prompts nobody has
  clicked. Callback routing is not modelled either: the prompts' callback
  prefix `configBackCancel` (pkg/commandhandler/config/keyboards.go:23-31) also
  starts with the `config` prefix of the menu keyboard and of the reply-link
  dialog, so which callback a click reaches depends on the library's handler
  order; each button event is taken to reach its own callback.
- Dispatch to the command handlers: no file of the repository creates the
  reply-link, troll or configuration handlers or routes commands to them, and
  the reply-link prompt's Cancel button (pkg/tghelper/tghelper.go:124-127) only
  sends a notice. The models take `Handle`, `Cancel` and the button callbacks
  as their entry points.
- MongoDB persistence. The stored configurations are a map; the link store
  is an oracle that assigns an id or fails. Inside one configuration call the
  store's find, insert and update outcomes are one flag each, for every call
  of the same kind.
- Go library internals:
  - `url.Parse`, `Hostname`, `EscapedPath` and `EscapedFragment` are a `Parser`
    parameter and the fields of a URL decomposition;
  - the regular expression engine is replaced by an equivalent scan;
  - the Unicode tables are the `Classes` parameter;
  - `url.QueryEscape` is the `escape` parameter of `Reply.RedirectUrl`.
- The HTTP server and its wiring, the OpenAI client, and the date and number
  formatting helpers.
- Prompt wording and persona texts: templates are constants without content.
- Reply.GenerateReply: the backend's answers to the three possible calls are
  given up front as a sequence of at least three, and the requirement on it
  states the oracle's shape, not a demand of the source.
- Reply.GenerateReplyLoop: the response's first choice is taken as present.
  An empty choice list, which panics in Go, is not modelled.
- Reply.CreateTwitterReply: storing the generated reply is left out. Its
  failure is only logged and does not change the answer.
- ConfigFlow.OnConfigSet: the prompt id is an integer. A failed prompt send
  stores a nil message in Go, which a later deletion would dereference; that
  case is not modelled.
- Ledger.DeleteLast: the deletion helpers report a Go error value that may be
  nil even when a deletion did not happen. The model reports only whether the
  deletion failed.
- Ledger.DeleteAll: the same holds for the purge, and for
  `Ledger.DeleteAllOutcome`, `Ledger.DeleteAllFails` and `Ledger.DeleteAllSpec`.
  Their `failed` flag means a deletion did not happen, not that Go returned a
  non-nil error. Every caller discards that error.
- TweetLinks.Render: it follows `URL.String()` for a URL that is not in opaque
  form. The `OmitHost` flag and the colon rule for a first path segment are left
  out; both apply only to a URL without a host. The host is rendered as
  parsed, with its colon even when the port after it is empty, and Go's host escaping leaves every allowed host name unchanged. The
  escaped path and the escaped fragment are parser outputs; the model does not
  relate them to the decoded ones.
- Legacy.DefaultHandler: Markdown escaping is taken to keep a text empty
  exactly when it was empty, so only the raw text is tested.
- Text.TrimQuotes: `strings.Trim(s, "\"")` removes every leading and trailing
  double quote, not one layer, and the model does the same.

## Findings

The handler models keep the code as written, so their other properties
describe the bot as it runs. Each corrected member is the replacement that
the evident intent calls for, with that intent proved of it. No file of
the repository constructs the reply-link, troll or configuration command
handlers or routes updates to them: the bot the `run` command starts uses
the legacy dispatcher. The inputs of the handler rows are therefore calls of
the handlers' own methods.

| source | as written | input that shows it | evidently intended | confidence | as-written member | corrected member |
|---|---|---|---|---|---|---|
| pkg/commandhandler/shillx/command.go:207-208 | `RawQuery = ""` leaves the forced-query flag set. The stored link keeps a bare `?`, and `extractTweetID` returns `1?`. | `https://x.com/u/status/1?` | The stored link has no query, and its ID is the status number. | medium, not executed | TweetLinks.ForcedQueryId | TweetLinks.CanonicalLinkId |
| pkg/commandhandler/config/command.go:266 | `onClear` calls `DeleteLastMessage` without checking the ledger, and that helper indexes the last element (pkg/tghelper/tghelper.go:84-85). The main menu stores an empty ledger, and a second menu keeps an unclicked prompt on screen. | For one chat with no entry: `Handle` twice (two menus), `onConfigSetHashtags`, `onConfigSetCashtags`, `onBack`, then `onClear` | Skip the deletion when no prompt is listed. | medium, not executed | ConfigFlow.TwoMenusClearPanics | ConfigFlow.OnClearGuarded |
| pkg/commandhandler/shillx/command.go:287 | A success resets the entry to Go's zero value, whose `ChatID` is 0. | For one chat: `Handle` on a message, on a tweet link and on a text (insert and dialog succeed), then `Handle` on another message | The entry is reset for the same chat, so the next flow runs in it. | high, not executed | ShillX.StuckAfterSuccess | ShillX.RestartAfterSuccess |
| pkg/commandhandler/shillx/command.go:164-182 | `requestTweetLink` keeps the link and text of a stopped flow, so `Handle` skips the link step on a restart. | For one chat: `Handle` on a message and on a tweet link, `Cancel(chat)`, then `Handle` on a message and on a new tweet link | A new flow asks for a new link. | medium, not executed | ShillX.StaleLinkAfterCancel | ShillX.RestartTakesLink |

=== FILE: command_handler.dfy ===
/** The command-handler interface: `Handle`, `Cancelled`, `Cancel`, `Reset`
    and `Done` per chat. The default `Command` implements every one of them
    as doing nothing; the reply-link, troll and configuration handlers embed
    it and override what they need. */
module CommandHandler {
  import opened Text
  import ShillX
  import TrollX
  import ConfigFlow

  /** The implementations of the interface. */
  datatype Kind = DefaultCommand | ShillCommand | TrollCommand | ConfigCommand

  /** What a handler call can change: the reply-link table shared by the
      shill and troll handlers, the configuration table, and the stored
      configurations. */
  datatype World = World(shill: ShillX.Table, config: ConfigFlow.Table, store: ConfigFlow.Store)

  /** An incoming text message. */
  datatype Message = Message(chat: int, from: int, id: int, text: string)

  /** The answers of the outside world during one call, for whichever
      handler is called. */
  datatype Io = Io(shill: ShillX.Io, config: ConfigFlow.Io)

  datatype Effect = ShillEffect(shill: ShillX.Effect) | ConfigEffect(config: ConfigFlow.Effect)

  datatype Outcome = Outcome(world: World, effects: seq<Effect>)

  /** A world the handlers can act on without a panic. */
  predicate Good(w: World) {
    ShillX.Good(w.shill) && ConfigFlow.Good(w.config)
  }

  function ShillEffects(es: seq<ShillX.Effect>): (r: seq<Effect>)
    ensures |r| == |es| && forall i | 0 <= i < |es| :: r[i] == ShillEffect(es[i])
  {
    seq(|es|, i requires 0 <= i < |es| => ShillEffect(es[i]))
  }

  function ConfigEffects(es: seq<ConfigFlow.Effect>): (r: seq<Effect>)
    ensures |r| == |es| && forall i | 0 <= i < |es| :: r[i] == ConfigEffect(es[i])
  {
    seq(|es|, i requires 0 <= i < |es| => ConfigEffect(es[i]))
  }

  /** `Handle`. Each handler keeps to its own tables. */
  function Handle(k: Kind, w: World, io: Io, u: Classes, m: Message): (r: Outcome)
    requires Good(w)
    ensures Good(r.world)
    ensures k == DefaultCommand ==> r == Outcome(w, [])
    ensures k != ConfigCommand ==> r.world.config == w.config && r.world.store == w.store
    ensures k == DefaultCommand || k == ConfigCommand ==> r.world.shill == w.shill
  {
    match k
    case DefaultCommand => Outcome(w, [])
    case ShillCommand =>
      var upd := ShillX.Update(m.chat, m.from, m.id, m.text);
      ShillX.HandleKeepsGood(w.shill, io.shill, upd);
      var s := ShillX.Handle(w.shill, io.shill, upd);
      Outcome(w.(shill := s.table), ShillEffects(s.effects))
    case TrollCommand =>
      var upd := ShillX.Update(m.chat, m.from, m.id, m.text);
      TrollX.HandleKeepsGood(w.shill, io.shill, upd);
      var s := TrollX.Handle(w.shill, io.shill, upd);
      Outcome(w.(shill := s.table), ShillEffects(s.effects))
    case ConfigCommand =>
      var upd := ConfigFlow.Update(m.chat, m.id, m.text);
      ConfigFlow.HandleKeepsGood(w.config, w.store, io.config, u, upd);
      var s := ConfigFlow.Handle(w.config, w.store, io.config, u, upd);
      Outcome(w.(config := s.table, store := s.store), ConfigEffects(s.effects))
  }

  /** `Cancelled`: the configuration handler inherits the default. */
  predicate Cancelled(k: Kind, w: World, chat: int) {
    match k
    case DefaultCommand => false
    case ShillCommand => ShillX.Cancelled(w.shill, chat)
    case TrollCommand => TrollX.Cancelled(w.shill, chat)
    case ConfigCommand => false
  }

  /** `Cancel`. Each handler keeps to its own table. */
  function Cancel(k: Kind, w: World, chat: int): (r: World)
    ensures r.store == w.store
    ensures k != ConfigCommand ==> r.config == w.config
    ensures k == DefaultCommand || k == ConfigCommand ==> r.shill == w.shill
  {
    match k
    case DefaultCommand => w
    case ShillCommand => w.(shill := ShillX.Cancel(w.shill, chat))
    case TrollCommand => w.(shill := TrollX.Cancel(w.shill, chat))
    case ConfigCommand => w.(config := ConfigFlow.Cancel(w.config, chat))
  }

  lemma CancelKeepsGood(k: Kind, w: World, chat: int)
    requires Good(w)
    ensures Good(Cancel(k, w, chat))
  {
    ShillX.CancelKeepsGood(w.shill, chat);
  }

  /** `Reset`: the shill and configuration handlers override it with an
      empty body, the troll handler inherits the default. */
  function Reset(k: Kind, w: World, chat: int): Outcome {
    Outcome(w, [])
  }

  /** `Done`. */
  predicate Done(k: Kind, w: World, chat: int) {
    match k
    case DefaultCommand => true
    case ShillCommand => ShillX.Done(w.shill, chat)
    case TrollCommand => TrollX.Done(w.shill, chat)
    case ConfigCommand => ConfigFlow.Done(w.config, chat)
  }

  /** One call through the interface. */
  datatype Call =
    | HandleCall(io: Io, m: Message)
    | CancelCall(chat: int)
    | ResetCall(chat: int)

  /** A sequence of calls on one handler, with the effects they produce. */
  function Run(k: Kind, w: World, u: Classes, calls: seq<Call>): (r: Outcome)
    requires Good(w)
    ensures Good(r.world)
    ensures k != ConfigCommand ==> r.world.config == w.config && r.world.store == w.store
    ensures k == DefaultCommand || k == ConfigCommand ==> r.world.shill == w.shill
    decreases |calls|
  {
    if calls == [] then Outcome(w, [])
    else
      var first := (
        match calls[0]
        case HandleCall(io, m) => Handle(k, w, io, u, m)
        case CancelCall(chat) => CancelKeepsGood(k, w, chat); Outcome(Cancel(k, w, chat), [])
        case ResetCall(chat) => Reset(k, w, chat));
      var rest := Run(k, first.world, u, calls[1..]);
      Outcome(rest.world, first.effects + rest.effects)
  }

  // ---------------------------------------------------------------------
  // Properties

  /** The default command is inert: any sequence of calls leaves the world
      as it was and produces no effect; it always reports done and never
      cancelled. */
  lemma {:induction false} DefaultInert(w: World, u: Classes, calls: seq<Call>, chat: int)
    requires Good(w)
    ensures Run(DefaultCommand, w, u, calls) == Outcome(w, [])
    ensures Done(DefaultCommand, Run(DefaultCommand, w, u, calls).world, chat)
    ensures !Cancelled(DefaultCommand, w, chat)
    decreases |calls|
  {
    if calls != [] {
      DefaultInert(w, u, calls[1..], chat);
    }
  }

  /** No handler ever reports a cancellation. */
  lemma NeverCancelled(k: Kind, w: World, chat: int)
    ensures !Cancelled(k, w, chat)
  {
  }

  /** `Reset` changes nothing, for every handler. */
  lemma ResetInert(k: Kind, w: World, chat: int)
    ensures Reset(k, w, chat).world == w && Reset(k, w, chat).effects == []
  {
  }

  /** `Done` after `Cancel`: always for the default command; for the shill
      and troll handlers when the chat's entry is under its own id, never
      for an unknown chat; never for the configuration handler. */
  lemma CancelThenDone(k: Kind, w: World, chat: int)
    ensures k == DefaultCommand ==> Done(k, Cancel(k, w, chat), chat)
    ensures (k == ShillCommand || k == TrollCommand) && chat in w.shill && w.shill[chat].chatId == chat ==>
      Done(k, Cancel(k, w, chat), chat)
    ensures (k == ShillCommand || k == TrollCommand) && chat !in w.shill ==> !Done(k, Cancel(k, w, chat), chat)
    ensures k == ConfigCommand ==> !Done(k, Cancel(k, w, chat), chat)
  {
    match k
    case DefaultCommand =>
    case ShillCommand => ShillX.CancelThenDone(w.shill, chat);
    case TrollCommand => TrollX.SharedCancel(w.shill, chat);
    case ConfigCommand => ConfigFlow.CancelSpec(w.config, chat);
  }

  /** The shill and troll handlers share one table: their `Cancel`, `Done`
      and `Cancelled` agree on every world. */
  lemma ShillTrollShareState(w: World, chat: int)
    ensures Cancel(ShillCommand, w, chat) == Cancel(TrollCommand, w, chat)
    ensures Done(ShillCommand, w, chat) == Done(TrollCommand, w, chat)
    ensures Cancelled(ShillCommand, w, chat) == Cancelled(TrollCommand, w, chat)
  {
  }

  /** A configuration session never reports done, whatever the calls. */
  lemma ConfigNeverDone(w: World, u: Classes, calls: seq<Call>, chat: int)
    requires Good(w)
    ensures !Done(ConfigCommand, Run(ConfigCommand, w, u, calls).world, chat)
  {
  }
}

=== FILE: config_flow.dfy ===
/** The configuration conversation (`/settings`): a main menu showing the
    chat's stored configuration, buttons that ask for one field, and the
    replies that validate and store that field. Each chat has an entry in a
    state table; the configuration records live in a store keyed by chat.
    What the transport and the store answer during one call is an `Io`
    oracle; what the call asks of them is returned as a trace. */
module ConfigFlow {
  import opened Wrappers
  import opened Text
  import opened Validators
  import Ledger

  /** The four configurable fields, one per set-command. */
  datatype Field = TokenName | Hashtags | Cashtags | Community

  /** `activeCommand`: no command, or the field a reply is expected for. */
  datatype Active = NoCommand | Setting(field: Field)

  /** One chat's entry: the active command, the prompt ledger and `done`. */
  datatype State = State(active: Active, lastPrompts: seq<Ledger.MessageId>, done: bool)

  type Table = map<int, State>

  /** A stored configuration record. */
  datatype Config = Config(chatId: int, token: string, hashtags: string, cashtags: string, community: string)

  type Store = map<int, Config>

  /** A reply: chat, message id and text. */
  datatype Update = Update(chat: int, id: int, text: string)

  datatype Effect =
    | DeleteMessage(chat: int, messageId: int)
    | SendInvalid(chat: int, field: Field)
    | SendTryAgain(chat: int)
    | ShowMenu(chat: int, token: string, hashtags: string, cashtags: string, community: string)
    | SendPrompt(chat: int, field: Field)

  /** The answers during one call: whether store lookups work, whether an
      insert and an update succeed, the outcome of a single deletion, the
      outcomes of the deletions of a purge, and the id of the "invalid, try
      again" message (`None` when the send fails). */
  datatype Io = Io(findOk: bool, insertOk: bool, updateOk: bool, deleteOk: bool, purge: seq<bool>, sent: Option<int>)

  datatype Step = Step(table: Table, store: Store, effects: seq<Effect>)

  /** The entry every path through the main menu leaves behind. */
  const MenuState: State := State(NoCommand, [], false)

  const NotSet: string := "<i>Not set</i>"

  /** `displayConfigValue`. */
  function Display(v: string): (r: string)
    ensures v == [] ==> r == NotSet
    ensures v != [] ==> r == v
  {
    if v == [] then NotSet else v
  }

  /** A new record: only the chat id is set. */
  function NewConfig(chat: int): Config {
    Config(chat, [], [], [], [])
  }

  /** `configByChatID`: the stored record, or a new record inserted for the
      chat. `None` when the lookup or the insert fails. */
  function ConfigByChatId(store: Store, chat: int, io: Io): (r: Option<(Config, Store)>)
    ensures r.Some? ==> chat in r.value.1 && r.value.1[chat] == r.value.0 && r.value.0.chatId == (if chat in store then store[chat].chatId else chat)
    ensures r.Some? && chat in store ==> r.value.1 == store
    ensures r.Some? && chat !in store ==> r.value.1 == store[chat := NewConfig(chat)]
    ensures r.None? <==> !io.findOk || (chat !in store && !io.insertOk)
  {
    if !io.findOk then None
    else if chat in store then Some((store[chat], store))
    else if !io.insertOk then None
    else Some((NewConfig(chat), store[chat := NewConfig(chat)]))
  }

  function Get(c: Config, f: Field): string {
    match f
    case TokenName => c.token
    case Hashtags => c.hashtags
    case Cashtags => c.cashtags
    case Community => c.community
  }

  function Set(c: Config, f: Field, v: string): (r: Config)
    ensures Get(r, f) == v && r.chatId == c.chatId
    ensures forall g | g != f :: Get(r, g) == Get(c, g)
  {
    match f
    case TokenName => c.(token := v)
    case Hashtags => c.(hashtags := v)
    case Cashtags => c.(cashtags := v)
    case Community => c.(community := v)
  }

  /** The validator of each field, applied to the trimmed reply. */
  predicate Valid(u: Classes, f: Field, s: string) {
    match f
    case TokenName => IsTokenName(u, s)
    case Hashtags => IsHashtags(u, s)
    case Cashtags => IsCashtags(s)
    case Community => IsCommunityDescription(s)
  }

  /** What is stored for a valid reply: the token name upper-cased, the other
      fields as trimmed. */
  function Stored(u: Classes, f: Field, s: string): string {
    if f == TokenName then ToUpper(u, s) else s
  }

  /** The states every reachable table is in: nothing is done, and a command
      waiting for a reply has at least one prompt in its ledger. */
  predicate Good(t: Table) {
    forall k | k in t :: !t[k].done && (t[k].active.Setting? ==> |t[k].lastPrompts| > 0)
  }

  /** `DisplayMainMenu`: the entry becomes the menu state before anything is
      sent; the menu prompt goes into a local copy of the ledger that is
      dropped, so the stored ledger stays empty. */
  function Menu(t: Table, store: Store, chat: int, io: Io): (r: Step)
    ensures chat in r.table && r.table[chat] == MenuState
    ensures forall k | k in t && k != chat :: k in r.table && r.table[k] == t[k]
  {
    var t1 := t[chat := MenuState];
    match ConfigByChatId(store, chat, io)
    case None => Step(t1, store, [SendTryAgain(chat)])
    case Some((c, s1)) =>
      Step(t1, s1, [ShowMenu(chat, Display(c.token), Display(c.hashtags), Display(c.cashtags), Display(c.community))])
  }

  /** The ledger after an invalid reply: the token-name path throws the
      result of its deletion away; the other paths delete only when more than
      one prompt is listed. */
  function LedgerAfterInvalid(f: Field, lp: seq<Ledger.MessageId>, ok: bool): (r: Ledger.Outcome)
    requires |lp| > 0
  {
    if f == TokenName then Ledger.Outcome(lp, Ledger.DeleteLast(lp, ok).attempted, false)
    else if |lp| > 1 then Ledger.DeleteLast(lp, ok)
    else Ledger.Outcome(lp, [], false)
  }

  function Deletions(chat: int, ids: seq<Ledger.MessageId>): (r: seq<Effect>)
    ensures |r| == |ids|
    ensures forall i | 0 <= i < |ids| :: r[i] == DeleteMessage(chat, ids[i])
  {
    if ids == [] then [] else [DeleteMessage(chat, ids[0])] + Deletions(chat, ids[1..])
  }

  /** An invalid reply: delete it, maybe delete the last prompt, send the
      "invalid, try again" message and keep waiting; the menu when that
      message cannot be sent. */
  function Reject(t: Table, store: Store, io: Io, f: Field, upd: Update): (r: Step)
    requires upd.chat in t && |t[upd.chat].lastPrompts| > 0
    ensures io.sent.None? ==> r.table == t[upd.chat := MenuState]
    ensures io.sent.Some? ==>
      && r.store == store
      && r.table == t[upd.chat := t[upd.chat].(lastPrompts := LedgerAfterInvalid(f, t[upd.chat].lastPrompts, io.deleteOk).remaining + [io.sent.value])]
  {
    var chat := upd.chat;
    var s := t[chat];
    var l := LedgerAfterInvalid(f, s.lastPrompts, io.deleteOk);
    var tried := [DeleteMessage(chat, upd.id)] + Deletions(chat, l.attempted) + [SendInvalid(chat, f)];
    match io.sent
    case None => var m := Menu(t, store, chat, io); Step(m.table, m.store, tried + m.effects)
    case Some(p) => Step(t[chat := s.(lastPrompts := l.remaining + [p])], store, tried)
  }

  /** A valid reply: store the field, clean up and show the menu; a store
      failure leaves the entry waiting. */
  function Accept(t: Table, store: Store, io: Io, u: Classes, f: Field, upd: Update, text: string): (r: Step)
    requires upd.chat in t && |t[upd.chat].lastPrompts| > 0
    ensures r.table == t || r.table == t[upd.chat := MenuState]
  {
    var chat := upd.chat;
    var s := t[chat];
    match ConfigByChatId(store, chat, io)
    case None => Step(t, store, [SendTryAgain(chat)])
    case Some((c, s1)) =>
      if !io.updateOk then Step(t, s1, [SendTryAgain(chat)])
      else
        var s2 := s1[chat := Set(c, f, Stored(u, f, text))];
        var purged :=
          if f == TokenName then Ledger.DeleteLast(s.lastPrompts, io.deleteOk).attempted
          else Ledger.DeleteAll(s.lastPrompts, io.purge).attempted;
        var m := Menu(t, s2, chat, io);
        Step(m.table, m.store, [DeleteMessage(chat, upd.id)] + Deletions(chat, purged) + m.effects)
  }

  /** `receiveTokenName`, `receiveHashTags`, `receiveCashTags` and
      `receiveCommunityDescription`, one function for the four fields: the
      reply is trimmed, then validated. */
  function Receive(t: Table, store: Store, io: Io, u: Classes, f: Field, upd: Update): Step
    requires upd.chat in t && |t[upd.chat].lastPrompts| > 0
  {
    var text := TrimSpace(upd.text);
    if !Valid(u, f, text) then Reject(t, store, io, f, upd)
    else Accept(t, store, io, u, f, upd, text)
  }

  /** `Handle`: the menu for a chat without an entry or without an active
      command, the reply handler otherwise. */
  function Handle(t: Table, store: Store, io: Io, u: Classes, upd: Update): Step
    requires Good(t)
  {
    if upd.chat !in t then Menu(t, store, upd.chat, io)
    else match t[upd.chat].active
      case NoCommand => Menu(t, store, upd.chat, io)
      case Setting(f) => Receive(t, store, io, u, f, upd)
  }

  /** `onConfigSetTokenName` and its three siblings: ask for the field and
      wait for the reply. `prompt` is the id of the prompt sent. The chat's
      command becomes the field, the prompt joins the end of its ledger, and
      no other entry changes. */
  function OnConfigSet(t: Table, store: Store, chat: int, f: Field, prompt: Ledger.MessageId): (r: Step)
    ensures r.store == store
    ensures chat !in t ==> r.table == t && r.effects == []
    ensures chat in t ==>
      var lp := t[chat].lastPrompts;
      && r.table.Keys == t.Keys
      && (forall k | k in t && k != chat :: r.table[k] == t[k])
      && r.table[chat].active == Setting(f) && !r.table[chat].done
      && |r.table[chat].lastPrompts| == |lp| + 1
      && r.table[chat].lastPrompts[..|lp|] == lp
      && r.table[chat].lastPrompts[|lp|] == prompt
      && r.effects == [SendPrompt(chat, f)]
    ensures Good(t) ==> Good(r.table)
  {
    if chat !in t then Step(t, store, [])
    else
      var s := t[chat];
      var lp := s.lastPrompts + [prompt];
      assert lp[..|s.lastPrompts|] == s.lastPrompts;
      Step(t[chat := s.(active := Setting(f), done := false, lastPrompts := lp)], store, [SendPrompt(chat, f)])
  }

  /** The commands whose field `onClear` blanks: there is no case for the
      token name. */
  predicate Clearable(a: Active) {
    a.Setting? && a.field != TokenName
  }

  /** The calls on which `onClear` reaches `DeleteLastMessage` with an empty
      ledger and indexes past its end: the entry exists, the record is found
      or created, the blanked field (if any) is stored, and no prompt is
      listed. */
  predicate ClearPanics(t: Table, store: Store, io: Io, chat: int) {
    && chat in t
    && ConfigByChatId(store, chat, io).Some?
    && (Clearable(t[chat].active) ==> io.updateOk)
    && t[chat].lastPrompts == []
  }

  /** `onClear`: blank the field of the active command, delete the last
      prompt and show the menu. `None` when the deletion indexes an empty
      ledger, which panics. */
  function OnClear(t: Table, store: Store, io: Io, chat: int): (r: Option<Step>)
    ensures r.None? <==> ClearPanics(t, store, io, chat)
  {
    if chat !in t then Some(Step(t, store, []))
    else
      var s := t[chat];
      match ConfigByChatId(store, chat, io)
      case None => Some(Step(t, store, [SendTryAgain(chat)]))
      case Some((c, s1)) =>
        if Clearable(s.active) && !io.updateOk then Some(Step(t, s1, [SendTryAgain(chat)]))
        else if s.lastPrompts == [] then None
        else
          var s2 := if Clearable(s.active) then s1[chat := Set(c, s.active.field, [])] else s1;
          var gone := Ledger.DeleteLast(s.lastPrompts, io.deleteOk).attempted;
          var m := Menu(t, s2, chat, io);
          Some(Step(m.table, m.store, Deletions(chat, gone) + m.effects))
  }

  /** `onBack`: straight to the menu, entry or not. */
  function OnBack(t: Table, store: Store, io: Io, chat: int): Step {
    Menu(t, store, chat, io)
  }

  /** `Cancel`: no command, not done; the ledger is kept. */
  function Cancel(t: Table, chat: int): Table {
    if chat !in t then t else t[chat := t[chat].(active := NoCommand, done := false)]
  }

  /** `onCancel`: purge the prompts (the purged ledger is dropped) and
      cancel. */
  function OnCancel(t: Table, store: Store, io: Io, chat: int): Step {
    if chat !in t then Step(t, store, [])
    else Step(Cancel(t, chat), store, Deletions(chat, Ledger.DeleteAll(t[chat].lastPrompts, io.purge).attempted))
  }

  /** `onConfigDone`: purge the prompts; the purged ledger is dropped and the
      entry is left as it was. */
  function OnConfigDone(t: Table, store: Store, io: Io, chat: int): Step {
    if chat !in t then Step(t, store, [])
    else Step(t, store, Deletions(chat, Ledger.DeleteAll(t[chat].lastPrompts, io.purge).attempted))
  }

  /** `Done`: `false` without an entry. */
  predicate Done(t: Table, chat: int) {
    chat in t && t[chat].done
  }

  // ---------------------------------------------------------------------
  // Sessions: every operation of the flow, applied in sequence

  datatype Event =
    | Message(upd: Update)
    | SetButton(chat: int, field: Field, prompt: Ledger.MessageId)
    | ClearButton(chat: int)
    | BackButton(chat: int)
    | CancelButton(chat: int)
    | DoneButton(chat: int)
    | CancelCall(chat: int)

  /** One event; `None` when the source panics. */
  function Apply(t: Table, store: Store, io: Io, u: Classes, e: Event): Option<Step>
    requires Good(t)
  {
    match e
    case Message(upd) => Some(Handle(t, store, io, u, upd))
    case SetButton(chat, f, p) => Some(OnConfigSet(t, store, chat, f, p))
    case ClearButton(chat) => OnClear(t, store, io, chat)
    case BackButton(chat) => Some(OnBack(t, store, io, chat))
    case CancelButton(chat) => Some(OnCancel(t, store, io, chat))
    case DoneButton(chat) => Some(OnConfigDone(t, store, io, chat))
    case CancelCall(chat) => Some(Step(Cancel(t, chat), store, []))
  }

  // ---------------------------------------------------------------------
  // Properties

  lemma PutGood(t: Table, chat: int, s: State)
    requires Good(t) && !s.done && (s.active.Setting? ==> |s.lastPrompts| > 0)
    ensures Good(t[chat := s])
  {
  }

  lemma HandleKeepsGood(t: Table, store: Store, io: Io, u: Classes, upd: Update)
    requires Good(t)
    ensures Good(Handle(t, store, io, u, upd).table)
  {
    PutGood(t, upd.chat, MenuState);
    if upd.chat in t && t[upd.chat].active.Setting? {
      var f := t[upd.chat].active.field;
      var s := t[upd.chat];
      if !Valid(u, f, TrimSpace(upd.text)) && io.sent.Some? {
        var l := LedgerAfterInvalid(f, s.lastPrompts, io.deleteOk);
        PutGood(t, upd.chat, s.(lastPrompts := l.remaining + [io.sent.value]));
      }
    }
  }

  /** Every operation keeps the table reachable: in particular `done` is
      never set. The only panic is `onClear` on an empty ledger. */
  lemma ApplyKeepsGood(t: Table, store: Store, io: Io, u: Classes, e: Event)
    requires Good(t)
    ensures var r := Apply(t, store, io, u, e);
      && (r.None? <==> e.ClearButton? && ClearPanics(t, store, io, e.chat))
      && (r.Some? ==> Good(r.value.table))
  {
    match e
    case Message(upd) => HandleKeepsGood(t, store, io, u, upd);
    case SetButton(chat, f, p) =>
    case ClearButton(chat) => PutGood(t, chat, MenuState);
    case BackButton(chat) => PutGood(t, chat, MenuState);
    case CancelButton(chat) =>
    case DoneButton(chat) =>
    case CancelCall(chat) =>
  }

  /** A session: a run of events from a table, answered by one oracle per
      event. `None` when an event makes the source panic. */
  function Run(t: Table, store: Store, ios: seq<Io>, u: Classes, es: seq<Event>): (r: Option<Table>)
    requires Good(t)
    ensures r.Some? ==> Good(r.value)
    decreases |es|
  {
    if es == [] then Some(t)
    else
      var io := if ios == [] then Io(false, false, false, false, [], None) else ios[0];
      ApplyKeepsGood(t, store, io, u, es[0]);
      match Apply(t, store, io, u, es[0])
      case None => None
      case Some(r) => Run(r.table, r.store, if ios == [] then [] else ios[1..], u, es[1..])
  }

  /** Nothing in the configuration flow ever reports done: after any
      session from an empty table, `Done` is false for every chat. */
  lemma NeverDone(store: Store, ios: seq<Io>, u: Classes, es: seq<Event>, chat: int)
    ensures var r := Run(map[], store, ios, u, es);
      r.Some? ==> !Done(r.value, chat)
  {
  }

  /** With no entry `Done` is false and `Handle` shows the menu. */
  lemma NoEntryShowsMenu(t: Table, store: Store, io: Io, u: Classes, upd: Update)
    requires Good(t) && upd.chat !in t
    ensures !Done(t, upd.chat)
    ensures var r := Handle(t, store, io, u, upd);
      && r.table[upd.chat] == MenuState
      && |r.effects| == 1 && (r.effects[0].ShowMenu? || r.effects[0].SendTryAgain?)
      && (io.findOk && (upd.chat in store || io.insertOk) ==> r.effects[0].ShowMenu?)
  {
  }

  /** `Cancel` clears the command, keeps the ledger and leaves the chat not
      done; without an entry it changes nothing. */
  lemma CancelSpec(t: Table, chat: int)
    ensures chat in t ==> var r := Cancel(t, chat);
      r[chat].active == NoCommand && !r[chat].done && r[chat].lastPrompts == t[chat].lastPrompts && !Done(r, chat)
    ensures chat !in t ==> Cancel(t, chat) == t
  {
  }

  /** An invalid hashtag, cashtag or community reply changes neither the
      store nor the active command (unless the "try again" message cannot be
      sent); the last prompt is removed only when the ledger holds more than
      one prompt and its deletion succeeds. */
  lemma InvalidKeepsConfig(t: Table, store: Store, io: Io, u: Classes, upd: Update)
    requires Good(t) && upd.chat in t && t[upd.chat].active.Setting?
    requires t[upd.chat].active.field != TokenName
    requires !Valid(u, t[upd.chat].active.field, TrimSpace(upd.text)) && io.sent.Some?
    ensures var r := Handle(t, store, io, u, upd);
      var lp := t[upd.chat].lastPrompts;
      && r.store == store
      && r.table[upd.chat].active == t[upd.chat].active
      && (|lp| > 1 && io.deleteOk ==> r.table[upd.chat].lastPrompts == lp[..|lp| - 1] + [io.sent.value])
      && (|lp| <= 1 || !io.deleteOk ==> r.table[upd.chat].lastPrompts == lp + [io.sent.value])
      && forall k | k in t && k != upd.chat :: k in r.table && r.table[k] == t[k]
  {
    HandleRejects(t, store, io, u, upd);
    RejectKeepsConfig(t, store, io, t[upd.chat].active.field, upd);
  }

  lemma RejectKeepsConfig(t: Table, store: Store, io: Io, f: Field, upd: Update)
    requires upd.chat in t && |t[upd.chat].lastPrompts| > 0
    requires f != TokenName && io.sent.Some?
    ensures var r := Reject(t, store, io, f, upd);
      var lp := t[upd.chat].lastPrompts;
      && r.store == store
      && r.table[upd.chat].active == t[upd.chat].active
      && (|lp| > 1 && io.deleteOk ==> r.table[upd.chat].lastPrompts == lp[..|lp| - 1] + [io.sent.value])
      && (|lp| <= 1 || !io.deleteOk ==> r.table[upd.chat].lastPrompts == lp + [io.sent.value])
      && forall k | k in t && k != upd.chat :: k in r.table && r.table[k] == t[k]
  {
    var lp := t[upd.chat].lastPrompts;
    var l := LedgerAfterInvalid(f, lp, io.deleteOk);
    assert |lp| > 1 && io.deleteOk ==> l.remaining == lp[..|lp| - 1];
    assert |lp| <= 1 || !io.deleteOk ==> l.remaining == lp;
  }

  /** A reply that fails its field's check goes to `Reject`. */
  lemma HandleRejects(t: Table, store: Store, io: Io, u: Classes, upd: Update)
    requires Good(t) && upd.chat in t && t[upd.chat].active.Setting?
    requires !Valid(u, t[upd.chat].active.field, TrimSpace(upd.text))
    ensures Handle(t, store, io, u, upd) == Reject(t, store, io, t[upd.chat].active.field, upd)
  {
  }

  /** An invalid token name keeps every prompt listed, even the one it asks
      the transport to delete. */
  lemma InvalidTokenKeepsLedger(t: Table, store: Store, io: Io, u: Classes, upd: Update)
    requires Good(t) && upd.chat in t && t[upd.chat].active == Setting(TokenName)
    requires !IsTokenName(u, TrimSpace(upd.text)) && io.sent.Some?
    ensures var r := Handle(t, store, io, u, upd);
      var lp := t[upd.chat].lastPrompts;
      && r.store == store
      && r.table[upd.chat].lastPrompts == lp + [io.sent.value]
      && DeleteMessage(upd.chat, lp[|lp| - 1]) in r.effects
  {
    var r := Handle(t, store, io, u, upd);
    var lp := t[upd.chat].lastPrompts;
    assert r.effects[1] == DeleteMessage(upd.chat, lp[|lp| - 1]);
  }

  /** A valid reply writes exactly its field (the token name upper-cased),
      keeps the other fields of the record (or of a new one), and returns the
      chat to the menu state. */
  lemma ValidWritesOneField(t: Table, store: Store, io: Io, u: Classes, upd: Update)
    requires Good(t) && upd.chat in t && t[upd.chat].active.Setting?
    requires Valid(u, t[upd.chat].active.field, TrimSpace(upd.text))
    requires io.findOk && io.updateOk && (upd.chat in store || io.insertOk)
    ensures var r := Handle(t, store, io, u, upd);
      var f := t[upd.chat].active.field;
      var before := if upd.chat in store then store[upd.chat] else NewConfig(upd.chat);
      && upd.chat in r.store
      && Get(r.store[upd.chat], f) == Stored(u, f, TrimSpace(upd.text))
      && (forall g | g != f :: Get(r.store[upd.chat], g) == Get(before, g))
      && r.store[upd.chat].chatId == before.chatId
      && (forall k | k in store && k != upd.chat :: k in r.store && r.store[k] == store[k])
      && r.table[upd.chat] == MenuState
  {
    AcceptWrites(t, store, io, u, t[upd.chat].active.field, upd, TrimSpace(upd.text));
  }

  lemma AcceptWrites(t: Table, store: Store, io: Io, u: Classes, f: Field, upd: Update, text: string)
    requires upd.chat in t && |t[upd.chat].lastPrompts| > 0
    requires io.findOk && io.updateOk && (upd.chat in store || io.insertOk)
    ensures var r := Accept(t, store, io, u, f, upd, text);
      var before := if upd.chat in store then store[upd.chat] else NewConfig(upd.chat);
      && r.store == store[upd.chat := Set(before, f, Stored(u, f, text))]
      && r.table == t[upd.chat := MenuState]
  {
    var chat := upd.chat;
    var before := if chat in store then store[chat] else NewConfig(chat);
    var s1 := if chat in store then store else store[chat := before];
    assert ConfigByChatId(store, chat, io) == Some((before, s1));
    var s2 := s1[chat := Set(before, f, Stored(u, f, text))];
    assert s2 == store[chat := Set(before, f, Stored(u, f, text))];
    assert ConfigByChatId(s2, chat, io) == Some((s2[chat], s2));
  }

  /** A store failure on a valid reply changes no entry: the reply is still
      expected. */
  lemma ValidStoreFailure(t: Table, store: Store, io: Io, u: Classes, upd: Update)
    requires Good(t) && upd.chat in t && t[upd.chat].active.Setting?
    requires Valid(u, t[upd.chat].active.field, TrimSpace(upd.text))
    requires !io.findOk || !io.updateOk
    ensures var r := Handle(t, store, io, u, upd);
      r.table == t && r.effects == [SendTryAgain(upd.chat)]
  {
  }

  /** `onClear` blanks only the field of the active command, and only for
      hashtags, cashtags and community. */
  lemma ClearBlanksActiveField(t: Table, store: Store, io: Io, chat: int)
    requires chat in t && |t[chat].lastPrompts| > 0
    requires io.findOk && io.updateOk && chat in store
    ensures var r := OnClear(t, store, io, chat);
      && r.Some?
      && chat in r.value.store
      && (Clearable(t[chat].active) ==>
            && Get(r.value.store[chat], t[chat].active.field) == []
            && forall g | g != t[chat].active.field :: Get(r.value.store[chat], g) == Get(store[chat], g))
      && (!Clearable(t[chat].active) ==> r.value.store == store)
      && r.value.table[chat] == MenuState
  {
    var s := t[chat];
    if Clearable(s.active) {
      var s2 := store[chat := Set(store[chat], s.active.field, [])];
      assert ConfigByChatId(s2, chat, io) == Some((s2[chat], s2));
    }
  }

  /** The menu sends a prompt, yet the stored ledger is empty afterwards: that
      prompt can never be deleted by the flow. */
  lemma MenuPromptNotKept(t: Table, store: Store, io: Io, chat: int)
    requires io.findOk && chat in store
    ensures var r := Menu(t, store, chat, io);
      r.effects[0].ShowMenu? && r.table[chat].lastPrompts == []
  {
  }

  /** The menu shows the marker exactly for the unset fields. */
  lemma MenuShowsStored(t: Table, store: Store, io: Io, chat: int)
    requires io.findOk && chat in store
    ensures var r := Menu(t, store, chat, io);
      var c := store[chat];
      && r.effects == [ShowMenu(chat, Display(c.token), Display(c.hashtags), Display(c.cashtags), Display(c.community))]
      && r.store == store
  {
  }

  /** The lazily created record: a chat without one gets a record with only
      its chat id, and a chat with one keeps it. */
  lemma LazyCreate(store: Store, chat: int, io: Io)
    requires io.findOk && io.insertOk
    ensures var r := ConfigByChatId(store, chat, io);
      r.Some? && (chat !in store ==> r.value.0 == Config(chat, [], [], [], []))
      && (chat in store ==> r.value.0 == store[chat])
  {
  }

  /** Asking for a field makes the next reply go to that field. */
  lemma SetThenReply(t: Table, store: Store, io: Io, u: Classes, chat: int, f: Field, p: Ledger.MessageId, upd: Update)
    requires Good(t) && chat in t && upd.chat == chat
    requires Valid(u, f, TrimSpace(upd.text)) && io.findOk && io.updateOk && (chat in store || io.insertOk)
    ensures var t1 := OnConfigSet(t, store, chat, f, p).table;
      Good(t1) && var r := Handle(t1, store, io, u, upd);
      chat in r.store && Get(r.store[chat], f) == Stored(u, f, TrimSpace(upd.text))
  {
    var t1 := OnConfigSet(t, store, chat, f, p).table;
    ValidWritesOneField(t1, store, io, u, upd);
  }

  /** After a field is asked for, the chat's next message, whatever its
      text, is taken as the reply for that field. */
  lemma SetThenHandleReceives(t: Table, store: Store, io: Io, u: Classes, f: Field, p: Ledger.MessageId, upd: Update)
    requires Good(t) && upd.chat in t
    ensures var t1 := OnConfigSet(t, store, upd.chat, f, p).table;
      && Good(t1) && upd.chat in t1 && |t1[upd.chat].lastPrompts| > 0
      && Handle(t1, store, io, u, upd) == Receive(t1, store, io, u, f, upd)
  {
  }

  /** The ledger left by the main menu is empty, so a Clear after Back
      reaches the deletion of the last prompt of an empty ledger and the
      session panics. Events carry no message, so whether the prompt with
      the Clear button is still on screen is not part of this fact. */
  lemma BackThenClearPanics(t: Table, store: Store, ios: seq<Io>, u: Classes, c: int, f: Field, p: Ledger.MessageId)
    requires Good(t) && c in t
    requires |ios| >= 3 && ios[2].findOk && ios[2].insertOk
    ensures Run(t, store, ios, u, [SetButton(c, f, p), BackButton(c), ClearButton(c)]) == None
  {
    var es := [SetButton(c, f, p), BackButton(c), ClearButton(c)];
    var r1 := OnConfigSet(t, store, c, f, p);
    var r2 := OnBack(r1.table, r1.store, ios[1], c);
    assert r2.table[c] == MenuState;
    assert ClearPanics(r2.table, r2.store, ios[2], c);
    assert Run(r2.table, r2.store, ios[2..], u, es[2..]) == None;
    assert es[1..][1..] == es[2..] && ios[1..][1..] == ios[2..];
    assert Run(r1.table, r1.store, ios[1..], u, es[1..]) == None;
  }

  /** Two menus open in one chat (a second message while no command is
      active shows a second menu): Hashtags on the first, Cashtags on the
      second, Back on the cashtag prompt. Back empties the ledger, while the
      hashtag prompt, which no click has touched, still offers Clear; that
      Clear reaches the deletion of the last prompt of an empty ledger. */
  lemma TwoMenusClearPanics(store: Store, ios: seq<Io>, u: Classes, upd: Update, p1: Ledger.MessageId, p2: Ledger.MessageId)
    requires |ios| >= 6 && ios[5].findOk && ios[5].insertOk
    ensures var c := upd.chat;
      Run(map[], store, ios, u, [Message(upd), Message(upd), SetButton(c, Hashtags, p1), SetButton(c, Cashtags, p2), BackButton(c), ClearButton(c)]) == None
  {
    var c := upd.chat;
    var es := [Message(upd), Message(upd), SetButton(c, Hashtags, p1), SetButton(c, Cashtags, p2), BackButton(c), ClearButton(c)];
    var r1 := RunCons(map[], store, ios, u, es);
    assert es[1..][1..] == es[2..] && ios[1..][1..] == ios[2..];
    var r2 := RunCons(r1.table, r1.store, ios[1..], u, es[1..]);
    assert es[2..][1..] == es[3..] && ios[2..][1..] == ios[3..];
    var r3 := RunCons(r2.table, r2.store, ios[2..], u, es[2..]);
    assert es[3..] == [SetButton(c, Cashtags, p2), BackButton(c), ClearButton(c)];
    BackThenClearPanics(r3.table, r3.store, ios[3..], u, c, Cashtags, p2);
  }

  /** A session whose first event does not panic goes on from that event's
      step with the remaining events and oracles. */
  lemma RunCons(t: Table, store: Store, ios: seq<Io>, u: Classes, es: seq<Event>) returns (r: Step)
    requires Good(t) && es != [] && ios != []
    requires !es[0].ClearButton?
    ensures Apply(t, store, ios[0], u, es[0]) == Some(r) && Good(r.table)
    ensures es[0].Message? && (es[0].upd.chat in t ==> t[es[0].upd.chat].active == NoCommand) ==>
      es[0].upd.chat in r.table && r.table[es[0].upd.chat] == MenuState
    ensures es[0].SetButton? ==> r.table.Keys == t.Keys
    ensures Run(t, store, ios, u, es) == Run(r.table, r.store, ios[1..], u, es[1..])
  {
    ApplyKeepsGood(t, store, ios[0], u, es[0]);
    r := Apply(t, store, ios[0], u, es[0]).value;
  }

  /** `onClear` with the evident guard: the last prompt is deleted only when
      the ledger lists one. */
  function OnClearGuarded(t: Table, store: Store, io: Io, chat: int): (r: Step)
    ensures OnClear(t, store, io, chat).Some? ==> OnClear(t, store, io, chat) == Some(r)
    ensures ClearPanics(t, store, io, chat) ==> r.table == t[chat := MenuState] && |r.effects| == 1 && r.effects[0].ShowMenu?
  {
    if chat !in t then Step(t, store, [])
    else
      var s := t[chat];
      match ConfigByChatId(store, chat, io)
      case None => Step(t, store, [SendTryAgain(chat)])
      case Some((c, s1)) =>
        if Clearable(s.active) && !io.updateOk then Step(t, s1, [SendTryAgain(chat)])
        else
          var s2 := if Clearable(s.active) then s1[chat := Set(c, s.active.field, [])] else s1;
          var gone := if s.lastPrompts == [] then [] else Ledger.DeleteLast(s.lastPrompts, io.deleteOk).attempted;
          var m := Menu(t, s2, chat, io);
          Step(m.table, m.store, Deletions(chat, gone) + m.effects)
  }

  /** The guarded `onClear` never panics and keeps every reachable table
      reachable, the state after Back included. */
  lemma OnClearGuardedKeepsGood(t: Table, store: Store, io: Io, chat: int)
    requires Good(t)
    ensures Good(OnClearGuarded(t, store, io, chat).table)
  {
    PutGood(t, chat, MenuState);
  }
}

=== FILE: escape.dfy ===
/** Backslash-escaping of reserved characters in Telegram message text:
    `EscapeChars` of the helper package (seven characters) and the legacy
    dispatcher's `escapeChars` (two characters). Both are written as the chain
    of `strings.ReplaceAll` calls the source makes. */
module Escape {

  const Backslash: char := '\\'

  /** `strings.ReplaceAll(s, string(c), rep)` for a one-character pattern. */
  function ReplaceChar(s: string, c: char, rep: string): (r: string)
    ensures c !in s ==> r == s
  {
    if s == [] then []
    else (if s[0] == c then rep else [s[0]]) + ReplaceChar(s[1..], c, rep)
  }

  /** One step of the chain: `c` becomes `\c`. */
  function EscapeOne(s: string, c: char): string {
    ReplaceChar(s, c, [Backslash, c])
  }

  /** `tghelper.EscapeChars`. */
  function EscapeChars(s: string): string {
    var a := EscapeOne(s, '.');
    var b := EscapeOne(a, '!');
    var c := EscapeOne(b, '_');
    var d := EscapeOne(c, '<');
    var e := EscapeOne(d, '>');
    var f := EscapeOne(e, '=');
    EscapeOne(f, '-')
  }

  /** The legacy dispatcher's `escapeChars`: only `.` and `!`. */
  function LegacyEscapeChars(s: string): string {
    EscapeOne(EscapeOne(s, '.'), '!')
  }

  const Reserved: set<char> := {'.', '!', '_', '<', '>', '=', '-'}
  const LegacyReserved: set<char> := {'.', '!'}

  /** Reference definition: one pass, every character of `reserved` gets one
      backslash in front of it, every other character is copied. */
  function EscapeSet(s: string, reserved: set<char>): string {
    if s == [] then []
    else (if s[0] in reserved then [Backslash, s[0]] else [s[0]]) + EscapeSet(s[1..], reserved)
  }

  /** The inverse: a backslash followed by a reserved character is dropped. */
  function Unescape(s: string, reserved: set<char>): string {
    if s == [] then []
    else if s[0] == Backslash && |s| >= 2 && s[1] in reserved then [s[1]] + Unescape(s[2..], reserved)
    else [s[0]] + Unescape(s[1..], reserved)
  }

  /** How many characters of `s` are in `reserved`. */
  function Count(s: string, reserved: set<char>): nat {
    if s == [] then 0 else (if s[0] in reserved then 1 else 0) + Count(s[1..], reserved)
  }

  lemma {:induction false} ReplaceCharAppend(a: string, b: string, c: char, rep: string)
    ensures ReplaceChar(a + b, c, rep) == ReplaceChar(a, c, rep) + ReplaceChar(b, c, rep)
  {
    if a == [] {
      assert a + b == b;
    } else {
      assert (a + b)[0] == a[0];
      assert (a + b)[1..] == a[1..] + b;
      ReplaceCharAppend(a[1..], b, c, rep);
    }
  }

  lemma {:induction false} EscapeSetEmpty(s: string)
    ensures EscapeSet(s, {}) == s
  {
    if s != [] {
      EscapeSetEmpty(s[1..]);
      assert [s[0]] + s[1..] == s;
    }
  }

  /** One more `ReplaceAll` step adds one character to the escaped set, as
      long as that character is neither already escaped nor the backslash
      the earlier steps inserted. */
  lemma {:induction false} EscapeStep(s: string, reserved: set<char>, c: char)
    requires c !in reserved && c != Backslash
    ensures EscapeOne(EscapeSet(s, reserved), c) == EscapeSet(s, reserved + {c})
  {
    if s != [] {
      var head := if s[0] in reserved then [Backslash, s[0]] else [s[0]];
      assert EscapeSet(s, reserved) == head + EscapeSet(s[1..], reserved);
      ReplaceCharAppend(head, EscapeSet(s[1..], reserved), c, [Backslash, c]);
      EscapeStep(s[1..], reserved, c);
      if s[0] in reserved {
        assert ReplaceChar(head, c, [Backslash, c]) == head by {
          assert head[1..] == [s[0]];
          assert head[1..][1..] == [];
        }
      } else {
        assert head[1..] == [];
      }
    }
  }

  /** The seven-step chain equals the one-pass escape of the seven reserved
      characters: no step re-escapes what an earlier step produced. */
  lemma EscapeCharsIsEscapeSet(s: string)
    ensures EscapeChars(s) == EscapeSet(s, Reserved)
  {
    EscapeSetEmpty(s);
    EscapeStep(s, {}, '.');
    EscapeStep(s, {'.'}, '!');
    EscapeStep(s, {'.', '!'}, '_');
    EscapeStep(s, {'.', '!', '_'}, '<');
    EscapeStep(s, {'.', '!', '_', '<'}, '>');
    EscapeStep(s, {'.', '!', '_', '<', '>'}, '=');
    EscapeStep(s, {'.', '!', '_', '<', '>', '='}, '-');
    assert {} + {'.'} == {'.'};
    assert {'.'} + {'!'} == {'.', '!'};
    assert {'.', '!'} + {'_'} == {'.', '!', '_'};
    assert {'.', '!', '_'} + {'<'} == {'.', '!', '_', '<'};
    assert {'.', '!', '_', '<'} + {'>'} == {'.', '!', '_', '<', '>'};
    assert {'.', '!', '_', '<', '>'} + {'='} == {'.', '!', '_', '<', '>', '='};
    assert {'.', '!', '_', '<', '>', '='} + {'-'} == Reserved;
  }

  lemma LegacyEscapeIsEscapeSet(s: string)
    ensures LegacyEscapeChars(s) == EscapeSet(s, LegacyReserved)
  {
    EscapeSetEmpty(s);
    EscapeStep(s, {}, '.');
    EscapeStep(s, {'.'}, '!');
    assert {} + {'.'} == {'.'};
    assert {'.'} + {'!'} == LegacyReserved;
  }

  /** Unescaping undoes escaping, so nothing is lost, reordered or added
      beyond the backslashes; a backslash of the input is copied as is. */
  lemma {:induction false} UnescapeEscape(s: string, reserved: set<char>)
    requires Backslash !in reserved
    ensures Unescape(EscapeSet(s, reserved), reserved) == s
  {
    if s != [] {
      var rest := EscapeSet(s[1..], reserved);
      UnescapeEscape(s[1..], reserved);
      if s[0] in reserved {
        var out := [Backslash, s[0]] + rest;
        assert out[2..] == rest;
      } else {
        var out := [s[0]] + rest;
        assert out[1..] == rest;
        if s[0] == Backslash && |out| >= 2 {
          assert out[1] == rest[0];
          assert rest[0] == Backslash || rest[0] == s[1];
        }
      }
      assert [s[0]] + s[1..] == s;
    }
  }

  /** Every reserved character costs exactly one extra character. */
  lemma {:induction false} EscapeSetLength(s: string, reserved: set<char>)
    ensures |EscapeSet(s, reserved)| == |s| + Count(s, reserved)
  {
    if s != [] {
      EscapeSetLength(s[1..], reserved);
    }
  }

  /** The properties of the helper's `EscapeChars` together. */
  lemma EscapeCharsSpec(s: string)
    ensures Unescape(EscapeChars(s), Reserved) == s
    ensures |EscapeChars(s)| == |s| + Count(s, Reserved)
    ensures (forall i | 0 <= i < |s| :: s[i] !in Reserved) ==> EscapeChars(s) == s
  {
    EscapeCharsIsEscapeSet(s);
    UnescapeEscape(s, Reserved);
    EscapeSetLength(s, Reserved);
    if forall i | 0 <= i < |s| :: s[i] !in Reserved {
      NoReservedUnchanged(s, Reserved);
    }
  }

  lemma {:induction false} NoReservedUnchanged(s: string, reserved: set<char>)
    requires forall i | 0 <= i < |s| :: s[i] !in reserved
    ensures EscapeSet(s, reserved) == s
  {
    if s != [] {
      NoReservedUnchanged(s[1..], reserved);
      assert [s[0]] + s[1..] == s;
    }
  }

  /** The legacy escape keeps its own inverse and length law. */
  lemma LegacyEscapeSpec(s: string)
    ensures Unescape(LegacyEscapeChars(s), LegacyReserved) == s
    ensures |LegacyEscapeChars(s)| == |s| + Count(s, LegacyReserved)
  {
    LegacyEscapeIsEscapeSet(s);
    UnescapeEscape(s, LegacyReserved);
    EscapeSetLength(s, LegacyReserved);
  }

  /** The legacy escape touches `.` and `!` only: `_` and `-` pass through,
      where the helper's escape prefixes them. */
  lemma EscapeExamples()
    ensures LegacyEscapeChars("a_b-c") == "a_b-c"
    ensures EscapeChars("_") == "\\_"
    ensures LegacyEscapeChars("!") == "\\!"
  {
    LegacyPassThrough();
    EscapeCharsIsEscapeSet("_");
    LegacyEscapeIsEscapeSet("!");
  }

  lemma LegacyPassThrough()
    ensures LegacyEscapeChars("a_b-c") == "a_b-c"
  {
    var x := "a_b-c";
    LegacyEscapeIsEscapeSet(x);
    NoReservedUnchanged(x, LegacyReserved);
  }
}

=== FILE: ledger.dfy ===
/** The prompt ledger: the ordered list of prompt messages a flow has sent
    and may still delete, with the two deletion helpers of the Telegram
    helper package. Each transport deletion outcome comes from an oracle:
    `oks[k]` says whether the k-th deletion attempt succeeded, and attempts
    beyond the oracle's length fail. */
module Ledger {

  type MessageId = int

  /** What a deletion helper returns (the new ledger and whether an error came
      back) plus, for the model, which messages it tried to delete, in order. */
  datatype Outcome = Outcome(remaining: seq<MessageId>, attempted: seq<MessageId>, failed: bool)

  /** Outcome of the k-th deletion attempt. */
  predicate Deleted(oks: seq<bool>, k: nat) {
    k < |oks| && oks[k]
  }

  function Reverse<T>(s: seq<T>): (r: seq<T>)
    ensures |r| == |s|
  {
    if s == [] then [] else [s[|s| - 1]] + Reverse(s[..|s| - 1])
  }

  /** The reversed sequence reads the original from its end. */
  lemma {:induction false} ReverseIndex<T>(s: seq<T>)
    ensures forall i | 0 <= i < |s| :: Reverse(s)[i] == s[|s| - 1 - i]
  {
    if s != [] {
      ReverseIndex(s[..|s| - 1]);
    }
  }

  /** `DeleteLastMessage`: one attempt, on the last prompt; the ledger loses
      that prompt only if the deletion succeeded. The source indexes
      `messages[n-1]`, so the ledger must not be empty. */
  function DeleteLast(msgs: seq<MessageId>, ok: bool): (r: Outcome)
    requires |msgs| > 0
    ensures r.attempted == [msgs[|msgs| - 1]]
    ensures ok ==> r.remaining == msgs[..|msgs| - 1] && !r.failed
    ensures !ok ==> r.remaining == msgs && r.failed
  {
    var n := |msgs|;
    if ok then Outcome(msgs[..n - 1], [msgs[n - 1]], false)
    else Outcome(msgs, [msgs[n - 1]], true)
  }

  /** The oracle for the attempts after the first one. */
  function Tail(oks: seq<bool>): (t: seq<bool>)
    ensures forall j: nat :: Deleted(t, j) == Deleted(oks, j + 1)
  {
    if oks == [] then [] else oks[1..]
  }

  /** The oracle after `n` attempts. */
  function Drop(oks: seq<bool>, n: nat): (t: seq<bool>)
    ensures forall j: nat :: Deleted(t, j) == Deleted(oks, n + j)
  {
    if n >= |oks| then [] else oks[n..]
  }

  lemma DropStep(oks: seq<bool>, n: nat)
    ensures Drop(oks, n + 1) == Tail(Drop(oks, n))
  {
  }

  /** A successful first attempt leaves the rest of the purge to the older
      prompts and the rest of the oracle. */
  lemma DeleteAllStep(msgs: seq<MessageId>, oks: seq<bool>)
    requires msgs != [] && Deleted(oks, 0)
    ensures DeleteAll(msgs, oks).remaining == DeleteAll(msgs[..|msgs| - 1], Tail(oks)).remaining
    ensures DeleteAll(msgs, oks).failed == DeleteAll(msgs[..|msgs| - 1], Tail(oks)).failed
  {
  }

  /** `DeleteAllMessages`: attempts run from the last prompt to the first and
      stop at the first failure. */
  function DeleteAll(msgs: seq<MessageId>, oks: seq<bool>): (r: Outcome)
    ensures |r.remaining| <= |msgs| && r.remaining == msgs[..|r.remaining|]
    ensures 1 <= |r.attempted| <= |msgs| || (msgs == [] && r.attempted == [])
    decreases |msgs|
  {
    if msgs == [] then Outcome([], [], false)
    else
      var n := |msgs|;
      if !Deleted(oks, 0) then Outcome(msgs, [msgs[n - 1]], true)
      else
        var r := DeleteAll(msgs[..n - 1], Tail(oks));
        Outcome(r.remaining, [msgs[n - 1]] + r.attempted, r.failed)
  }

  /** The newest `m` prompts were tried, newest first. */
  lemma {:induction false} DeleteAllOrder(msgs: seq<MessageId>, oks: seq<bool>)
    ensures var r := DeleteAll(msgs, oks);
      r.attempted == Reverse(msgs[|msgs| - |r.attempted|..])
    decreases |msgs|
  {
    if msgs == [] || !Deleted(oks, 0) {
      DeleteAllOrderBase(msgs, oks);
    } else {
      DeleteAllOrder(msgs[..|msgs| - 1], Tail(oks));
      DeleteAllOrderStep(msgs, oks);
    }
  }

  lemma DeleteAllOrderBase(msgs: seq<MessageId>, oks: seq<bool>)
    requires msgs == [] || !Deleted(oks, 0)
    ensures var r := DeleteAll(msgs, oks);
      r.attempted == Reverse(msgs[|msgs| - |r.attempted|..])
  {
    var n := |msgs|;
    if msgs == [] {
      assert msgs[n..] == [];
    } else {
      var last := msgs[n - 1..];
      assert last == [msgs[n - 1]];
      assert last[..0] == [];
      assert Reverse(last) == [msgs[n - 1]] + Reverse(last[..0]);
    }
  }

  /** The inductive step of `DeleteAllOrder`, after a successful attempt. */
  lemma DeleteAllOrderStep(msgs: seq<MessageId>, oks: seq<bool>)
    requires msgs != [] && Deleted(oks, 0)
    requires var t := DeleteAll(msgs[..|msgs| - 1], Tail(oks));
      t.attempted == Reverse(msgs[..|msgs| - 1][|msgs| - 1 - |t.attempted|..])
    ensures var r := DeleteAll(msgs, oks);
      r.attempted == Reverse(msgs[|msgs| - |r.attempted|..])
  {
    var n := |msgs|;
    var t := DeleteAll(msgs[..n - 1], Tail(oks));
    ReverseSuffixStep(msgs, |t.attempted|);
    assert DeleteAll(msgs, oks).attempted == [msgs[n - 1]] + t.attempted;
  }

  /** Reversing a suffix one longer puts its new last element in front. */
  lemma ReverseSuffixStep(msgs: seq<MessageId>, m: nat)
    requires m < |msgs|
    ensures Reverse(msgs[|msgs| - 1 - m..])
      == [msgs[|msgs| - 1]] + Reverse(msgs[..|msgs| - 1][|msgs| - 1 - m..])
  {
    var n := |msgs|;
    var suffix := msgs[n - 1 - m..];
    assert suffix[|suffix| - 1] == msgs[n - 1];
    assert suffix[..|suffix| - 1] == msgs[..n - 1][n - 1 - m..];
  }

  /** The first `m` attempts all succeed. */
  predicate AllDeleted(oks: seq<bool>, m: int) {
    forall j | 0 <= j < m :: Deleted(oks, j)
  }

  /** Every attempt but the last succeeded; the last failed iff an error came
      back, and then the ledger keeps the failed prompt and everything older;
      without an error the ledger is empty. */
  lemma {:induction false} DeleteAllOutcome(msgs: seq<MessageId>, oks: seq<bool>)
    ensures var r := DeleteAll(msgs, oks);
      var m := |r.attempted|;
      && AllDeleted(oks, m - 1)
      && (r.failed ==> !Deleted(oks, m - 1) && r.remaining == msgs[..|msgs| - m + 1])
      && (!r.failed ==> m == |msgs| && r.remaining == [] && (m == 0 || Deleted(oks, m - 1)))
    decreases |msgs|
  {
    if msgs != [] && Deleted(oks, 0) {
      var n := |msgs|;
      var t := DeleteAll(msgs[..n - 1], Tail(oks));
      DeleteAllOutcome(msgs[..n - 1], Tail(oks));
      var m := |t.attempted|;
      assert DeleteAll(msgs, oks) == Outcome(t.remaining, [msgs[n - 1]] + t.attempted, t.failed);
      if t.failed {
        assert msgs[..n - 1][..n - 1 - m + 1] == msgs[..n - m];
      }
      AllDeletedStep(oks, m);
    }
  }

  lemma AllDeletedStep(oks: seq<bool>, m: nat)
    requires Deleted(oks, 0) && AllDeleted(Tail(oks), m - 1)
    ensures AllDeleted(oks, m)
  {
    forall j | 0 <= j < m
      ensures Deleted(oks, j)
    {
      if j > 0 {
        assert Deleted(Tail(oks), j - 1);
      }
    }
  }

  /** No error comes back exactly when every deletion succeeds. */
  lemma {:induction false} DeleteAllFails(msgs: seq<MessageId>, oks: seq<bool>)
    ensures !DeleteAll(msgs, oks).failed <==> forall j | 0 <= j < |msgs| :: Deleted(oks, j)
    decreases |msgs|
  {
    if msgs != [] {
      var n := |msgs|;
      DeleteAllFails(msgs[..n - 1], Tail(oks));
      if forall j | 0 <= j < n :: Deleted(oks, j) {
        forall j | 0 <= j < n - 1
          ensures Deleted(Tail(oks), j)
        {
          assert Deleted(oks, j + 1);
        }
      }
      if Deleted(oks, 0) && forall j | 0 <= j < n - 1 :: Deleted(Tail(oks), j) {
        forall j | 0 <= j < n
          ensures Deleted(oks, j)
        {
          if j > 0 {
            assert Deleted(Tail(oks), j - 1);
          }
        }
      }
    }
  }

  /** The purge as the flows use it. */
  lemma DeleteAllSpec(msgs: seq<MessageId>, oks: seq<bool>)
    ensures var r := DeleteAll(msgs, oks);
      && (!r.failed <==> forall j | 0 <= j < |msgs| :: Deleted(oks, j))
      && (!r.failed ==> r.remaining == [] && r.attempted == Reverse(msgs))
      && (r.failed ==>
            && |r.remaining| >= 1
            && r.remaining == msgs[..|msgs| - |r.attempted| + 1]
            && r.remaining[|r.remaining| - 1] == r.attempted[|r.attempted| - 1]
            && !Deleted(oks, |r.attempted| - 1))
  {
    DeleteAllOrder(msgs, oks);
    DeleteAllOutcome(msgs, oks);
    DeleteAllFails(msgs, oks);
    assert msgs[|msgs| - |msgs|..] == msgs;
  }

  /** The Go loop of `DeleteAllMessages`, index from the end down to 0. */
  method DeleteAllMessages(msgs: seq<MessageId>, oks: seq<bool>) returns (remaining: seq<MessageId>, failed: bool)
    ensures remaining == DeleteAll(msgs, oks).remaining
    ensures failed == DeleteAll(msgs, oks).failed
  {
    remaining := msgs;
    var answers := oks;
    var i := |msgs| - 1;
    while i >= 0
      invariant -1 <= i < |msgs|
      invariant remaining == msgs[..i + 1]
      invariant DeleteAll(msgs, oks).remaining == DeleteAll(remaining, answers).remaining
      invariant DeleteAll(msgs, oks).failed == DeleteAll(remaining, answers).failed
    {
      if !Deleted(answers, 0) {
        return remaining, true;
      }
      DeleteAllStep(remaining, answers);
      assert remaining[..|remaining| - 1] == msgs[..i];
      remaining := remaining[..|remaining| - 1];
      answers := Tail(answers);
      i := i - 1;
    }
    return remaining, false;
  }

  /** The examples: one failure in the middle keeps the older prompts. */
  lemma DeleteAllExample()
    ensures DeleteAll([1, 2, 3], [true, false]) == Outcome([1, 2], [3, 2], true)
    ensures DeleteAll([1, 2, 3], [true, true, true]) == Outcome([], [3, 2, 1], false)
    ensures DeleteAll([1, 2, 3], []) == Outcome([1, 2, 3], [3], true)
  {
    assert [1, 2, 3][..2] == [1, 2];
    assert [1, 2][..1] == [1];
    assert [1][..0] == [];
  }
}

=== FILE: legacy.dfy ===
/** The legacy dispatcher, the bot the `run` command starts: commands routed
    by their exact text (or a `/cmd@bot` prefix), and a default handler that
    walks a chat through link, text and link generation. Per-chat shilling
    state and the last message of each chat are two tables; each handler call
    is one atomic transition. */
module Legacy {
  import opened Wrappers
  import opened TweetLinks
  import ShillX
  import Escape

  /** One chat's shilling state; `user` is the id of the user who started. */
  datatype State = State(inProgress: bool, user: int, tweetLink: string, tweetText: string)

  const Zero: State := State(false, 0, [], [])

  /** `lastMessage`: id and text of the chat's last non-empty message. */
  datatype LastMessage = LastMessage(messageId: int, text: string)

  datatype World = World(shilling: map<int, State>, lastMessages: map<int, LastMessage>)

  datatype Update = Update(chat: int, from: int, id: int, text: string)

  /** The handler a message text is routed to. */
  datatype Route = ShillCmd | CancelCmd | StartCmd | HelpCmd | SettingsCmd | Default

  datatype Notice = AlreadyShilling | Cancelled | InvalidLink | TryAgain | StartText | HelpText | SettingsText

  datatype Prompt = AskLink | AskText

  datatype LinkRecord = LinkRecord(chatId: int, tweetId: string, tweetLink: string, tweetText: string)

  /** What one call asks of the transport and the store. The final
      dialog's message is escaped as a whole by the legacy escape, character
      by character, so `ShowLink` carries the tweet link escaped. */
  datatype Effect =
    | SendNotice(chat: int, notice: Notice)
    | SendPrompt(chat: int, prompt: Prompt)
    | DeleteMessage(chat: int, messageId: int)
    | InsertLink(record: LinkRecord)
    | ShowLink(chat: int, escapedLink: string, link: string)

  /** The answers during one call: the URL parser, the id the store assigns to
      an inserted record (`None` when the insert fails), whether the dialog
      could be shown, and the configured API base URL. */
  datatype Io = Io(parse: Parser, inserted: Option<string>, shown: bool, apiUrl: string)

  datatype Step = Step(world: World, effects: seq<Effect>)

  predicate HasPrefix(s: string, p: string) {
    |p| <= |s| && s[..|p|] == p
  }

  /** The handler registration: exact matches for every command, and
      `/shillx@` and `/cancel@` as prefixes (commands addressed to the bot
      in a group). No text matches two patterns. */
  function RouteOf(text: string): (r: Route)
    ensures r == ShillCmd <==> text == "/shillx" || HasPrefix(text, "/shillx@")
    ensures r == CancelCmd <==> text == "/cancel" || HasPrefix(text, "/cancel@")
  {
    if text == "/shillx" || HasPrefix(text, "/shillx@") then ShillCmd
    else if text == "/cancel" || HasPrefix(text, "/cancel@") then CancelCmd
    else if text == "/start" then StartCmd
    else if text == "/help" then HelpCmd
    else if text == "/settings" then SettingsCmd
    else Default
  }

  /** `chatShillState`: the zero state for an unknown chat. */
  function StateOf(w: World, chat: int): State {
    GetOr(w.shilling, chat, Zero)
  }

  /** The reachable states: an idle chat holds the zero state, and a chat in
      progress has not received its tweet text yet. */
  predicate Good(w: World) {
    forall k | k in w.shilling :: Reachable(w.shilling[k])
  }

  predicate Reachable(s: State) {
    && (!s.inProgress ==> s == Zero)
    && (s.inProgress ==> s.tweetText == [])
  }

  /** `sendMessageAndReset`. */
  function Reset(w: World, chat: int, n: Notice): Step {
    Step(w.(shilling := w.shilling[chat := Zero]), [SendNotice(chat, n)])
  }

  /** `shillHandler`. */
  function ShillHandler(w: World, u: Update): Step {
    var s := StateOf(w, u.chat);
    if s.inProgress then
      Step(w, [SendNotice(u.chat, AlreadyShilling), DeleteMessage(u.chat, u.id)])
    else
      Step(w.(shilling := w.shilling[u.chat := s.(inProgress := true, user := u.from)]), [SendPrompt(u.chat, AskLink)])
  }

  /** `cancelHandler`: only a chat in progress is reset. */
  function CancelHandler(w: World, chat: int): Step {
    if !StateOf(w, chat).inProgress then Step(w, []) else Reset(w, chat, Cancelled)
  }

  /** `onInlineKeyboardSelect`: the cancel button resets without looking at
      the state. */
  function OnCancelButton(w: World, chat: int, data: string): Step {
    if data == "cancel" then Reset(w, chat, Cancelled) else Step(w, [])
  }

  /** The record `generateShillLink` inserts: no reply type here. */
  function RecordOf(chat: int, s: State): LinkRecord {
    LinkRecord(chat, ExtractTweetId(s.tweetLink), s.tweetLink, s.tweetText)
  }

  /** `defaultHandler`. Markdown escaping keeps a text empty exactly when it
      was empty, so only the raw text is tested. */
  function DefaultHandler(w: World, io: Io, u: Update): Step {
    if u.text == [] then Step(w, [])
    else
      var w1 := w.(lastMessages := w.lastMessages[u.chat := LastMessage(u.id, u.text)]);
      var s := StateOf(w1, u.chat);
      if !s.inProgress || s.user != u.from then Step(w1, [])
      else if s.tweetLink == [] then
        if !IsTweetUrl(io.parse, LegacyTweetHosts, u.text) then Reset(w1, u.chat, InvalidLink)
        else
          Step(w1.(shilling := w1.shilling[u.chat := s.(tweetLink := u.text)]),
               [DeleteMessage(u.chat, u.id), SendPrompt(u.chat, AskText)])
      else if s.tweetText == [] then
        var s1 := s.(tweetText := u.text);
        var w2 := w1.(shilling := w1.shilling[u.chat := s1]);
        var cleanup := [DeleteMessage(u.chat, u.id), InsertLink(RecordOf(u.chat, s1))];
        match io.inserted
        case None => var r := Reset(w2, u.chat, TryAgain); Step(r.world, cleanup + r.effects)
        case Some(id) =>
          var show := ShowLink(u.chat, Escape.LegacyEscapeChars(s1.tweetLink), ShillX.ShillLink(io.apiUrl, id));
          if !io.shown then var r := Reset(w2, u.chat, TryAgain); Step(r.world, cleanup + [show] + r.effects)
          else Step(w2.(shilling := w2.shilling[u.chat := Zero]), cleanup + [show])
      else Step(w1, [])
  }

  /** One incoming text message. */
  function Dispatch(w: World, io: Io, u: Update): Step {
    match RouteOf(u.text)
    case ShillCmd => ShillHandler(w, u)
    case CancelCmd => CancelHandler(w, u.chat)
    case StartCmd => Step(w, [SendNotice(u.chat, StartText)])
    case HelpCmd => Step(w, [SendNotice(u.chat, HelpText)])
    case SettingsCmd => Step(w, [SendNotice(u.chat, SettingsText)])
    case Default => DefaultHandler(w, io, u)
  }

  // ---------------------------------------------------------------------
  // Properties

  /** Every handler keeps the state tables reachable. */
  lemma DispatchKeepsGood(w: World, io: Io, u: Update)
    requires Good(w)
    ensures Good(Dispatch(w, io, u).world)
  {
    match RouteOf(u.text)
    case ShillCmd => ShillKeepsGood(w, u);
    case CancelCmd => CancelKeepsGood(w, u.chat);
    case StartCmd =>
    case HelpCmd =>
    case SettingsCmd =>
    case Default => DefaultKeepsGood(w, io, u);
  }

  /** A reset repairs the one chat it touches. */
  lemma ResetKeepsGood(w: World, chat: int, n: Notice)
    requires forall k | k in w.shilling && k != chat :: Reachable(w.shilling[k])
    ensures Good(Reset(w, chat, n).world)
  {
  }

  lemma ShillKeepsGood(w: World, u: Update)
    requires Good(w)
    ensures Good(ShillHandler(w, u).world)
  {
  }

  lemma CancelKeepsGood(w: World, chat: int)
    requires Good(w)
    ensures Good(CancelHandler(w, chat).world)
  {
    if StateOf(w, chat).inProgress {
      ResetKeepsGood(w, chat, Cancelled);
    }
  }

  lemma DefaultKeepsGood(w: World, io: Io, u: Update)
    requires Good(w)
    ensures Good(DefaultHandler(w, io, u).world)
  {
    if u.text != [] {
      var w1 := w.(lastMessages := w.lastMessages[u.chat := LastMessage(u.id, u.text)]);
      assert w1.shilling == w.shilling;
      var s := StateOf(w1, u.chat);
      if s.inProgress && s.user == u.from {
        if s.tweetLink == [] {
          if !IsTweetUrl(io.parse, LegacyTweetHosts, u.text) {
            ResetKeepsGood(w1, u.chat, InvalidLink);
          }
        } else if s.tweetText == [] {
          var w2 := w1.(shilling := w1.shilling[u.chat := s.(tweetText := u.text)]);
          ResetKeepsGood(w2, u.chat, TryAgain);
        }
      }
    }
  }

  lemma CancelButtonKeepsGood(w: World, chat: int, data: string)
    requires Good(w)
    ensures Good(OnCancelButton(w, chat, data).world)
  {
  }

  /** `/shillx` on a chat in progress changes no state; on an idle chat it
      starts the flow for the sender with no link and no text. */
  lemma ShillHandlerSpec(w: World, u: Update)
    requires Good(w)
    ensures var r := ShillHandler(w, u);
      StateOf(w, u.chat).inProgress ==> r.world == w
    ensures var r := ShillHandler(w, u);
      !StateOf(w, u.chat).inProgress ==>
        && StateOf(r.world, u.chat) == State(true, u.from, [], [])
        && r.world.lastMessages == w.lastMessages
  {
  }

  /** `/cancel` on an idle chat does nothing; otherwise the chat returns to
      the zero state. */
  lemma CancelHandlerSpec(w: World, chat: int)
    ensures !StateOf(w, chat).inProgress ==> CancelHandler(w, chat) == Step(w, [])
    ensures StateOf(w, chat).inProgress ==>
      StateOf(CancelHandler(w, chat).world, chat) == Zero && CancelHandler(w, chat).effects == [SendNotice(chat, Cancelled)]
  {
  }

  /** Empty text, an idle chat, or a sender other than the one who started:
      the shilling state is untouched. */
  lemma DefaultIgnores(w: World, io: Io, u: Update)
    requires u.text == [] || !StateOf(w, u.chat).inProgress || StateOf(w, u.chat).user != u.from
    ensures DefaultHandler(w, io, u).world.shilling == w.shilling
    ensures DefaultHandler(w, io, u).effects == []
  {
  }

  /** A refused link resets the chat; an accepted one is stored exactly as
      sent: not trimmed, query included. */
  lemma DefaultLink(w: World, io: Io, u: Update)
    requires u.text != [] && StateOf(w, u.chat).inProgress && StateOf(w, u.chat).user == u.from
    requires StateOf(w, u.chat).tweetLink == []
    ensures var r := DefaultHandler(w, io, u);
      && (!IsTweetUrl(io.parse, LegacyTweetHosts, u.text) ==> StateOf(r.world, u.chat) == Zero)
      && (IsTweetUrl(io.parse, LegacyTweetHosts, u.text) ==>
            StateOf(r.world, u.chat) == StateOf(w, u.chat).(tweetLink := u.text))
  {
  }

  /** An x.com link, fine for the reply-link flow, ends the legacy flow. */
  lemma XLinkRejected(w: World, io: Io, u: Update, url: Url)
    requires u.text != [] && StateOf(w, u.chat).inProgress && StateOf(w, u.chat).user == u.from
    requires StateOf(w, u.chat).tweetLink == []
    requires io.parse(Text.TrimSpace(u.text)) == Some(url) && url.host == "x.com" && IsTweetPath(url.path)
    ensures IsTweetUrl(io.parse, TweetHosts, u.text)
    ensures StateOf(DefaultHandler(w, io, u).world, u.chat) == Zero
  {
    HostExamples(io.parse, u.text, url);
  }

  /** The text reply generates the link and, once shown, puts the chat back
      in the zero state; the record's ID is the last segment of the stored
      link, and the link shown unescapes to the stored one. */
  lemma DefaultCompletes(w: World, io: Io, u: Update, id: string)
    requires u.text != [] && StateOf(w, u.chat).inProgress && StateOf(w, u.chat).user == u.from
    requires StateOf(w, u.chat).tweetLink != [] && StateOf(w, u.chat).tweetText == []
    requires io.inserted == Some(id) && io.shown
    ensures var r := DefaultHandler(w, io, u);
      var link := StateOf(w, u.chat).tweetLink;
      && StateOf(r.world, u.chat) == Zero
      && InsertLink(LinkRecord(u.chat, ExtractTweetId(link), link, u.text)) in r.effects
      && r.effects[|r.effects| - 1] == ShowLink(u.chat, Escape.LegacyEscapeChars(link), ShillX.ShillLink(io.apiUrl, id))
      && Escape.Unescape(r.effects[|r.effects| - 1].escapedLink, Escape.LegacyReserved) == link
  {
    Escape.LegacyEscapeSpec(StateOf(w, u.chat).tweetLink);
  }

  /** Routing: the commands with a group form accept it, others only match
      exactly, and everything else goes to the default handler. */
  lemma RouteExamples()
    ensures RouteOf("/shillx") == ShillCmd && RouteOf("/shillx@MyBot") == ShillCmd
    ensures RouteOf("/cancel@MyBot") == CancelCmd
    ensures RouteOf("/start@MyBot") == Default
    ensures RouteOf("/shillxx") == Default
  {
    assert "/shillx@MyBot"[..8] == "/shillx@";
    assert "/cancel@MyBot"[..8] == "/cancel@";
    assert "/start@MyBot"[..8][2] != "/shillx@"[2];
    assert "/start@MyBot"[..8][1] != "/cancel@"[1];
    assert "/shillxx"[..8][7] != "/shillx@"[7];
    assert "/shillxx"[..8][1] != "/cancel@"[1];
  }
}

=== FILE: reply.dfy ===
/** Reply generation in the API service: for a stored link record, build an
    instruction from a persona template, ask the language-model backend up to
    three times for a reply that fits a tweet, and redirect to the tweet
    composer. The backend's answers are an oracle sequence; the Fish
    persona's random choice is a parameter. */
module Reply {
  import opened Wrappers
  import opened Text
  import ShillX

  /** The errors of the API, as tags. `Backend` and `Lookup` carry the
      message of an error passed through. */
  datatype ApiError =
    | OpenAiReplyLength
    | ShillNotFound
    | Backend(message: string)
    | Lookup(message: string)

  const MaxChars: nat := 280
  const CharLimit: nat := 260
  const MaxAttempts: nat := 3

  /** The chats with their own persona. */
  const TrollcoinChat: int := 6722465333
  const FishChat: int := -1002106403888

  /** Whose point of view the Fish persona speaks from. */
  datatype FishView = Boy | Girl | StolenFish

  /** The instruction templates; their wording is not part of the model. */
  datatype Template =
    | TrollanaShill | TrollanaTroll
    | TrollcoinShill | TrollcoinTroll
    | FishShill(view: FishView) | FishTroll

  predicate IsTrollTemplate(t: Template) {
    t == TrollanaTroll || t == TrollcoinTroll || t == FishTroll
  }

  /** `rand.Intn(3)`: 1 is the girl, 2 the fish, anything else the boy. */
  function ViewOf(choice: nat): FishView {
    if choice == 1 then Girl else if choice == 2 then StolenFish else Boy
  }

  /** `aiInstruction` with its three persona functions. */
  function TemplateFor(rec: ShillX.LinkRecord, choice: nat): Template {
    var troll := rec.replyType == ShillX.Troll;
    if rec.chatId == TrollcoinChat then (if troll then TrollcoinTroll else TrollcoinShill)
    else if rec.chatId == FishChat then (if troll then FishTroll else FishShill(ViewOf(choice)))
    else if troll then TrollanaTroll else TrollanaShill
  }

  /** The instruction sent to the backend: template, budget, tweet text. */
  datatype Instruction = Instruction(template: Template, charLimit: nat, tweetText: string)

  function InstructionFor(rec: ShillX.LinkRecord, choice: nat): (i: Instruction)
    requires choice < 3
    ensures i.charLimit == CharLimit && i.tweetText == rec.tweetText
    ensures IsTrollTemplate(i.template) <==> rec.replyType == ShillX.Troll
  {
    Instruction(TemplateFor(rec, choice), CharLimit, rec.tweetText)
  }

  /** One answer of the backend: the first choice's content, or an error. */
  type Answer = Result<string, string>

  /** The reply an answer yields: every leading and trailing `"` removed. */
  function Cleaned(content: string): string {
    TrimQuotes(content)
  }

  /** A cleaned reply fits when its UTF-8 byte length is at most 280. */
  predicate Fits(reply: string) {
    ByteLen(reply) <= MaxChars
  }

  /** What one answer decides: `None` to try again (the reply is too long),
      otherwise the result to return. */
  function Verdict(a: Answer): (v: Option<Result<string, ApiError>>)
    ensures v != Some(Err(OpenAiReplyLength))
  {
    match a
    case Err(e) => Some(Err(Backend(e)))
    case Ok(content) =>
      var reply := Cleaned(content);
      if !Fits(reply) then None else Some(Ok(reply))
  }

  /** Retry exactly on a too-long reply; return a fitting reply as it was
      cleaned, and a backend error as it came. */
  lemma VerdictSpec(a: Answer)
    ensures var v := Verdict(a);
      && (v.None? <==> a.Ok? && !Fits(Cleaned(a.value)))
      && (v.Some? && v.value.Ok? ==> a.Ok? && v.value.value == Cleaned(a.value) && Fits(v.value.value))
      && (v.Some? && v.value.Err? ==> a.Err? && v.value.error == Backend(a.error))
  {
  }

  /** An attempt that is retried: the backend answered, the reply is too long. */
  predicate TooLong(a: Answer) {
    a.Ok? && !Fits(Cleaned(a.value))
  }

  /** What `generateReply` returns, with the number of backend calls made. */
  datatype Generated = Generated(result: Result<string, ApiError>, calls: nat)

  type Decision = Option<Result<string, ApiError>>

  /** The retry loop from attempt `k` (0-based) on, over the decisions the
      answers lead to. */
  function Attempts(ds: seq<Decision>, k: nat): (g: Generated)
    requires k <= MaxAttempts <= |ds|
    // never more than three calls, each attempt after `k` at most once
    ensures k <= g.calls <= MaxAttempts
    // the length error after the third call, any other result from the last call
    ensures || (g.calls > k && ds[g.calls - 1] == Some(g.result))
            || (g.calls == MaxAttempts && g.result == Err(OpenAiReplyLength))
    decreases MaxAttempts - k
  {
    if k == MaxAttempts then Generated(Err(OpenAiReplyLength), k)
    else match ds[k]
      case None => Attempts(ds, k + 1)
      case Some(result) => Generated(result, k + 1)
  }

  /** Every call before the last one led to a retry. */
  lemma {:induction false} AttemptsRetried(ds: seq<Decision>, k: nat)
    requires k <= MaxAttempts <= |ds|
    ensures var g := Attempts(ds, k);
      forall j | k <= j < g.calls - 1 :: ds[j].None?
    decreases MaxAttempts - k
  {
    if k < MaxAttempts && ds[k].None? {
      AttemptsRetried(ds, k + 1);
    }
  }

  /** When no answer itself decides the length error, it comes exactly when
      every remaining attempt led to a retry. */
  lemma {:induction false} AttemptsLengthError(ds: seq<Decision>, k: nat)
    requires k <= MaxAttempts <= |ds|
    requires forall j | k <= j < MaxAttempts :: ds[j] != Some(Err(OpenAiReplyLength))
    ensures Attempts(ds, k).result == Err(OpenAiReplyLength) <==> forall j | k <= j < MaxAttempts :: ds[j].None?
    decreases MaxAttempts - k
  {
    if k < MaxAttempts && ds[k].None? {
      AttemptsLengthError(ds, k + 1);
    }
  }

  /** The decisions of the first three answers. */
  function Decisions(rs: seq<Answer>): (ds: seq<Decision>)
    requires |rs| >= MaxAttempts
    ensures |ds| == MaxAttempts
    ensures forall j | 0 <= j < MaxAttempts :: ds[j] == Verdict(rs[j])
  {
    [Verdict(rs[0]), Verdict(rs[1]), Verdict(rs[2])]
  }

  /** `generateReply` for the answers the backend gives to its three calls;
      the instruction only shapes those answers. */
  function GenerateReply(rs: seq<Answer>): Generated
    requires |rs| >= MaxAttempts
  {
    Attempts(Decisions(rs), 0)
  }

  /** The loop as written in the source: `attempt` counts from 1, a too-long
      reply continues, anything else leaves the loop. */
  method GenerateReplyLoop(rs: seq<Answer>) returns (result: Result<string, ApiError>, calls: nat)
    requires |rs| >= MaxAttempts
    ensures Generated(result, calls) == GenerateReply(rs)
  {
    var attempt := 1;
    calls := 0;
    while true
      invariant 1 <= attempt <= MaxAttempts + 1
      invariant calls == attempt - 1
      invariant Attempts(Decisions(rs), attempt - 1) == GenerateReply(rs)
      decreases MaxAttempts + 1 - attempt
    {
      if attempt > MaxAttempts {
        return Err(OpenAiReplyLength), calls;
      }
      var answer := rs[attempt - 1];
      calls := calls + 1;
      if answer.Err? {
        return Err(Backend(answer.error)), calls;
      }
      var reply := Cleaned(answer.value);
      if ByteLen(reply) > MaxChars {
        attempt := attempt + 1;
        continue;
      }
      return Ok(reply), calls;
    }
  }

  /** The redirect `createTwitterReply` answers with. `escape` is the query
      escaping of the reply text. */
  function RedirectUrl(tweetId: string, reply: string, escape: string -> string): string {
    "https://twitter.com/intent/tweet?in_reply_to=" + tweetId + "&text=" + escape(reply)
  }

  /** What `createTwitterReply` does: look up the record, generate, and
      redirect; `calls` counts backend calls. Storing the generated reply is
      only logged on failure and does not change the answer. */
  datatype Response = Response(result: Result<string, ApiError>, calls: nat)

  function CreateTwitterReply(lookup: Result<Option<ShillX.LinkRecord>, string>, rs: seq<Answer>, escape: string -> string): Response
    requires |rs| >= MaxAttempts
  {
    match lookup
    case Err(e) => Response(Err(Lookup(e)), 0)
    case Ok(None) => Response(Err(ShillNotFound), 0)
    case Ok(Some(rec)) =>
      var g := GenerateReply(rs);
      match g.result
      case Err(e) => Response(Err(e), g.calls)
      case Ok(reply) => Response(Ok(RedirectUrl(rec.tweetId, reply, escape)), g.calls)
  }

  // ---------------------------------------------------------------------
  // Properties

  /** At least one and at most three backend calls; a first answer that is
      an error is returned at once. */
  lemma GenerateReplyCalls(rs: seq<Answer>)
    requires |rs| >= MaxAttempts
    ensures var g := GenerateReply(rs);
      && 1 <= g.calls <= MaxAttempts
      && (rs[0].Err? ==> g == Generated(Err(Backend(rs[0].error)), 1))
  {
  }

  /** The length error comes exactly when all three replies were too long. */
  lemma GenerateReplyLengthError(rs: seq<Answer>)
    requires |rs| >= MaxAttempts
    ensures GenerateReply(rs).result == Err(OpenAiReplyLength) <==>
      TooLong(rs[0]) && TooLong(rs[1]) && TooLong(rs[2])
  {
    var ds := Decisions(rs);
    VerdictSpec(rs[0]);
    VerdictSpec(rs[1]);
    VerdictSpec(rs[2]);
    AttemptsLengthError(ds, 0);
  }

  /** Any other result is the decision of the last call, and every call before
      it returned a reply that was too long: a success is the first reply that
      fits, cleaned of quotes; a backend error is passed through at once. */
  lemma GenerateReplyLastCall(rs: seq<Answer>)
    requires |rs| >= MaxAttempts
    ensures var g := GenerateReply(rs);
      g.result != Err(OpenAiReplyLength) ==>
        && (forall j | 0 <= j < g.calls - 1 :: TooLong(rs[j]))
        && (g.result.Ok? ==>
              && rs[g.calls - 1].Ok?
              && g.result.value == Cleaned(rs[g.calls - 1].value)
              && Fits(g.result.value))
        && (g.result.Err? ==>
              && rs[g.calls - 1].Err?
              && g.result.error == Backend(rs[g.calls - 1].error))
  {
    var ds := Decisions(rs);
    var g := GenerateReply(rs);
    AttemptsRetried(ds, 0);
    if g.result != Err(OpenAiReplyLength) {
      VerdictSpec(rs[g.calls - 1]);
      forall j | 0 <= j < g.calls - 1
        ensures TooLong(rs[j])
      {
        VerdictSpec(rs[j]);
      }
    }
  }

  /** The reply handed back never starts or ends with a double quote. */
  lemma NoOuterQuotes(rs: seq<Answer>)
    requires |rs| >= MaxAttempts
    ensures var g := GenerateReply(rs);
      g.result.Ok? && g.result.value != [] ==>
        g.result.value[0] != '"' && g.result.value[|g.result.value| - 1] != '"'
  {
    var g := GenerateReply(rs);
    if g.result.Ok? {
      TrimByShape(rs[g.calls - 1].value, IsQuote);
    }
  }

  /** Every layer of quotes goes, not only one. */
  lemma AllQuotesTrimmed()
    ensures Cleaned("\"\"hi\"\"") == "hi"
  {
    var s := "\"\"hi\"\"";
    var l := "hi\"\"";
    assert s[2..] == l;
    assert TrimLeftBy(l, IsQuote) == l;
    assert TrimLeftBy(s[1..], IsQuote) == TrimLeftBy(s[1..][1..], IsQuote);
    assert s[1..][1..] == l;
    assert TrimLeftBy(s, IsQuote) == l;
    assert l[..3] == "hi\"";
    assert l[..3][..2] == "hi";
    assert TrimRightBy("hi", IsQuote) == "hi";
    assert TrimRightBy(l, IsQuote) == "hi";
  }

  /** Persona selection: Trollcoin for its chat, Fish for its chat, Trollana
      everywhere else; in each persona the troll reply type selects the troll
      template, and only the Fish shill template depends on the choice. */
  lemma PersonaSelection(rec: ShillX.LinkRecord, choice: nat)
    requires choice < 3
    ensures var t := InstructionFor(rec, choice).template;
      && (rec.chatId == TrollcoinChat <==> t == TrollcoinShill || t == TrollcoinTroll)
      && (rec.chatId == FishChat <==> t.FishShill? || t == FishTroll)
      && (rec.chatId != TrollcoinChat && rec.chatId != FishChat <==> t == TrollanaShill || t == TrollanaTroll)
      && (IsTrollTemplate(t) <==> rec.replyType == ShillX.Troll)
      && (t.FishShill? ==> t.view == [Boy, Girl, StolenFish][choice])
  {
  }

  /** Distinct choices give distinct Fish views. */
  lemma FishChoicesDistinct(a: nat, b: nat)
    requires a < 3 && b < 3 && a != b
    ensures ViewOf(a) != ViewOf(b)
  {
  }

  /** An unknown or unreadable link id is answered without any generation. */
  lemma NotFoundNoGeneration(lookup: Result<Option<ShillX.LinkRecord>, string>, rs: seq<Answer>, escape: string -> string)
    requires |rs| >= MaxAttempts
    requires lookup.Err? || lookup.value.None?
    ensures var r := CreateTwitterReply(lookup, rs, escape);
      r.calls == 0 && r.result.Err?
      && (lookup.Ok? ==> r.result.error == ShillNotFound)
  {
  }

  /** A found record redirects to a reply to its own tweet exactly when a
      reply was generated. */
  lemma FoundRedirects(rec: ShillX.LinkRecord, rs: seq<Answer>, escape: string -> string)
    requires |rs| >= MaxAttempts
    ensures var r := CreateTwitterReply(Ok(Some(rec)), rs, escape);
      var g := GenerateReply(rs);
      && r.calls == g.calls
      && (r.result.Ok? <==> g.result.Ok?)
      && (g.result.Ok? ==> r.result.value == RedirectUrl(rec.tweetId, g.result.value, escape))
      && (g.result.Err? ==> r.result == g.result)
  {
  }
}

=== FILE: shillx.dfy ===
/** The reply-link command handler (`shillx`): ask for a tweet link, ask for
    the tweet text, store a link record and show a button that opens the
    reply generator. Every chat has one entry in a shared state table; each
    handler call is one atomic transition of that table. What the transport,
    the URL parser and the link store answer during a call is given as an
    `Io` oracle, and what the call asks of them is returned as a trace. */
module ShillX {
  import opened Wrappers
  import opened TweetLinks
  import Escape

  datatype ReplyType = Unset | Shill | Troll

  /** One chat's entry. `lastPrompt` is the id of the last prompt sent, and
      `user` the id of the user who started the flow. */
  datatype State = State(
    chatId: int,
    inProgress: bool,
    done: bool,
    tweetLink: string,
    tweetText: string,
    replyType: ReplyType,
    lastPrompt: Option<int>,
    user: int)

  /** Go's zero value of the state: note the chat id 0. */
  const Zero: State := State(0, false, false, [], [], Unset, None, 0)

  type Table = map<int, State>

  /** An incoming message: chat, sender, message id and text. */
  datatype Update = Update(chat: int, from: int, id: int, text: string)

  /** The reasons the flow finishes early, numbered as in its error notices;
      `InvalidLink` is the notice asking the user to start again. */
  datatype Failure =
    | LinkPromptFailed   // 1
    | InvalidLink
    | ParseFailed        // 3
    | TextPromptFailed   // 4
    | InsertFailed       // 5
    | ShowFailed         // 6

  datatype Prompt = AskLink | AskText

  /** The stored link record. */
  datatype LinkRecord = LinkRecord(chatId: int, tweetId: string, tweetLink: string, tweetText: string, replyType: ReplyType)

  /** What one call asks of the transport and the store, in order. The
      final dialog's message is escaped as a whole, and the escape works
      character by character, so `ShowLink` carries the tweet link as it
      appears there: escaped. */
  datatype Effect =
    | SendPrompt(chat: int, prompt: Prompt)
    | SendNotice(chat: int, failure: Failure)
    | DeleteMessage(chat: int, messageId: int)
    | InsertLink(record: LinkRecord)
    | ShowLink(chat: int, escapedLink: string, troll: bool, link: string, poweredBy: bool)

  /** The answers during one call: the id of a prompt sent (`None` when the
      send fails), the URL parser, the id the store assigns to an inserted
      record (`None` when the insert fails), whether the final dialog could be
      shown, and the configured API base URL. */
  datatype Io = Io(prompt: Option<int>, parse: Parser, inserted: Option<string>, shown: bool, apiUrl: string)

  datatype Step = Step(table: Table, effects: seq<Effect>)

  /** The one chat whose final message carries no "Powered by" footer. */
  const QuietChat: int := -1002038440299

  /** The entry `Handle` starts from for a chat without one. */
  function Fresh(chat: int): State {
    State(chat, false, false, [], [], Shill, None, 0)
  }

  /** A chat's entry, or the fresh one. */
  function Lookup(t: Table, chat: int): State {
    if chat in t then t[chat] else Fresh(chat)
  }

  /** `UpdateState(shs.ChatID, shs)`: the entry is written under its own
      chat id, which is not necessarily the chat being handled. */
  function Put(t: Table, s: State): Table {
    t[s.chatId := s]
  }

  /** The states every reachable table is in: an entry in progress sits under
      its own chat id and has a prompt to delete. */
  predicate Good(t: Table) {
    forall k | k in t :: t[k].inProgress ==> t[k].chatId == k && t[k].lastPrompt.Some?
  }

  /** `SendMessageAndFinish`. */
  function Finish(t: Table, s: State, why: Failure): (r: Step)
    ensures s.chatId in r.table
    ensures !r.table[s.chatId].inProgress && r.table[s.chatId].done
    ensures r.effects == [SendNotice(s.chatId, why)]
  {
    Step(Put(t, s.(inProgress := false, done := true)), [SendNotice(s.chatId, why)])
  }

  /** `requestTweetLink`: start the flow for the sender and ask for a link. */
  function RequestLink(t: Table, io: Io, s: State, u: Update): Step {
    var s1 := s.(inProgress := true, done := false, user := u.from);
    var t1 := Put(t, s1);
    match io.prompt
    case None => var f := Finish(t1, s1, LinkPromptFailed); Step(f.table, [SendPrompt(s1.chatId, AskLink)] + f.effects)
    case Some(p) => Step(Put(t1, s1.(lastPrompt := Some(p))), [SendPrompt(s1.chatId, AskLink)])
  }

  /** `receiveTweetLink`: `Err` carries the step of a flow that finished. The
      recogniser looks at the trimmed text, the stored link is parsed from the
      text as sent. */
  function ReceiveLink(t: Table, io: Io, s: State, u: Update): Result<Step, Step>
    requires s.lastPrompt.Some?
  {
    if !IsTweetUrl(io.parse, TweetHosts, u.text) then Err(Finish(t, s, InvalidLink))
    else match io.parse(u.text)
      case None => Err(Finish(t, s, ParseFailed))
      case Some(url) =>
        var s1 := s.(tweetLink := NormalizedLink(url));
        Ok(Step(Put(t, s1), [DeleteMessage(s1.chatId, u.id), DeleteMessage(s1.chatId, s.lastPrompt.value)]))
  }

  /** `requestTweetText`. */
  function RequestText(t: Table, io: Io, s: State): Step {
    match io.prompt
    case None => var f := Finish(t, s, TextPromptFailed); Step(f.table, [SendPrompt(s.chatId, AskText)] + f.effects)
    case Some(p) => Step(Put(t, s.(lastPrompt := Some(p))), [SendPrompt(s.chatId, AskText)])
  }

  /** The record `generateShillLink` inserts for a state. */
  function RecordOf(s: State): LinkRecord {
    LinkRecord(s.chatId, ExtractTweetId(s.tweetLink), s.tweetLink, s.tweetText, s.replyType)
  }

  /** The link `generateShillLink` returns for a stored record id. */
  function ShillLink(apiUrl: string, id: string): string {
    apiUrl + "/shill/" + id
  }

  /** `generateShill`: record the text, clean up, store the link record, show
      the button, and on success put the zero state back. */
  function GenerateShill(t: Table, io: Io, s: State, u: Update): Step
    requires s.lastPrompt.Some?
  {
    var s1 := s.(tweetText := u.text);
    var t1 := Put(t, s1);
    var cleanup := [DeleteMessage(s1.chatId, u.id), DeleteMessage(s1.chatId, s.lastPrompt.value), InsertLink(RecordOf(s1))];
    match io.inserted
    case None => var f := Finish(t1, s1, InsertFailed); Step(f.table, cleanup + f.effects)
    case Some(id) =>
      var show := ShowLink(u.chat, Escape.EscapeChars(s1.tweetLink), s1.replyType == Troll, ShillLink(io.apiUrl, id), s1.chatId != QuietChat);
      if !io.shown then
        var f := Finish(t1, s1, ShowFailed); Step(f.table, cleanup + [show] + f.effects)
      else Step(t1[s1.chatId := Zero], cleanup + [show])
  }

  /** `Handle`. The sender of a continuation is not compared with the user
      who started the flow. */
  function Handle(t: Table, io: Io, u: Update): Step
    requires Good(t)
  {
    var s := Lookup(t, u.chat);
    if !s.inProgress then RequestLink(t, io, s, u)
    else if s.tweetLink == [] then
      match ReceiveLink(t, io, s, u)
      case Err(f) => f
      case Ok(r) =>
        var next := RequestText(r.table, io, GetOr(r.table, u.chat, Zero));
        Step(next.table, r.effects + next.effects)
    else GenerateShill(t, io, s, u)
  }

  /** `Cancel`: an existing entry stops and is marked done, written under its
      own chat id. */
  function Cancel(t: Table, chat: int): Table {
    if chat !in t then t else Put(t, t[chat].(inProgress := false, done := true))
  }

  /** `Done`: `false` for an unknown chat. */
  predicate Done(t: Table, chat: int) {
    chat in t && t[chat].done
  }

  /** `Cancelled` of this handler never reports a cancellation. */
  predicate Cancelled(t: Table, chat: int) {
    false
  }

  // ---------------------------------------------------------------------
  // Properties

  lemma EmptyTableGood()
    ensures Good(map[])
  {
  }

  /** Every transition keeps the table in its reachable shape, so the prompt
      deletions of a continuation never meet a missing prompt. */
  lemma HandleKeepsGood(t: Table, io: Io, u: Update)
    requires Good(t)
    ensures Good(Handle(t, io, u).table)
  {
    var s := Lookup(t, u.chat);
    if !s.inProgress {
      RequestLinkKeepsGood(t, io, s, u);
    } else if s.tweetLink == [] {
      ReceiveLinkKeepsGood(t, io, s, u);
      match ReceiveLink(t, io, s, u)
      case Err(f) =>
      case Ok(r) =>
        RequestTextKeepsGood(r.table, io, GetOr(r.table, u.chat, Zero));
    } else {
      GenerateShillKeepsGood(t, io, s, u);
    }
  }

  /** Good everywhere except possibly under `chat`. */
  predicate GoodBut(t: Table, chat: int) {
    forall k | k in t && k != chat :: t[k].inProgress ==> t[k].chatId == k && t[k].lastPrompt.Some?
  }

  lemma FinishKeepsGood(t: Table, s: State, why: Failure)
    requires GoodBut(t, s.chatId)
    ensures Good(Finish(t, s, why).table)
  {
  }

  lemma RequestLinkKeepsGood(t: Table, io: Io, s: State, u: Update)
    requires Good(t)
    ensures Good(RequestLink(t, io, s, u).table)
  {
    var s1 := s.(inProgress := true, done := false, user := u.from);
    if io.prompt.None? {
      FinishKeepsGood(Put(t, s1), s1, LinkPromptFailed);
    }
  }

  lemma ReceiveLinkKeepsGood(t: Table, io: Io, s: State, u: Update)
    requires Good(t) && s.lastPrompt.Some?
    ensures match ReceiveLink(t, io, s, u)
      case Err(f) => Good(f.table)
      case Ok(r) => GoodBut(r.table, s.chatId) && s.chatId in r.table && r.table[s.chatId].lastPrompt.Some?
  {
    if !IsTweetUrl(io.parse, TweetHosts, u.text) {
      FinishKeepsGood(t, s, InvalidLink);
    } else if io.parse(u.text).None? {
      FinishKeepsGood(t, s, ParseFailed);
    }
  }

  lemma RequestTextKeepsGood(t: Table, io: Io, s: State)
    requires GoodBut(t, s.chatId)
    ensures Good(RequestText(t, io, s).table)
  {
    if io.prompt.None? {
      FinishKeepsGood(t, s, TextPromptFailed);
    }
  }

  lemma GenerateShillKeepsGood(t: Table, io: Io, s: State, u: Update)
    requires Good(t) && s.lastPrompt.Some?
    ensures Good(GenerateShill(t, io, s, u).table)
  {
    var s1 := s.(tweetText := u.text);
    var t1 := Put(t, s1);
    assert GoodBut(t1, s1.chatId);
    match io.inserted
    case None => FinishKeepsGood(t1, s1, InsertFailed);
    case Some(id) =>
      if !io.shown {
        FinishKeepsGood(t1, s1, ShowFailed);
      }
  }

  lemma CancelKeepsGood(t: Table, chat: int)
    requires Good(t)
    ensures Good(Cancel(t, chat))
  {
  }

  /** A chat that is not in progress starts the flow for the sender: in
      progress, not done, the sender recorded and the link prompt sent; a
      failed send finishes the flow instead. */
  lemma HandleStarts(t: Table, io: Io, u: Update)
    requires Good(t) && !Lookup(t, u.chat).inProgress
    ensures var s := Lookup(t, u.chat);
      var r := Handle(t, io, u);
      && s.chatId in r.table
      && r.effects[0] == SendPrompt(s.chatId, AskLink)
      && (io.prompt.Some? ==>
            r.table[s.chatId] == s.(inProgress := true, done := false, user := u.from, lastPrompt := io.prompt))
      && (io.prompt.None? ==>
            && !r.table[s.chatId].inProgress && r.table[s.chatId].done
            && r.effects == [SendPrompt(s.chatId, AskLink), SendNotice(s.chatId, LinkPromptFailed)])
  {
  }

  /** A link the recogniser refuses ends the flow: no longer in progress,
      done, a notice and no new prompt. */
  lemma InvalidLinkFinishes(t: Table, io: Io, u: Update)
    requires Good(t) && u.chat in t && t[u.chat].inProgress && t[u.chat].tweetLink == []
    requires !IsTweetUrl(io.parse, TweetHosts, u.text)
    ensures var r := Handle(t, io, u);
      && !r.table[u.chat].inProgress && r.table[u.chat].done
      && r.effects == [SendNotice(u.chat, InvalidLink)]
  {
  }

  /** An accepted link is stored without its query; both the user's message
      and the link prompt are deleted and the text prompt is sent. */
  lemma ValidLinkStored(t: Table, io: Io, u: Update, url: Url)
    requires Good(t) && u.chat in t && t[u.chat].inProgress && t[u.chat].tweetLink == []
    requires IsTweetUrl(io.parse, TweetHosts, u.text) && io.parse(u.text) == Some(url)
    requires io.prompt.Some?
    ensures var r := Handle(t, io, u);
      && r.table[u.chat] == t[u.chat].(tweetLink := NormalizedLink(url), lastPrompt := io.prompt)
      && r.table[u.chat].tweetLink == NormalizedLink(url)
      && r.effects == [DeleteMessage(u.chat, u.id), DeleteMessage(u.chat, t[u.chat].lastPrompt.value), SendPrompt(u.chat, AskText)]
  {
    var s := t[u.chat];
    var s1 := s.(tweetLink := NormalizedLink(url));
    assert GetOr(Put(t, s1), u.chat, Zero) == s1;
  }

  /** The last step of a successful flow: the record carries the ID taken
      from the stored link and the reply type from the state, the button
      points at `apiUrl/shill/<id>`, the link shown unescapes to the stored
      one, and the entry becomes the zero state, chat id 0 included. */
  lemma SuccessResets(t: Table, io: Io, u: Update, id: string)
    requires Good(t) && u.chat in t && t[u.chat].inProgress && t[u.chat].tweetLink != []
    requires io.inserted == Some(id) && io.shown
    ensures var s := t[u.chat];
      var r := Handle(t, io, u);
      && r.table == t[u.chat := Zero]
      && r.table[u.chat].chatId == 0
      && InsertLink(LinkRecord(u.chat, ExtractTweetId(s.tweetLink), s.tweetLink, u.text, s.replyType)) in r.effects
      && r.effects[|r.effects| - 1] == ShowLink(u.chat, Escape.EscapeChars(s.tweetLink), s.replyType == Troll, ShillLink(io.apiUrl, id), u.chat != QuietChat)
      && Escape.Unescape(r.effects[|r.effects| - 1].escapedLink, Escape.Reserved) == s.tweetLink
  {
    Escape.EscapeCharsSpec(t[u.chat].tweetLink);
  }

  /** A failed insert or dialog finishes the flow; the tweet text stays. */
  lemma GenerateFailureFinishes(t: Table, io: Io, u: Update)
    requires Good(t) && u.chat in t && t[u.chat].inProgress && t[u.chat].tweetLink != []
    requires io.inserted.None? || !io.shown
    ensures var r := Handle(t, io, u);
      && r.table[u.chat] == t[u.chat].(tweetText := u.text, inProgress := false, done := true)
      && r.effects[|r.effects| - 1] == SendNotice(u.chat, if io.inserted.None? then InsertFailed else ShowFailed)
  {
  }

  /** After a successful flow the chat is stuck: its entry has chat id 0, so
      every later call writes under key 0, sends its prompt to chat 0, and
      the chat's own entry never leaves the zero state. */
  lemma StuckAfterSuccess(t: Table, io: Io, u: Update)
    requires Good(t) && u.chat in t && t[u.chat] == Zero && u.chat != 0
    ensures var r := Handle(t, io, u);
      && r.table[u.chat] == Zero
      && r.effects[0] == SendPrompt(0, AskLink)
      && 0 in r.table && r.table[0].user == u.from
      && forall k | k in t && k != 0 :: k in r.table && r.table[k] == t[k]
  {
    var s1 := Zero.(inProgress := true, done := false, user := u.from);
    var r := Handle(t, io, u);
    if io.prompt.Some? {
      assert r.table == t[0 := s1.(lastPrompt := io.prompt)];
    } else {
      assert r.table == t[0 := s1.(inProgress := false, done := true)];
    }
  }

  /** A continuation's outcome does not depend on who sent it. */
  lemma AnySenderContinues(t: Table, io: Io, u: Update, other: int)
    requires Good(t) && Lookup(t, u.chat).inProgress
    ensures Handle(t, io, u) == Handle(t, io, u.(from := other))
  {
  }

  /** `Cancel` then `Done` on an entry under its own chat id reports done; on
      an unknown chat `Cancel` changes nothing and `Done` is false. */
  lemma CancelThenDone(t: Table, chat: int)
    ensures chat in t && t[chat].chatId == chat ==>
      Done(Cancel(t, chat), chat) && !Cancel(t, chat)[chat].inProgress
    ensures chat !in t ==> Cancel(t, chat) == t && !Done(t, chat)
  {
  }

  /** Cancelling the zero entry left by a successful flow writes key 0 and
      leaves the chat not done. */
  lemma CancelAfterSuccess(t: Table, chat: int)
    requires chat in t && t[chat] == Zero && chat != 0
    ensures !Done(Cancel(t, chat), chat) && Done(Cancel(t, chat), 0)
  {
  }

  /** A flow stopped with its link stored (by `Cancel`, or by a failed
      generation) keeps that link: `requestTweetLink` does not clear it. On a
      restart the next message, meant as the new link, is taken as the tweet
      text. */
  lemma StaleLinkAfterCancel(t: Table, io1: Io, u1: Update, io2: Io, u2: Update)
    requires Good(t) && u1.chat in t && t[u1.chat].chatId == u1.chat && t[u1.chat].tweetLink != []
    requires io1.prompt.Some? && u2.chat == u1.chat
    ensures Good(Cancel(t, u1.chat))
    ensures var t2 := Handle(Cancel(t, u1.chat), io1, u1).table;
      && Good(t2) && u1.chat in t2 && t2[u1.chat].inProgress
      && t2[u1.chat].tweetLink == t[u1.chat].tweetLink
      && t2[u1.chat].lastPrompt.Some?
      && Handle(t2, io2, u2) == GenerateShill(t2, io2, t2[u1.chat], u2)
  {
    var t1 := Cancel(t, u1.chat);
    CancelKeepsGood(t, u1.chat);
    HandleKeepsGood(t1, io1, u1);
  }

  /** `requestTweetLink` with the evident reset: a new flow starts without
      a link or a text. */
  function RequestLinkFresh(t: Table, io: Io, s: State, u: Update): (r: Step)
    ensures s.chatId in r.table
    ensures io.prompt.Some? ==>
      r.table[s.chatId] == s.(inProgress := true, done := false, user := u.from, tweetLink := [], tweetText := [], lastPrompt := io.prompt)
    ensures Good(t) ==> Good(r.table)
  {
    RequestLink(t, io, s.(tweetLink := [], tweetText := []), u)
  }

  /** After a fresh start the next message is taken as the link: a text
      that is not a tweet link ends the flow with the invalid-link notice. */
  lemma RestartTakesLink(t: Table, io1: Io, u1: Update, io2: Io, u2: Update)
    requires Good(t) && u1.chat in t && t[u1.chat].chatId == u1.chat
    requires io1.prompt.Some? && u2.chat == u1.chat
    ensures var t2 := RequestLinkFresh(t, io1, t[u1.chat], u1).table;
      && Good(t2) && u1.chat in t2 && t2[u1.chat].inProgress && t2[u1.chat].tweetLink == []
      && (!IsTweetUrl(io2.parse, TweetHosts, u2.text) ==> Handle(t2, io2, u2).effects == [SendNotice(u1.chat, InvalidLink)])
  {
    var t2 := RequestLinkFresh(t, io1, t[u1.chat], u1).table;
    if !IsTweetUrl(io2.parse, TweetHosts, u2.text) {
      InvalidLinkFinishes(t2, io2, u2);
    }
  }

  /** `generateShill` with the evident reset: on success the chat's entry
      becomes the fresh entry for that chat, not Go's zero value. Every other
      outcome is the one of `GenerateShill`. */
  function GenerateShillKeyed(t: Table, io: Io, s: State, u: Update): (r: Step)
    requires s.lastPrompt.Some?
    ensures r.effects == GenerateShill(t, io, s, u).effects
    ensures !(io.inserted.Some? && io.shown) ==> r == GenerateShill(t, io, s, u)
    ensures io.inserted.Some? && io.shown ==>
      && r.table == t[s.chatId := Fresh(s.chatId)]
      && GenerateShill(t, io, s, u).table == t[s.chatId := Zero]
    ensures Good(t) ==> Good(r.table)
  {
    var g := GenerateShill(t, io, s, u);
    if io.inserted.Some? && io.shown then Step(t[s.chatId := Fresh(s.chatId)], g.effects)
    else if Good(t) then GenerateShillKeepsGood(t, io, s, u); g
    else g
  }

  /** After a success with the evident reset, the chat's next call starts a
      new flow under the chat's own key: the link prompt goes to the chat,
      and no other entry changes. */
  lemma RestartAfterSuccess(t: Table, io: Io, u: Update, id: string, io2: Io, u2: Update)
    requires Good(t) && u.chat in t && t[u.chat].inProgress && t[u.chat].tweetLink != []
    requires io.inserted == Some(id) && io.shown && u2.chat == u.chat
    ensures var t2 := GenerateShillKeyed(t, io, t[u.chat], u).table;
      && Good(t2) && t2 == t[u.chat := Fresh(u.chat)]
      && var r := Handle(t2, io2, u2);
      && r.effects[0] == SendPrompt(u.chat, AskLink)
      && u.chat in r.table && r.table[u.chat].chatId == u.chat && r.table[u.chat].user == u2.from
      && r.table[u.chat].inProgress == io2.prompt.Some?
      && forall k | k in t && k != u.chat :: k in r.table && r.table[k] == t[k]
  {
    var t2 := GenerateShillKeyed(t, io, t[u.chat], u).table;
    HandleStarts(t2, io2, u2);
  }
}

=== FILE: text.dfy ===
/** The pieces of Go's `strings` and `unicode` packages the bot relies on,
    stated over `seq<char>` (every `char` is a Unicode scalar value). */
module Text {

  /** Go's `unicode.IsSpace`: the Latin-1 space characters plus the
      characters with the Unicode White_Space property. */
  predicate IsSpace(c: char) {
    || c == '\t' || c == '\n' || c == '\U{000B}' || c == '\U{000C}' || c == '\r' || c == ' '
    || c == '\U{0085}' || c == '\U{00A0}' || c == '\U{1680}'
    || ('\U{2000}' <= c <= '\U{200A}')
    || c == '\U{2028}' || c == '\U{2029}' || c == '\U{202F}' || c == '\U{205F}' || c == '\U{3000}'
  }

  predicate IsQuote(c: char) { c == '"' }

  predicate IsAsciiDigit(c: char) { '0' <= c <= '9' }

  predicate IsAsciiLetter(c: char) { ('A' <= c <= 'Z') || ('a' <= c <= 'z') }

  predicate IsAscii(c: char) { c < '\U{0080}' }

  /** The Unicode tables behind the regular-expression classes `\p{L}` and
      `\p{N}` and behind `strings.ToUpper` are not part of this model: they
      are a parameter. The model only relies on their ASCII part. */
  datatype Classes = Classes(letter: char -> bool, number: char -> bool, upper: char -> char)

  /** The tables agree with Unicode on the ASCII range. */
  predicate Sound(u: Classes) {
    && (forall c: char | IsAscii(c) :: u.letter(c) == IsAsciiLetter(c))
    && (forall c: char | IsAscii(c) :: u.number(c) == IsAsciiDigit(c))
    && (forall c: char | 'a' <= c <= 'z' :: u.upper(c) == (c as int - 32) as char)
    && (forall c: char | IsAscii(c) && !('a' <= c <= 'z') :: u.upper(c) == c)
  }

  /** `strings.ToUpper`: rune by rune. */
  function ToUpper(u: Classes, s: string): (r: string)
    ensures |r| == |s|
    ensures forall i | 0 <= i < |s| :: r[i] == u.upper(s[i])
  {
    seq(|s|, i requires 0 <= i < |s| => u.upper(s[i]))
  }

  /** Removes every leading character satisfying `p`. */
  function TrimLeftBy(s: string, p: char -> bool): (r: string)
    ensures |r| <= |s| && r == s[|s| - |r|..]
    ensures forall i | 0 <= i < |s| - |r| :: p(s[i])
    ensures r == [] || !p(r[0])
  {
    if |s| > 0 && p(s[0]) then TrimLeftBy(s[1..], p) else s
  }

  /** Removes every trailing character satisfying `p`. */
  function TrimRightBy(s: string, p: char -> bool): (r: string)
    ensures |r| <= |s| && r == s[..|r|]
    ensures forall i | |r| <= i < |s| :: p(s[i])
    ensures r == [] || !p(r[|r| - 1])
  {
    if |s| > 0 && p(s[|s| - 1]) then TrimRightBy(s[..|s| - 1], p) else s
  }

  /** Go's `strings.TrimFunc`: both ends. */
  function TrimBy(s: string, p: char -> bool): string
  {
    TrimRightBy(TrimLeftBy(s, p), p)
  }

  /** `strings.TrimSpace`. */
  function TrimSpace(s: string): string
  {
    TrimBy(s, IsSpace)
  }

  /** `strings.Trim(s, "\"")`: every leading and trailing double quote,
      not a single layer. */
  function TrimQuotes(s: string): string
  {
    TrimBy(s, IsQuote)
  }

  /** The trimmed string is a contiguous piece of the input, with only
      `p`-characters cut away on either side and none left at its ends. */
  lemma TrimByShape(s: string, p: char -> bool)
    ensures var r := TrimBy(s, p);
      && (exists a, b | 0 <= a <= b <= |s| :: r == s[a..b]
            && (forall i | 0 <= i < a :: p(s[i]))
            && (forall i | b <= i < |s| :: p(s[i])))
      && (r == [] || (!p(r[0]) && !p(r[|r| - 1])))
  {
    var a, b := TrimByPiece(s, p);
    TrimByEnds(s, p);
  }

  /** Where the trimmed string sits in the input. */
  lemma TrimByPiece(s: string, p: char -> bool) returns (a: nat, b: nat)
    ensures 0 <= a <= b <= |s| && TrimBy(s, p) == s[a..b]
    ensures forall i | 0 <= i < a :: p(s[i])
    ensures forall i | b <= i < |s| :: p(s[i])
  {
    var l := TrimLeftBy(s, p);
    a := |s| - |l|;
    b := a + |TrimRightBy(l, p)|;
    TailOfSuffix(s, l, a, b, p);
  }

  /** What holds of the right end of `l`, a suffix of `s` from `a`, holds
      of `s` from `b`. */
  lemma TailOfSuffix(s: string, l: string, a: nat, b: nat, p: char -> bool)
    requires a <= b <= |s| && l == s[a..]
    requires forall i | b - a <= i < |l| :: p(l[i])
    ensures forall i | b <= i < |s| :: p(s[i])
  {
    forall i | b <= i < |s|
      ensures p(s[i])
    {
      assert s[i] == l[i - a];
    }
  }

  lemma TrimByEnds(s: string, p: char -> bool)
    ensures var r := TrimBy(s, p);
      r == [] || (!p(r[0]) && !p(r[|r| - 1]))
  {
    var l := TrimLeftBy(s, p);
    var r := TrimRightBy(l, p);
    if r != [] {
      assert r[0] == l[0];
    }
  }

  /** Trimming twice changes nothing more. */
  lemma TrimByIdempotent(s: string, p: char -> bool)
    ensures TrimBy(TrimBy(s, p), p) == TrimBy(s, p)
  {
    var r := TrimBy(s, p);
    assert r == [] || !p(r[0]);
    assert TrimLeftBy(r, p) == r;
  }

  /** Number of bytes in the UTF-8 encoding of one character. */
  function Utf8Width(c: char): (n: nat)
    ensures 1 <= n <= 4
    ensures n == 1 <==> IsAscii(c)
  {
    if c < '\U{0080}' then 1
    else if c < '\U{0800}' then 2
    else if c as int < 0x1_0000 then 3
    else 4
  }

  /** Go's `len` of a string: its UTF-8 byte count. */
  function ByteLen(s: string): (n: nat)
    ensures n >= |s|
  {
    if s == [] then 0 else Utf8Width(s[0]) + ByteLen(s[1..])
  }

  /** On ASCII text the byte count is the character count. */
  lemma {:induction false} AsciiByteLen(s: string)
    requires forall i | 0 <= i < |s| :: IsAscii(s[i])
    ensures ByteLen(s) == |s|
  {
    if s != [] {
      AsciiByteLen(s[1..]);
    }
  }

  /** Byte count is additive over concatenation. */
  lemma {:induction false} ByteLenAppend(a: string, b: string)
    ensures ByteLen(a + b) == ByteLen(a) + ByteLen(b)
  {
    if a == [] {
      assert a + b == b;
    } else {
      assert (a + b)[0] == a[0];
      assert (a + b)[1..] == a[1..] + b;
      ByteLenAppend(a[1..], b);
    }
  }

  /** Go's `strings.Split(s, string(sep))`: the pieces between separators,
      empty pieces included; a string without `sep` is one piece. */
  function Split(s: string, sep: char): (parts: seq<string>)
    ensures |parts| >= 1
  {
    if s == [] then [[]]
    else if s[0] == sep then [[]] + Split(s[1..], sep)
    else
      var rest := Split(s[1..], sep);
      [[s[0]] + rest[0]] + rest[1..]
  }

  /** No piece of a split contains the separator. */
  lemma {:induction false} SplitPiecesFree(s: string, sep: char)
    ensures forall k, i | 0 <= k < |Split(s, sep)| && 0 <= i < |Split(s, sep)[k]| :: Split(s, sep)[k][i] != sep
  {
    if s != [] {
      SplitPiecesFree(s[1..], sep);
    }
  }
}

=== FILE: trollx.dfy ===
/** The troll variant of the reply-link conversation (`trollx`): the same
    flow on the same state table, with the chat's reply type forced to troll
    before every call. */
module TrollX {
  import opened Wrappers
  import ShillX
  import TweetLinks

  /** The entry `Handle` stores before delegating: the existing one, or a new
      one carrying only the chat id, with the reply type set to troll. */
  function Prepare(t: ShillX.Table, chat: int): (r: ShillX.Table)
    ensures chat in r && r[chat].replyType == ShillX.Troll
    ensures chat !in t ==> r[chat] == ShillX.Zero.(chatId := chat, replyType := ShillX.Troll)
    ensures chat in t ==> r[chat] == t[chat].(replyType := ShillX.Troll)
    ensures forall k | k in t && k != chat :: k in r && r[k] == t[k]
  {
    var s := if chat in t then t[chat] else ShillX.Zero.(chatId := chat);
    t[chat := s.(replyType := ShillX.Troll)]
  }

  /** Storing the troll entry keeps the table in its reachable shape. */
  lemma PrepareKeepsGood(t: ShillX.Table, chat: int)
    requires ShillX.Good(t)
    ensures ShillX.Good(Prepare(t, chat))
  {
    var r := Prepare(t, chat);
    forall k | k in r && r[k].inProgress
      ensures r[k].chatId == k && r[k].lastPrompt.Some?
    {
      if k != chat {
        assert r[k] == t[k];
      }
    }
  }

  /** `Handle`: force the troll reply type, then run the shared flow. */
  function Handle(t: ShillX.Table, io: ShillX.Io, u: ShillX.Update): ShillX.Step
    requires ShillX.Good(t)
  {
    PrepareKeepsGood(t, u.chat);
    ShillX.Handle(Prepare(t, u.chat), io, u)
  }

  /** `Cancel`, `Done` and `Cancelled` are those of the shared flow. */
  function Cancel(t: ShillX.Table, chat: int): ShillX.Table {
    ShillX.Cancel(t, chat)
  }

  predicate Done(t: ShillX.Table, chat: int) {
    ShillX.Done(t, chat)
  }

  predicate Cancelled(t: ShillX.Table, chat: int) {
    ShillX.Cancelled(t, chat)
  }

  /** The troll flow keeps the shared table reachable. */
  lemma HandleKeepsGood(t: ShillX.Table, io: ShillX.Io, u: ShillX.Update)
    requires ShillX.Good(t)
    ensures ShillX.Good(Handle(t, io, u).table)
  {
    PrepareKeepsGood(t, u.chat);
    ShillX.HandleKeepsGood(Prepare(t, u.chat), io, u);
  }

  /** A new chat starts the flow under its own id, as a troll, and the link
      prompt is sent to it. */
  lemma FreshChatTrolls(t: ShillX.Table, io: ShillX.Io, u: ShillX.Update)
    requires ShillX.Good(t) && u.chat !in t && io.prompt.Some?
    ensures var r := Handle(t, io, u);
      && u.chat in r.table
      && r.table[u.chat].chatId == u.chat
      && r.table[u.chat].replyType == ShillX.Troll
      && r.table[u.chat].inProgress && !r.table[u.chat].done
      && r.table[u.chat].user == u.from
      && r.effects == [ShillX.SendPrompt(u.chat, ShillX.AskLink)]
  {
  }

  /** The link record of a troll flow carries the troll reply type, whatever
      the entry held before, and the button is labelled for trolling. */
  lemma TrollRecord(t: ShillX.Table, io: ShillX.Io, u: ShillX.Update, id: string)
    requires ShillX.Good(t) && u.chat in t && t[u.chat].inProgress && t[u.chat].tweetLink != []
    requires io.inserted == Some(id) && io.shown
    ensures var r := Handle(t, io, u);
      var s := t[u.chat];
      && ShillX.InsertLink(ShillX.LinkRecord(u.chat, TweetLinks.ExtractTweetId(s.tweetLink), s.tweetLink, u.text, ShillX.Troll)) in r.effects
      && r.effects[|r.effects| - 1].ShowLink? && r.effects[|r.effects| - 1].troll
  {
    PrepareKeepsGood(t, u.chat);
    ShillX.SuccessResets(Prepare(t, u.chat), io, u, id);
  }

  /** Troll and shill share one table: cancelling through either handler has
      the same effect, and neither reports a cancellation. */
  lemma SharedCancel(t: ShillX.Table, chat: int)
    ensures chat in t && t[chat].chatId == chat ==> Done(Cancel(t, chat), chat)
    ensures chat !in t ==> Cancel(t, chat) == t && !Done(t, chat)
    ensures !Cancelled(t, chat)
  {
    ShillX.CancelThenDone(t, chat);
  }
}

=== FILE: tweet_links.dfy ===
/** Tweet links: the host allow-lists, the path shape `/<user>/status/<digits>`,
    query stripping and tweet-ID extraction. URLs arrive already decomposed
    into the components of sections 3.2 to 3.5 of RFC 3986; the parser itself
    (Go's `url.Parse`) is a parameter. */
module TweetLinks {
  import opened Wrappers
  import opened Text

  /** A parsed URL, as Go's `url.Parse` decomposes it:
      - `user` is the userinfo as `UserInfo.String()` renders it;
      - `host` is what `Hostname()` returns; `port` is the text after the
        host's colon, `None` without a colon and `Some([])` for a colon with
        nothing after it (`x.com:`), which Go accepts and keeps in `Host`;
      - `path` is the decoded path, which the path pattern is matched against;
      - `escapedPath` is what `EscapedPath()` renders: the raw path as
        written when it is a valid encoding of `path`, Go's own escaping of
        `path` otherwise;
      - `forceQuery` is set by a `?` with nothing after it;
      - `rawQuery` is the text after `?`;
      - `fragment` is the decoded text after `#`, and `escapedFragment` is
        what `EscapedFragment()` renders. */
  datatype Url = Url(
    scheme: string,
    user: Option<string>,
    host: string,
    port: Option<string>,
    path: string,
    escapedPath: string,
    forceQuery: bool,
    rawQuery: string,
    fragment: string,
    escapedFragment: string)

  /** The URL parser: `None` where Go's `url.Parse` returns an error. */
  type Parser = string -> Option<Url>

  /** Hosts accepted by `isTweetURL` of the command-handler flow. */
  const TweetHosts: set<string> := {"twitter.com", "www.twitter.com", "x.com", "www.x.com"}

  /** Hosts accepted by `isTweetURL` of the legacy dispatcher: no x.com. */
  const LegacyTweetHosts: set<string> := {"twitter.com", "www.twitter.com"}

  /** `^/[^/]+/status/\d+$`: splitting on `/` gives an empty piece, a
      non-empty user, `status`, and a non-empty run of ASCII digits. */
  predicate IsTweetPath(path: string) {
    var parts := Split(path, '/');
    && |parts| == 4
    && parts[0] == []
    && parts[1] != []
    && parts[2] == "status"
    && parts[3] != []
    && forall i | 0 <= i < |parts[3]| :: IsAsciiDigit(parts[3][i])
  }

  /** `isTweetURL`: the trimmed text parses, its host is allowed and its
      decoded path has the status shape. The query and the fragment are not
      looked at. */
  predicate IsTweetUrl(parse: Parser, hosts: set<string>, raw: string) {
    match parse(TrimSpace(raw))
    case None => false
    case Some(u) => u.host in hosts && IsTweetPath(u.path)
  }

  /** Go's `URL.String()` for a URL that is not in opaque form. */
  function Render(u: Url): string {
    Authority(u) + PathPart(u) + QueryPart(u) + FragmentPart(u)
  }

  /** Go's `Host` field: the host name, then its colon and port, if any. */
  function HostPort(u: Url): string {
    u.host + (if u.port.None? then [] else ":" + u.port.value)
  }

  /** Everything before the path: `scheme:`, then `//`, the userinfo with
      its `@` and the host, when there is a scheme, a host or a userinfo. */
  function Authority(u: Url): string {
    (if u.scheme == [] then [] else u.scheme + ":")
    + if u.scheme == [] && HostPort(u) == [] && u.user.None? then []
      else
        (if HostPort(u) == [] && u.path == [] && u.user.None? then [] else "//")
        + (if u.user.None? then [] else u.user.value + "@")
        + HostPort(u)
  }

  /** The escaped path, after a `/` that Go inserts when a host is followed
      by a path not starting with one. */
  function PathPart(u: Url): string {
    var p := u.escapedPath;
    (if p != [] && p[0] != '/' && HostPort(u) != [] then "/" else []) + p
  }

  /** `?` and the raw query, when the query is non-empty or forced. */
  function QueryPart(u: Url): string {
    if u.forceQuery || u.rawQuery != [] then "?" + u.rawQuery else []
  }

  /** `#` and the escaped fragment, when the fragment is non-empty. */
  function FragmentPart(u: Url): string {
    if u.fragment == [] then [] else "#" + u.escapedFragment
  }

  /** The `?` that a forced empty query leaves behind. */
  function ForcedMark(u: Url): string {
    if u.forceQuery then "?" else []
  }

  /** `parsedUrl.RawQuery = ""`: the forced-query flag is not touched. */
  function StripQuery(u: Url): (v: Url)
    ensures v.rawQuery == [] && v.forceQuery == u.forceQuery
    ensures v.(rawQuery := u.rawQuery) == u
  {
    u.(rawQuery := [])
  }

  /** The link stored by the flow: the URL rendered again without its query. */
  function NormalizedLink(u: Url): string {
    Render(StripQuery(u))
  }

  /** The rendered URL in three parts: everything up to the path, the
      query part, the fragment part. */
  lemma RenderParts(u: Url)
    ensures Render(u) == Head(u) + QueryPart(u) + FragmentPart(u)
    ensures NormalizedLink(u) == Head(u) + ForcedMark(u) + FragmentPart(u)
  {
    var v := StripQuery(u);
    assert Authority(v) == Authority(u) && PathPart(v) == PathPart(u) && FragmentPart(v) == FragmentPart(u);
    assert QueryPart(v) == ForcedMark(u);
  }

  /** Scheme, authority and escaped path. */
  function Head(u: Url): string {
    Authority(u) + PathPart(u)
  }

  /** Stripping removes exactly the query text, and its `?` unless the query
      was forced; scheme, userinfo, host, port, escaped path and fragment are
      kept, and a forced query leaves a bare `?` before the fragment. */
  lemma StripQueryRemovesQuery(u: Url)
    ensures var n := NormalizedLink(u);
      var k := |n| - |FragmentPart(u)|;
      && 0 <= k <= |n|
      && n[..k] == Authority(u) + PathPart(u) + ForcedMark(u)
      && n[k..] == FragmentPart(u)
      && Render(u) == n[..k] + (if u.forceQuery || u.rawQuery == [] then u.rawQuery else "?" + u.rawQuery) + n[k..]
  {
    RenderParts(u);
    var q := QueryPart(u);
    var m := ForcedMark(u);
    var d := if u.forceQuery || u.rawQuery == [] then u.rawQuery else "?" + u.rawQuery;
    assert q == m + d;
    Cut(Head(u), m, d, FragmentPart(u));
  }

  /** Cutting `a + b + c` before `c`, and putting `d` in the cut. */
  lemma Cut(a: string, b: string, d: string, c: string)
    ensures var n := a + b + c;
      var k := |n| - |c|;
      && 0 <= k <= |n| && n[..k] == a + b && n[k..] == c
      && a + (b + d) + c == n[..k] + d + n[k..]
  {
  }

  /** `extractTweetID`: the last piece after splitting on `/`. */
  function ExtractTweetId(link: string): (id: string)
  {
    var parts := Split(link, '/');
    parts[|parts| - 1]
  }

  /** Splitting at one separator splits the two sides independently. */
  lemma {:induction false} SplitAppend(a: string, sep: char, b: string)
    ensures Split(a + [sep] + b, sep) == Split(a, sep) + Split(b, sep)
  {
    if a == [] {
      assert a + [sep] + b == [sep] + b;
      assert ([sep] + b)[1..] == b;
    } else {
      SplitAppend(a[1..], sep, b);
      HeadTail(a, sep, b);
      SplitAppendCons(a[0], a[1..], sep, b);
    }
  }

  lemma HeadTail(a: string, sep: char, b: string)
    requires a != []
    ensures a + [sep] + b == [a[0]] + (a[1..] + [sep] + b)
    ensures a == [a[0]] + a[1..]
  {
  }

  /** The inductive step of `SplitAppend`: one more character in front. */
  lemma SplitAppendCons(c: char, t: string, sep: char, b: string)
    requires Split(t + [sep] + b, sep) == Split(t, sep) + Split(b, sep)
    ensures Split([c] + (t + [sep] + b), sep) == Split([c] + t, sep) + Split(b, sep)
  {
    if c == sep {
      ConsSepAppend(t, sep, b);
    } else {
      ConsOtherAppend(c, t, sep, b);
    }
  }

  lemma ConsSepAppend(t: string, sep: char, b: string)
    requires Split(t + [sep] + b, sep) == Split(t, sep) + Split(b, sep)
    ensures Split([sep] + (t + [sep] + b), sep) == Split([sep] + t, sep) + Split(b, sep)
  {
    var r, st, sb := t + [sep] + b, Split(t, sep), Split(b, sep);
    SplitConsSep(r, sep);
    SplitConsSep(t, sep);
    calc {
      Split([sep] + r, sep);
      [[]] + Split(r, sep);
      [[]] + (st + sb);
      ([[]] + st) + sb;
      Split([sep] + t, sep) + sb;
    }
  }

  lemma ConsOtherAppend(c: char, t: string, sep: char, b: string)
    requires c != sep
    requires Split(t + [sep] + b, sep) == Split(t, sep) + Split(b, sep)
    ensures Split([c] + (t + [sep] + b), sep) == Split([c] + t, sep) + Split(b, sep)
  {
    SplitCons(c, t + [sep] + b, sep);
    SplitCons(c, t, sep);
    ConsFirstPiece(c, Split(t, sep), Split(b, sep));
  }

  /** One unfolding of `Split` at a separator. */
  lemma SplitConsSep(r: string, sep: char)
    ensures Split([sep] + r, sep) == [[]] + Split(r, sep)
  {
    assert ([sep] + r)[0] == sep && ([sep] + r)[1..] == r;
  }

  /** One unfolding of `Split` at any other character. */
  lemma SplitCons(c: char, r: string, sep: char)
    requires c != sep
    ensures Split([c] + r, sep) == [[c] + Split(r, sep)[0]] + Split(r, sep)[1..]
  {
    assert ([c] + r)[0] == c && ([c] + r)[1..] == r;
  }

  /** Extending the first piece commutes with appending more pieces. */
  lemma ConsFirstPiece(c: char, ra: seq<string>, rb: seq<string>)
    requires |ra| >= 1
    ensures [[c] + (ra + rb)[0]] + (ra + rb)[1..] == ([[c] + ra[0]] + ra[1..]) + rb
  {
    assert (ra + rb)[1..] == ra[1..] + rb;
  }

  /** A string without the separator is one piece. */
  lemma {:induction false} SplitFree(s: string, sep: char)
    requires forall i | 0 <= i < |s| :: s[i] != sep
    ensures Split(s, sep) == [s]
  {
    if s != [] {
      SplitFree(s[1..], sep);
      assert [s[0]] + s[1..] == s;
    }
  }

  /** The extracted ID never contains `/`, is a suffix of the link, and is
      preceded by `/` whenever the link contains one. */
  lemma ExtractTweetIdSpec(link: string)
    ensures var id := ExtractTweetId(link);
      && (forall i | 0 <= i < |id| :: id[i] != '/')
      && |id| <= |link| && link[|link| - |id|..] == id
      && (HasSep(link, '/') ==> |id| < |link| && link[|link| - |id| - 1] == '/')
  {
    SplitPiecesFree(link, '/');
    SuffixAfterLastSep(link);
  }

  predicate HasSep(s: string, sep: char) {
    exists i | 0 <= i < |s| :: s[i] == sep
  }

  /** Index of the last `sep` in `s`, or -1 when there is none. */
  function LastIndexOf(s: string, sep: char): (j: int)
    ensures -1 <= j < |s|
    ensures j >= 0 ==> s[j] == sep
    ensures forall i | j < i < |s| :: s[i] != sep
  {
    if s == [] then -1
    else if s[|s| - 1] == sep then |s| - 1
    else LastIndexOf(s[..|s| - 1], sep)
  }

  lemma SuffixAfterLastSep(s: string)
    ensures var parts := Split(s, '/');
      var id := parts[|parts| - 1];
      && |id| <= |s| && s[|s| - |id|..] == id
      && (HasSep(s, '/') ==> |id| < |s| && s[|s| - |id| - 1] == '/')
  {
    var j := LastIndexOf(s, '/');
    if j < 0 {
      SplitFree(s, '/');
    } else {
      var pre := s[..j];
      var tail := s[j + 1..];
      assert s == pre + ['/'] + tail;
      SplitAppend(pre, '/', tail);
      SplitFree(tail, '/');
      var parts := Split(s, '/');
      assert parts[|parts| - 1] == tail;
    }
  }

  /** A tweet path is `/<user>/status/<digits>` with `/`-free user and digits,
      and every such string is a tweet path. */
  lemma TweetPathShape(path: string)
    requires IsTweetPath(path)
    ensures var parts := Split(path, '/');
      path == "/" + parts[1] + "/status/" + parts[3]
  {
    var parts := Split(path, '/');
    JoinSplit(path, '/');
    assert parts[1..][1..] == parts[2..];
    assert parts[2..][1..] == parts[3..];
    assert Join(parts[3..], '/') == parts[3];
    assert Join(parts[2..], '/') == "status" + ['/'] + parts[3];
    assert Join(parts[1..], '/') == parts[1] + ['/'] + ("status" + ['/'] + parts[3]);
    assert Join(parts, '/') == [] + ['/'] + (parts[1] + ['/'] + ("status" + ['/'] + parts[3]));
  }

  lemma TweetPathOf(user: string, id: string)
    requires user != [] && forall i | 0 <= i < |user| :: user[i] != '/'
    requires id != [] && forall i | 0 <= i < |id| :: IsAsciiDigit(id[i])
    ensures Split("/" + user + "/status/" + id, '/') == [[], user, "status", id]
    ensures IsTweetPath("/" + user + "/status/" + id)
  {
    var rest := user + ['/'] + ("status" + ['/'] + id);
    var p := "/" + user + "/status/" + id;
    assert p == [] + ['/'] + rest;
    SplitUserStatus(user, id);
    SplitAppend([], '/', rest);
  }

  /** The pieces after the leading `/`. */
  lemma SplitUserStatus(user: string, id: string)
    requires forall i | 0 <= i < |user| :: user[i] != '/'
    requires forall i | 0 <= i < |id| :: IsAsciiDigit(id[i])
    ensures Split(user + ['/'] + ("status" + ['/'] + id), '/') == [user, "status", id]
  {
    SplitStatusId(id);
    SplitFree(user, '/');
    SplitAppend(user, '/', "status" + ['/'] + id);
  }

  lemma SplitStatusId(id: string)
    requires forall i | 0 <= i < |id| :: IsAsciiDigit(id[i])
    ensures Split("status" + ['/'] + id, '/') == ["status", id]
  {
    assert forall i | 0 <= i < |id| :: id[i] != '/' by {
      forall i | 0 <= i < |id| ensures id[i] != '/' {
        assert IsAsciiDigit(id[i]);
      }
    }
    SplitFree(id, '/');
    var st := "status";
    SplitStatus();
    SplitAppend(st, '/', id);
  }

  lemma SplitStatus()
    ensures Split("status", '/') == ["status"]
  {
    var st := "status";
    assert |st| == 6;
    forall i | 0 <= i < 6 ensures st[i] != '/' {
      assert st[i] in {'s', 't', 'a', 'u'};
    }
    SplitFree(st, '/');
  }

  /** Joining the pieces of a split with the separator gives the string back. */
  function Join(parts: seq<string>, sep: char): string
    requires |parts| >= 1
  {
    if |parts| == 1 then parts[0] else parts[0] + [sep] + Join(parts[1..], sep)
  }

  lemma {:induction false} JoinSplit(s: string, sep: char)
    ensures Join(Split(s, sep), sep) == s
  {
    if s != [] {
      JoinSplit(s[1..], sep);
      JoinSplitCons(s, sep);
    }
  }

  /** The inductive step of `JoinSplit`. */
  lemma JoinSplitCons(s: string, sep: char)
    requires s != [] && Join(Split(s[1..], sep), sep) == s[1..]
    ensures Join(Split(s, sep), sep) == s
  {
    var rest := Split(s[1..], sep);
    if s[0] == sep {
      assert Split(s, sep) == [[]] + rest;
      assert ([[]] + rest)[1..] == rest;
    } else {
      var parts := Split(s, sep);
      assert parts == [[s[0]] + rest[0]] + rest[1..];
      if |rest| > 1 {
        assert parts[1..] == rest[1..];
      }
    }
  }

  /** After the last separator only the `/`-free tail remains. */
  lemma LastPieceAfterSep(pre: string, tail: string)
    requires forall i | 0 <= i < |tail| :: tail[i] != '/'
    ensures ExtractTweetId(pre + ['/'] + tail) == tail
  {
    SplitAppend(pre, '/', tail);
    SplitFree(tail, '/');
  }

  /** The piece after the last `/`, and what comes before that `/`. */
  lemma LastPiece(s: string) returns (pre: string)
    ensures forall i | 0 <= i < |ExtractTweetId(s)| :: ExtractTweetId(s)[i] != '/'
    ensures HasSep(s, '/') ==> s == pre + ['/'] + ExtractTweetId(s)
    ensures !HasSep(s, '/') ==> ExtractTweetId(s) == s
  {
    var id := ExtractTweetId(s);
    ExtractTweetIdSpec(s);
    pre := [];
    if HasSep(s, '/') {
      pre := s[..|s| - |id| - 1];
      assert s == pre + ['/'] + id;
    } else {
      forall i | 0 <= i < |s| ensures s[i] != '/' {
        assert !(s[i] == '/');
      }
      SplitFree(s, '/');
    }
  }

  /** Text without `/` after a link that has one lands in its ID. */
  lemma IdAppendFree(s: string, x: string)
    requires HasSep(s, '/') && NoSlash(x)
    ensures ExtractTweetId(s + x) == ExtractTweetId(s) + x
  {
    var pre := LastPiece(s);
    var id := ExtractTweetId(s);
    assert s + x == pre + ['/'] + (id + x);
    assert NoSlash(id);
    NoSlashConcat(id, x);
    LastPieceAfterSep(pre, id + x);
  }

  /** No `/` anywhere in the text. */
  predicate NoSlash(s: string) {
    forall i | 0 <= i < |s| :: s[i] != '/'
  }

  lemma NoSlashConcat(a: string, b: string)
    requires NoSlash(a) && NoSlash(b)
    ensures NoSlash(a + b)
  {
    forall i | 0 <= i < |a + b| ensures (a + b)[i] != '/' {
      if i >= |a| { assert (a + b)[i] == b[i - |a|]; }
    }
  }

  /** After a `/`-ended or `/`-holding prefix, a path ends in its own last
      piece. */
  lemma SlashPathId(auth: string, e: string, slash: string)
    requires e != [] && slash == (if e[0] != '/' then "/" else [])
    ensures HasSep(auth + slash + e, '/')
    ensures ExtractTweetId(auth + slash + e) == ExtractTweetId(e)
  {
    var pre := LastPiece(e);
    if HasSep(e, '/') {
      SepPathId(auth + slash, e, pre);
      assert auth + slash + e == (auth + slash) + e;
    } else {
      FreePathId(auth, e);
    }
  }

  /** A path holding a `/` keeps its last piece behind any prefix. */
  lemma SepPathId(a: string, e: string, pre: string)
    requires e == pre + ['/'] + ExtractTweetId(e)
    requires forall i | 0 <= i < |ExtractTweetId(e)| :: ExtractTweetId(e)[i] != '/'
    ensures HasSep(a + e, '/')
    ensures ExtractTweetId(a + e) == ExtractTweetId(e)
  {
    SepInPath(a, pre, ExtractTweetId(e));
    assert a + e == a + pre + ['/'] + ExtractTweetId(e);
  }

  /** A `/`-free path gets a `/` in front, and is then the last piece. */
  lemma FreePathId(auth: string, e: string)
    requires e != [] && !HasSep(e, '/') && ExtractTweetId(e) == e
    requires forall i | 0 <= i < |ExtractTweetId(e)| :: ExtractTweetId(e)[i] != '/'
    ensures e[0] != '/'
    ensures HasSep(auth + "/" + e, '/')
    ensures ExtractTweetId(auth + "/" + e) == e
  {
    assert e[0] == ExtractTweetId(e)[0];
    SepInPath(auth, [], e);
    assert auth + "/" + e == auth + [] + ['/'] + e;
  }

  /** The piece after a last `/`, with the `/` witnessed. */
  lemma SepInPath(a: string, pre: string, id: string)
    requires NoSlash(id)
    ensures HasSep(a + pre + ['/'] + id, '/')
    ensures ExtractTweetId(a + pre + ['/'] + id) == id
  {
    assert (a + pre + ['/'] + id)[|a + pre|] == '/';
    LastPieceAfterSep(a + pre, id);
  }

  /** Behind a host, the rendered path ends in the last piece of the
      escaped path. */
  lemma PathId(u: Url)
    requires u.host != [] && u.escapedPath != []
    ensures HasSep(Head(u), '/')
    ensures ExtractTweetId(Head(u)) == ExtractTweetId(u.escapedPath)
  {
    var e := u.escapedPath;
    var slash := if e[0] != '/' then "/" else [];
    assert HostPort(u) != [];
    assert PathPart(u) == slash + e;
    assert Head(u) == Authority(u) + slash + e;
    SlashPathId(Authority(u), e, slash);
  }

  /** The ID of a stored link without a fragment: the last piece of the
      escaped path, followed by the `?` of a forced query. When the path is
      rendered as decoded, that piece is the status number. `EscapedPath()`
      of a non-empty path is never empty. */
  lemma ExtractIdOfTweetLink(u: Url)
    requires IsTweetPath(u.path) && u.host != [] && u.escapedPath != [] && u.fragment == []
    ensures ExtractTweetId(NormalizedLink(u)) == ExtractTweetId(u.escapedPath) + ForcedMark(u)
    ensures u.escapedPath == u.path ==> ExtractTweetId(NormalizedLink(u)) == Split(u.path, '/')[3] + ForcedMark(u)
  {
    RenderParts(u);
    assert NormalizedLink(u) == Head(u) + ForcedMark(u);
    PathId(u);
    assert NoSlash(ForcedMark(u));
    IdAppendFree(Head(u), ForcedMark(u));
    if u.escapedPath == u.path {
      PathIdIsStatus(u.path);
    }
  }

  /** The last piece of a tweet path is its status number. */
  lemma PathIdIsStatus(path: string)
    requires IsTweetPath(path)
    ensures ExtractTweetId(path) == Split(path, '/')[3]
  {
    var head := TweetPathTail(path);
    LastPieceAfterSep(head, Split(path, '/')[3]);
  }

  /** `extractTweetID` of the link shown with the `strings.Split` call:
      `https://x.com/u/status/999` gives `999`. */
  lemma ExtractIdExample()
    ensures ExtractTweetId("https://x.com/u/status/999") == "999"
  {
    var pre := "https://x.com/u/status";
    var id := "999";
    assert "https://x.com/u/status/999" == pre + ['/'] + id;
    LastPieceAfterSep(pre, id);
  }

  /** A plain status link with a query. */
  const QueryLink: Url := Url("https", None, "x.com", None, "/u/status/999", "/u/status/999", false, "x=1", "", "")

  /** Stripping the query of `https://x.com/u/status/999?x=1` cuts `?x=1`
      off the end, and the stored link's ID is `999`. */
  lemma StripQueryExample()
    ensures Render(QueryLink) == NormalizedLink(QueryLink) + "?x=1"
    ensures ExtractTweetId(NormalizedLink(QueryLink)) == "999"
  {
    var u := QueryLink;
    RenderParts(u);
    assert QueryPart(u) == "?x=1" && ForcedMark(u) == [] && FragmentPart(u) == [];
    EmptyEnds(Head(u), "?x=1");
    TweetPathOf("u", "999");
    assert u.path == "/" + "u" + "/status/" + "999";
    ExtractIdOfTweetLink(u);
    assert Split(u.path, '/')[3] == "999";
  }

  lemma EmptyEnds(h: string, q: string)
    ensures h + q + [] == (h + [] + []) + q
  {
  }

  /** A fragment survives stripping, so its escaped form ends up inside the
      extracted ID, after the status number, any forced `?` and a `#`. */
  lemma FragmentReachesTweetId(u: Url)
    requires IsTweetPath(u.path) && u.host != [] && u.escapedPath != [] && u.fragment != []
    requires forall i | 0 <= i < |u.escapedFragment| :: u.escapedFragment[i] != '/'
    ensures ExtractTweetId(NormalizedLink(u)) == ExtractTweetId(u.escapedPath) + ForcedMark(u) + "#" + u.escapedFragment
    ensures u.escapedPath == u.path ==>
      ExtractTweetId(NormalizedLink(u)) == Split(u.path, '/')[3] + ForcedMark(u) + "#" + u.escapedFragment
  {
    RenderParts(u);
    PathId(u);
    HashTailId(Head(u), ForcedMark(u), u.escapedFragment);
    if u.escapedPath == u.path {
      PathIdIsStatus(u.path);
    }
  }

  /** A `/`-free mark, `#` and a `/`-free fragment all land in the ID. */
  lemma HashTailId(h: string, m: string, e: string)
    requires HasSep(h, '/') && NoSlash(m) && NoSlash(e)
    ensures ExtractTweetId(h + m + ("#" + e)) == ExtractTweetId(h) + m + "#" + e
  {
    assert NoSlash("#");
    NoSlashConcat("#", e);
    NoSlashConcat(m, "#" + e);
    assert h + m + ("#" + e) == h + (m + ("#" + e));
    IdAppendFree(h, m + ("#" + e));
  }

  // ---------------------------------------------------------------------
  // A forced empty query reaches the ID

  /** `https://x.com/u/status/1?`: Go's parser sets the forced-query flag. */
  const ForcedLink: Url := Url("https", None, "x.com", None, "/u/status/1", "/u/status/1", true, "", "", "")

  /** As written, the stored link keeps the bare `?`, so the extracted ID
      is `1?`, which is not a status number. */
  lemma ForcedQueryId()
    ensures IsTweetPath(ForcedLink.path)
    ensures NormalizedLink(ForcedLink) == "https://x.com/u/status/1?"
    ensures ExtractTweetId(NormalizedLink(ForcedLink)) == "1?"
  {
    ForcedPath();
    ForcedRender();
    assert "https://x.com/u/status" + ['/'] + "1?" == "https://x.com/u/status/1?";
    LastPieceAfterSep("https://x.com/u/status", "1?");
  }

  lemma ForcedPath()
    ensures IsTweetPath(ForcedLink.path)
  {
    TweetPathOf("u", "1");
    assert ForcedLink.path == "/" + "u" + "/status/" + "1";
  }

  lemma ForcedRender()
    ensures NormalizedLink(ForcedLink) == "https://x.com/u/status" + ['/'] + "1?"
  {
    RenderParts(ForcedLink);
    assert HostPort(ForcedLink) == "x.com";
    assert Authority(ForcedLink) == "https://x.com";
  }

  /** `https://x.com:/u/status/1`: a colon with an empty port. */
  const ColonLink: Url := Url("https", None, "x.com", Some([]), "/u/status/1", "/u/status/1", false, [], [], [])

  /** The empty port's colon is stored with the link, and the ID is still
      the status number. */
  lemma EmptyPortKept()
    ensures IsTweetPath(ColonLink.path)
    ensures NormalizedLink(ColonLink) == "https://x.com:/u/status/1"
    ensures ExtractTweetId(NormalizedLink(ColonLink)) == "1"
  {
    ColonPath();
    ColonRender();
    assert "https://x.com:/u/status" + ['/'] + "1" == "https://x.com:/u/status/1";
    LastPieceAfterSep("https://x.com:/u/status", "1");
  }

  lemma ColonPath()
    ensures IsTweetPath(ColonLink.path)
  {
    TweetPathOf("u", "1");
    assert ColonLink.path == "/" + "u" + "/status/" + "1";
  }

  lemma ColonRender()
    ensures NormalizedLink(ColonLink) == "https://x.com:/u/status" + ['/'] + "1"
  {
    RenderParts(ColonLink);
    assert HostPort(ColonLink) == "x.com:";
    assert Authority(ColonLink) == "https://x.com:";
  }

  /** The link without any query: the raw query and the forced `?` are both
      dropped. */
  function CanonicalLink(u: Url): (link: string)
    ensures link == Render(u.(rawQuery := [], forceQuery := false))
    ensures link == Authority(u) + PathPart(u) + FragmentPart(u)
  {
    Render(u.(rawQuery := [], forceQuery := false))
  }

  /** Without the query, the ID of a status link with no fragment is the
      status number: a non-empty run of digits. */
  lemma CanonicalLinkId(u: Url)
    requires IsTweetPath(u.path) && u.host != [] && u.escapedPath == u.path && u.fragment == []
    ensures ExtractTweetId(CanonicalLink(u)) == Split(u.path, '/')[3]
    ensures var id := ExtractTweetId(CanonicalLink(u));
      id != [] && forall i | 0 <= i < |id| :: IsAsciiDigit(id[i])
  {
    var v := u.(forceQuery := false);
    ExtractIdOfTweetLink(v);
    assert CanonicalLink(u) == NormalizedLink(v);
  }

  /** A tweet path is its status number after a last `/`. */
  lemma TweetPathTail(path: string) returns (head: string)
    requires IsTweetPath(path)
    ensures path == head + ['/'] + Split(path, '/')[3]
    ensures forall i | 0 <= i < |Split(path, '/')[3]| :: Split(path, '/')[3][i] != '/'
  {
    var parts := Split(path, '/');
    TweetPathShape(path);
    SplitPiecesFree(path, '/');
    head := "/" + parts[1] + "/status";
    assert path == head + ['/'] + parts[3];
  }

  /** The allow-lists: x.com is accepted by the command-handler flow only. */
  lemma HostExamples(parse: Parser, raw: string, u: Url)
    requires parse(TrimSpace(raw)) == Some(u) && IsTweetPath(u.path)
    ensures u.host == "x.com" ==> IsTweetUrl(parse, TweetHosts, raw) && !IsTweetUrl(parse, LegacyTweetHosts, raw)
    ensures u.host == "example.com" ==> !IsTweetUrl(parse, TweetHosts, raw)
    ensures IsTweetUrl(parse, LegacyTweetHosts, raw) ==> IsTweetUrl(parse, TweetHosts, raw)
  {
  }
}

=== FILE: validators.dfy ===
/** The input validators of the configuration flow: token name, hashtags,
    cashtags and community description. Each is a pure, total predicate. */
module Validators {
  import opened Text

  /** `^[\p{L}\p{N}]+$`: one or more letters or digits. */
  predicate IsTokenName(u: Classes, s: string) {
    |s| > 0 && forall i | 0 <= i < |s| :: u.letter(s[i]) || u.number(s[i])
  }

  /** A tag grammar `^(P[B]+)( P[B]+)*$`: tags made of the prefix `p`
      followed by one or more body characters, separated by single spaces. */
  datatype Grammar = Grammar(prefix: char, body: char -> bool)

  /** The prefix and the space are never body characters, and differ. */
  predicate Proper(g: Grammar) {
    g.prefix != ' ' && !g.body(g.prefix) && !g.body(' ')
  }

  /** The regular expression as a left-to-right scan (the automaton RE2
      runs): a tag, then either the end or a space and another list. */
  predicate Matches(g: Grammar, s: string)
    decreases |s|, 1
  {
    |s| >= 2 && s[0] == g.prefix && g.body(s[1]) && AfterBody(g, s[2..])
  }

  /** The scan after at least one body character of the current tag. */
  predicate AfterBody(g: Grammar, t: string)
    decreases |t|, 0
  {
    || t == []
    || (g.body(t[0]) && AfterBody(g, t[1..]))
    || (t[0] == ' ' && Matches(g, t[1..]))
  }

  /** One tag: the prefix and a non-empty run of body characters. */
  predicate IsTag(g: Grammar, t: string) {
    |t| >= 2 && t[0] == g.prefix && forall i | 1 <= i < |t| :: g.body(t[i])
  }

  /** The reference reading: split on single spaces, every piece a tag. */
  predicate AllTags(g: Grammar, s: string) {
    forall k | 0 <= k < |Split(s, ' ')| :: IsTag(g, Split(s, ' ')[k])
  }

  /** Every piece after the first is a tag. */
  predicate TailTags(g: Grammar, parts: seq<string>) {
    forall k | 1 <= k < |parts| :: IsTag(g, parts[k])
  }

  predicate AllBody(g: Grammar, t: string) {
    forall i | 0 <= i < |t| :: g.body(t[i])
  }

  lemma {:induction false} AfterBodyIsSplit(g: Grammar, t: string)
    requires Proper(g)
    ensures var parts := Split(t, ' ');
      AfterBody(g, t) <==> AllBody(g, parts[0]) && TailTags(g, parts)
    decreases |t|, 0
  {
    if t == [] {
    } else if t[0] == ' ' {
      MatchesIsSplit(g, t[1..]);
      SpaceSplit(g, t);
    } else {
      if g.body(t[0]) {
        AfterBodyIsSplit(g, t[1..]);
      }
      BodySplit(g, t);
    }
  }

  /** A leading space closes an empty first piece; the other pieces are
      those of the rest. */
  lemma SpaceSplit(g: Grammar, t: string)
    requires t != [] && t[0] == ' '
    ensures var parts := Split(t, ' ');
      && parts[0] == []
      && (AllTags(g, t[1..]) <==> TailTags(g, parts))
  {
    var parts := Split(t, ' ');
    var rest := Split(t[1..], ' ');
    assert parts == [[]] + rest;
    assert forall k | 1 <= k < |parts| :: parts[k] == rest[k - 1];
    if AllTags(g, t[1..]) {
      forall k | 1 <= k < |parts| ensures IsTag(g, parts[k]) {
        assert parts[k] == rest[k - 1];
      }
    }
    if TailTags(g, parts) {
      forall k | 0 <= k < |rest| ensures IsTag(g, rest[k]) {
        assert parts[k + 1] == rest[k];
      }
    }
  }

  /** Any other leading character joins the first piece of the rest. */
  lemma BodySplit(g: Grammar, t: string)
    requires t != [] && t[0] != ' '
    ensures var parts := Split(t, ' ');
      var rest := Split(t[1..], ' ');
      && (AllBody(g, parts[0]) <==> g.body(t[0]) && AllBody(g, rest[0]))
      && (TailTags(g, parts) <==> TailTags(g, rest))
  {
    var parts := Split(t, ' ');
    var rest := Split(t[1..], ' ');
    assert parts == [[t[0]] + rest[0]] + rest[1..];
    assert parts[0] == [t[0]] + rest[0];
    assert |parts| == |rest| && parts[1..] == rest[1..];
    ConsAllBody(g, t[0], rest[0]);
    SameTailTags(g, parts, rest);
  }

  /** Two piece lists that agree after the first piece agree on whether
      those pieces are tags. */
  lemma SameTailTags(g: Grammar, xs: seq<string>, ys: seq<string>)
    requires |xs| == |ys| >= 1 && xs[1..] == ys[1..]
    ensures TailTags(g, xs) <==> TailTags(g, ys)
  {
    assert forall k | 1 <= k < |xs| :: xs[k] == xs[1..][k - 1] && ys[k] == ys[1..][k - 1];
  }

  lemma ConsAllBody(g: Grammar, c: char, t: string)
    ensures AllBody(g, [c] + t) <==> g.body(c) && AllBody(g, t)
  {
    var ct := [c] + t;
    if g.body(c) && AllBody(g, t) {
      forall i | 0 <= i < |ct| ensures g.body(ct[i]) {
        if i > 0 { assert ct[i] == t[i - 1]; }
      }
    }
    if AllBody(g, ct) {
      assert g.body(ct[0]);
      forall i | 0 <= i < |t| ensures g.body(t[i]) {
        assert ct[i + 1] == t[i];
      }
    }
  }

  /** The scan accepts exactly the strings whose space-separated pieces are
      all tags. */
  lemma {:induction false} MatchesIsSplit(g: Grammar, s: string)
    requires Proper(g)
    ensures Matches(g, s) <==> AllTags(g, s)
    decreases |s|, 1
  {
    if !(|s| >= 2 && s[0] == g.prefix && g.body(s[1])) {
      FirstPieceNotTag(g, s);
    } else {
      AfterBodyIsSplit(g, s[2..]);
      PrefixBodySplit(g, s);
    }
  }

  /** After a prefix and a body character, the pieces are those of the
      rest, the first one extended by the two characters. */
  lemma PrefixBodySplit(g: Grammar, s: string)
    requires Proper(g) && |s| >= 2 && s[0] == g.prefix && g.body(s[1])
    ensures var r2 := Split(s[2..], ' ');
      AllTags(g, s) <==> AllBody(g, r2[0]) && TailTags(g, r2)
  {
    var parts := Split(s, ' ');
    var r1 := Split(s[1..], ' ');
    var r2 := Split(s[2..], ' ');
    assert parts == [[s[0]] + r1[0]] + r1[1..];
    assert s[1..][1..] == s[2..];
    assert r1 == [[s[1]] + r2[0]] + r2[1..];
    assert parts[0] == [s[0], s[1]] + r2[0];
    assert |parts| == |r2|;
    assert forall k | 1 <= k < |parts| :: parts[k] == r2[k];
    assert IsTag(g, parts[0]) <==> AllBody(g, r2[0]) by {
      if AllBody(g, r2[0]) {
        forall i | 1 <= i < |parts[0]| ensures g.body(parts[0][i]) {
          if i > 1 { assert parts[0][i] == r2[0][i - 2]; }
        }
      }
      if IsTag(g, parts[0]) {
        forall i | 0 <= i < |r2[0]| ensures g.body(r2[0][i]) {
          assert parts[0][i + 2] == r2[0][i];
        }
      }
    }
  }

  /** A string that does not open with the prefix and a body character has
      a first piece that is no tag. */
  lemma FirstPieceNotTag(g: Grammar, s: string)
    requires Proper(g)
    requires !(|s| >= 2 && s[0] == g.prefix && g.body(s[1]))
    ensures !IsTag(g, Split(s, ' ')[0])
  {
    var parts := Split(s, ' ');
    if s == [] {
      assert parts == [[]];
    } else if s[0] == g.prefix {
      var r1 := Split(s[1..], ' ');
      assert parts == [[s[0]] + r1[0]] + r1[1..];
      if |s| == 1 {
        assert r1 == [[]];
      } else {
        assert s[1..][0] == s[1];
        assert parts[0] == [s[0]] + r1[0];
        if s[1] == ' ' {
          assert r1 == [[]] + Split(s[1..][1..], ' ');
          assert parts[0] == [s[0]];
        } else {
          var r2 := Split(s[1..][1..], ' ');
          assert r1 == [[s[1]] + r2[0]] + r2[1..];
          assert parts[0][1] == s[1];
        }
      }
    } else if s[0] == ' ' {
      assert parts[0] == [];
    } else {
      assert parts[0][0] == s[0];
    }
  }

  /** Hashtag body `[\p{L}\p{N}_]`. */
  function HashtagGrammar(u: Classes): Grammar {
    Grammar('#', c => u.letter(c) || u.number(c) || c == '_')
  }

  /** Cashtag body `[A-Za-z0-9]`: ASCII only. */
  function CashtagGrammar(): Grammar {
    Grammar('$', c => IsAsciiLetter(c) || IsAsciiDigit(c))
  }

  /** `validateHashtags` (config/command.go). */
  predicate IsHashtags(u: Classes, s: string) {
    Matches(HashtagGrammar(u), s)
  }

  /** `validateCashtags` (config/command.go). */
  predicate IsCashtags(s: string) {
    Matches(CashtagGrammar(), s)
  }

  /** `validateCommnunityDescription`: Go's `len`, a byte count, at most 500. */
  const MaxCommunityBytes := 500

  predicate IsCommunityDescription(s: string) {
    ByteLen(s) <= MaxCommunityBytes
  }

  /** One hashtag: `#` and one or more letters, digits or underscores. */
  predicate IsHashtag(u: Classes, t: string) {
    |t| >= 2 && t[0] == '#' && forall i | 1 <= i < |t| :: u.letter(t[i]) || u.number(t[i]) || t[i] == '_'
  }

  /** One cashtag: `$` and one or more ASCII letters or digits. */
  predicate IsCashtag(t: string) {
    |t| >= 2 && t[0] == '$' && forall i | 1 <= i < |t| :: IsAsciiLetter(t[i]) || IsAsciiDigit(t[i])
  }

  /** Every space-separated piece of `s` is a hashtag. */
  predicate HashtagPieces(u: Classes, s: string) {
    var parts := Split(s, ' ');
    forall k | 0 <= k < |parts| :: IsHashtag(u, parts[k])
  }

  /** Every space-separated piece of `s` is a cashtag. */
  predicate CashtagPieces(s: string) {
    var parts := Split(s, ' ');
    forall k | 0 <= k < |parts| :: IsCashtag(parts[k])
  }

  /** Hashtags are accepted exactly when every space-separated piece is a
      hashtag; so commas, double spaces, leading or trailing spaces and the
      empty string are rejected. */
  lemma HashtagsSpec(u: Classes, s: string)
    requires Sound(u)
    ensures IsHashtags(u, s) <==> HashtagPieces(u, s)
  {
    var g := HashtagGrammar(u);
    assert IsAscii('#') && IsAscii(' ');
    MatchesIsSplit(g, s);
    forall t: string ensures IsTag(g, t) <==> IsHashtag(u, t) {
    }
  }

  /** Cashtags are accepted exactly when every space-separated piece is a
      cashtag. */
  lemma CashtagsSpec(s: string)
    ensures IsCashtags(s) <==> CashtagPieces(s)
  {
    var g := CashtagGrammar();
    MatchesIsSplit(g, s);
    forall t: string ensures IsTag(g, t) <==> IsCashtag(t) {
    }
  }

  /** Every accepted tag list is non-empty and starts with the prefix, and a
      space in it is always followed by the prefix. */
  lemma {:induction false} MatchesShape(g: Grammar, s: string)
    requires Proper(g)
    requires Matches(g, s)
    ensures |s| >= 2 && s[0] == g.prefix && s[|s| - 1] != ' '
    ensures forall i | 0 <= i < |s| - 1 && s[i] == ' ' :: s[i + 1] == g.prefix
    decreases |s|, 1
  {
    AfterBodyShape(g, s[2..]);
    forall i | 0 <= i < |s| - 1 && s[i] == ' '
      ensures s[i + 1] == g.prefix
    {
      assert s[2..][i - 2] == s[i];
    }
  }

  lemma {:induction false} AfterBodyShape(g: Grammar, t: string)
    requires Proper(g)
    requires AfterBody(g, t)
    ensures t == [] || t[|t| - 1] != ' '
    ensures forall i | 0 <= i < |t| - 1 && t[i] == ' ' :: t[i + 1] == g.prefix
    ensures t != [] ==> t[0] == ' ' || g.body(t[0])
    decreases |t|, 0
  {
    if t == [] {
    } else if g.body(t[0]) && AfterBody(g, t[1..]) {
      AfterBodyShape(g, t[1..]);
      forall i | 0 <= i < |t| - 1 && t[i] == ' '
        ensures t[i + 1] == g.prefix
      {
        assert t[1..][i - 1] == t[i];
      }
    } else {
      MatchesShape(g, t[1..]);
      forall i | 0 <= i < |t| - 1 && t[i] == ' '
        ensures t[i + 1] == g.prefix
      {
        if i > 0 { assert t[1..][i - 1] == t[i]; }
      }
    }
  }

  /** A single tag of body characters is accepted. */
  lemma {:induction false} OneTag(g: Grammar, body: string)
    requires |body| >= 1 && AllBody(g, body)
    ensures Matches(g, [g.prefix] + body)
  {
    var s := [g.prefix] + body;
    assert s[1] == body[0];
    assert s[2..] == body[1..];
    AllBodyAfter(g, body[1..]);
  }

  lemma {:induction false} AllBodyAfter(g: Grammar, t: string)
    requires AllBody(g, t)
    ensures AfterBody(g, t)
  {
    if t != [] {
      AllBodyAfter(g, t[1..]);
    }
  }

  /** A tag, a space and an accepted list are accepted. */
  lemma {:induction false} ConsTag(g: Grammar, body: string, rest: string)
    requires |body| >= 1 && AllBody(g, body) && Matches(g, rest)
    ensures Matches(g, [g.prefix] + body + [' '] + rest)
  {
    var s := [g.prefix] + body + [' '] + rest;
    assert s[1] == body[0];
    assert s[2..] == body[1..] + [' '] + rest;
    BodyThenList(g, body[1..], rest);
  }

  lemma {:induction false} BodyThenList(g: Grammar, t: string, rest: string)
    requires AllBody(g, t) && Matches(g, rest)
    ensures AfterBody(g, t + [' '] + rest)
  {
    var x := t + [' '] + rest;
    if t == [] {
      assert x == [' '] + rest && x[1..] == rest;
    } else {
      assert x[0] == t[0] && x[1..] == t[1..] + [' '] + rest;
      BodyThenList(g, t[1..], rest);
    }
  }

  /** Hashtag lists the `^(#[\p{L}\p{N}_]+)( #[\p{L}\p{N}_]+)*$` pattern accepts, for any sound Unicode tables. */
  lemma HashtagExamples(u: Classes)
    requires Sound(u)
    ensures IsHashtags(u, "#A #B")
    ensures IsHashtags(u, "#my_token #TOKEN2")
  {
    TwoLetterTags(u);
    MixedTags(u);
  }

  lemma TwoLetterTags(u: Classes)
    requires Sound(u)
    ensures IsHashtags(u, "#A #B")
  {
    var g := HashtagGrammar(u);
    assert IsAscii('A') && IsAscii('B');
    OneTag(g, "B");
    ConsTag(g, "A", "#B");
    assert "#A #B" == ['#'] + "A" + [' '] + "#B";
  }

  lemma MixedTags(u: Classes)
    requires Sound(u)
    ensures IsHashtags(u, "#my_token #TOKEN2")
  {
    var g := HashtagGrammar(u);
    var b1 := "my_token";
    var b2 := "TOKEN2";
    AsciiWordBody(u, b1);
    AsciiWordBody(u, b2);
    OneTag(g, b2);
    ConsTag(g, b1, "#" + b2);
    assert "#my_token #TOKEN2" == ['#'] + b1 + [' '] + ("#" + b2);
  }

  /** ASCII letters, digits and `_` are hashtag body characters. */
  lemma AsciiWordBody(u: Classes, w: string)
    requires Sound(u)
    requires forall i | 0 <= i < |w| :: IsAsciiLetter(w[i]) || IsAsciiDigit(w[i]) || w[i] == '_'
    ensures AllBody(HashtagGrammar(u), w)
  {
    forall i | 0 <= i < |w| ensures HashtagGrammar(u).body(w[i]) {
      assert IsAscii(w[i]);
    }
  }

  /** Commas, double spaces, a missing prefix and the empty string are refused. */
  lemma HashtagRejections(u: Classes)
    requires Sound(u)
    ensures !IsHashtags(u, "#A, #B")
    ensures !IsHashtags(u, "#A  #B")
    ensures !IsHashtags(u, "")
    ensures !IsHashtags(u, "A")
  {
    var g := HashtagGrammar(u);
    assert IsAscii(',') && IsAscii(' ') && IsAscii('#');
    assert !g.body(',') && !g.body(' ') && !g.body('#');
    assert "#A, #B"[2..] == ", #B";
    assert !AfterBody(g, ", #B");
    assert "#A  #B"[2..] == "  #B";
    assert "  #B"[1..] == " #B";
    assert !Matches(g, " #B");
    assert !AfterBody(g, "  #B");
  }

  /** Cashtags are ASCII only and single-space separated. */
  lemma CashtagExamples()
    ensures IsCashtags("$TROLL")
    ensures IsCashtags("$A $B2")
    ensures !IsCashtags("$A_B")
    ensures !IsCashtags("#A")
    ensures !IsCashtags("$")
  {
    var g := CashtagGrammar();
    assert "$TROLL"[2..] == "ROLL";
    assert AfterBody(g, "") && AfterBody(g, "L") && AfterBody(g, "LL") && AfterBody(g, "OLL") && AfterBody(g, "ROLL");
    assert "$A $B2"[2..] == " $B2";
    assert " $B2"[1..] == "$B2";
    assert "$B2"[2..] == "2";
    assert AfterBody(g, "2");
    assert "$A_B"[2..] == "_B";
    assert !AfterBody(g, "_B");
  }

  /** Token names: letters and digits only, so `_` and spaces are refused. */
  lemma TokenNameExamples(u: Classes)
    requires Sound(u)
    ensures IsTokenName(u, "Trollana42")
    ensures !IsTokenName(u, "")
    ensures !IsTokenName(u, "MY TOKEN")
    ensures !IsTokenName(u, "MY_TOKEN")
  {
    var s := "Trollana42";
    assert forall i | 0 <= i < |s| :: IsAscii(s[i]) && (IsAsciiLetter(s[i]) || IsAsciiDigit(s[i]));
    assert "MY TOKEN"[2] == ' ' && IsAscii(' ');
    assert "MY_TOKEN"[2] == '_' && IsAscii('_');
  }

  /** The description bound is on bytes: 500 ASCII characters pass, 501 do
      not, and multi-byte characters count for more than one. */
  lemma CommunityBound(s: string)
    requires forall i | 0 <= i < |s| :: IsAscii(s[i])
    ensures IsCommunityDescription(s) <==> |s| <= 500
  {
    AsciiByteLen(s);
  }
}

=== FILE: wrappers.dfy ===
/** Failure-carrying datatypes shared by every module of the model. */
module Wrappers {

  /** A value that may be absent: a Go nil pointer, a missing map entry,
      or an external call that produced nothing. */
  datatype Option<+T> = None | Some(value: T)

  /** A value or an error tag: the Go `(value, error)` return pair. */
  datatype Result<+T, +E> = Ok(value: T) | Err(error: E)

  /** Go's map index `m[k]`: the stored value, or the zero value when absent. */
  function GetOr<K, V>(m: map<K, V>, k: K, zero: V): (v: V)
    ensures k in m ==> v == m[k]
    ensures k !in m ==> v == zero
  {
    if k in m then m[k] else zero
  }
}
